=== FILE: README.md ===
# Magasin back office in Dafny

This project models the data layer and workflow rules of Magasin, a small
shop back office written in Python on SQLite. The model covers:

- the six tables of its database: units (`unite`), warehouses (`entrepot`),
  articles, prices (`prix_article`), invoices (`facture`) and invoice lines
  (`facture_detail`);
- every `DatabaseManager` operation on those tables;
- the schema constraints and the seed data of `init_database`;
- the decision logic of the pages that write to the database. These are the
  article form, the sales screen's cart and sale recording, the sales report
  filters and the unit form.

The store is an immutable value (`Store.Store`). It holds six `Tables.Table`s:
rows in rowid order plus the table's AUTOINCREMENT counter. Every database
operation is a function from a store to an `Outcome(result, store)`. `Store.Valid`
collects the schema's invariants:

- rowids increase and stay below the counter;
- unit codes are unique;
- article references are unique;
- there is at most one price per (article, unit) pair;
- `actif` is 0 or 1.

Every writing operation is proved to keep `Valid`. `get_connection` never turns
foreign keys on, so no reference between tables is enforced or assumed.
Deleting a unit, warehouse or article row is therefore an unconditional
removal, and the lemmas show the dangling rows this leaves.

Module layout:

- `Wrappers`: `Option` and `Result`.
- `Tables`: rows, tables, `Insert`, `Where` (a filtered copy in order) and `UpdateWhere`.
- `Sorting`: a sort by a text key, for ORDER BY and `sorted`.
- `Text`: Python's `strip`, `upper`, `lower`, `in` on strings, `split` and string order.
- `Decimal`: `float()` on decimal text, and SQLite's INTEGER affinity.
- `Store`: entities, the store and the invariants.
- `Schema`: `init_database`.
- `Units`, `Articles`, `Prices`, `Warehouses`, `Invoices`: `DatabaseManager`.
- `ArticleForm`, `Cart`, `SalesReport`, `UnitForm`: the pages.

Two statements are modelled once because the source repeats them:

- `add_unite` (database/db_manager.py:318-329) runs the same INSERT as
  `create_unite`, so the unit form calls `Units.CreateUnite`.
- `get_prix_article_unite` (database/db_manager.py:305-316) is the same query
  as `get_prix_unitaire`, so `Cart.ShownPrice` calls `Prices.GetPrixUnitaire`.

`create_facture` is defined twice in the class. Python keeps the second
definition (database/db_manager.py:364-377), and that is the one modelled.

## Model

| member | source | states |
|---|---|---|
| Units.GetAllUnites | database/db_manager.py:22-29 | Lists every unit once, ordered by label. |
| Units.CreateUnite | database/db_manager.py:31-42 | Refuses, with `False` and no change, exactly when another unit already holds the code. Otherwise appends one row with the next id. The invariants are kept. |
| Units.UpdateUnite | database/db_manager.py:44-55 | Answers `False` with no change exactly when the row exists and another unit holds the new code. Otherwise rewrites only that row. An id with no row changes nothing and still answers `True`. |
| Units.DeleteUnite | database/db_manager.py:57-70 | Always answers `True` and removes exactly the row with that id. Prices and articles using the unit are not touched. |
| Articles.GetAllArticles | database/db_manager.py:72-79 | Returns exactly the articles with `actif = 1`, each once, sorted by name. |
| Articles.GetAllArticlesInactifs | database/db_manager.py:392-399 | Returns exactly the articles with `actif = 0`, each once, sorted by name. |
| Articles.ListingsPartitionArticles | database/db_manager.py:392-399 | Under the schema's invariants, the active and inactive listings together hold every article exactly once, and no article is in both. |
| Articles.CreateArticle | database/db_manager.py:81-92 | Answers `None`, with no change, exactly when the reference is taken. Otherwise returns the new id, which no earlier row had. The new row is active with no unit, and looking up that id finds it. |
| Articles.InsertArticleValid | database/init_db.py:34-44 | A row with a free reference and a 0/1 flag keeps the store valid, and its new id finds it. |
| Articles.AddArticle | database/db_manager.py:345-353 | Same as create but raises (an `Err`) instead of answering `None` when the reference is taken; a new article has no warehouse. |
| Articles.UpdateArticle | database/db_manager.py:94-105 | Answers `False` with no change exactly when the row exists and another article holds the reference. Otherwise rewrites the name, reference and warehouse of that row only. `actif` is kept. |
| Articles.DeleteArticle | database/db_manager.py:107-138 | Answers `False` with no change exactly when the id is absent. Otherwise sets that article's `actif` to 0 and changes nothing else. |
| Articles.DeleteArticleIdempotent | database/db_manager.py:107-138 | A second soft delete of the same id gives the same answer and the same store as the first. |
| Articles.ReactivateArticle | database/db_manager.py:401-413 | Always answers `True`. It sets `actif = 1` on that article only, and an absent id changes nothing. |
| Articles.SoftDeleteThenReactivateRestores | database/db_manager.py:401-413 | On an active article, a soft delete followed by a reactivation gives back the original store. |
| Articles.PurgePrices | database/db_manager.py:422 | Keeps exactly the prices of the other articles. |
| Articles.PurgeLines | database/db_manager.py:424 | Keeps exactly the invoice lines whose article column does not equal the integer id. |
| Articles.PurgeArticle | database/db_manager.py:426 | Keeps exactly the other articles, so the id is gone. |
| Articles.DeleteArticlePermanently | database/db_manager.py:415-437 | All or nothing. On success, no article row has the id and no price or line refers to it. Every other row is kept, and the units, warehouses and invoices are untouched. If any of the three statements fails, the answer is `False` and the store is the one before. |
| Articles.JoinedUnitLabel | database/db_manager.py:331-343 | The LEFT JOIN gives a label exactly when the article has a unit id naming an existing unit, and that label is the unit's. |
| Articles.GetAllArticlesWithUnite | database/db_manager.py:331-343 | Returns one entry per article, sorted by name, each the article joined with its unit's label. Every label comes from the unit row with that id. |
| Prices.JoinArticle | database/db_manager.py:144-157 | An entry is in the join exactly when it pairs one of the article's prices with the unit row that price names. |
| Prices.JoinOneAtMostOne | database/db_manager.py:144-157 | With unit ids unique, one price row joins with at most one unit row. |
| Prices.JoinArticleDistinct | database/init_db.py:46-56 | With unit ids and (article, unit) pairs unique, the article's join names each unit at most once. |
| Prices.GetPrixByArticle | database/db_manager.py:144-157 | The article's prices joined with their unit, sorted by unit label. It is a reordering of the join, entry for entry, so nothing is lost or repeated. A price whose unit row is gone is dropped. In a valid store each unit appears at most once. |
| Prices.GetUnitesByArticle | database/db_manager.py:159-172 | The same join seen from the units, sorted by label. An entry is there exactly when the article has a price in that unit and the unit row exists, and it carries that price. In a valid store there is one entry per priced unit. |
| Prices.FirstPrice | database/db_manager.py:174-185 | Finds a price exactly when the pair has a row, and the price found is that row's. |
| Prices.GetPrixUnitaire | database/db_manager.py:174-185 | `None` (never 0) exactly when the pair has no price row. Otherwise it is the price of the pair's only row. |
| Prices.CreatePrix | database/db_manager.py:187-201 | Answers `False` and keeps the old price exactly when the pair already has a row. Otherwise appends one row. |
| Prices.CreateThenGet | database/db_manager.py:174-201 | After a successful create, the pair reads back the new price. Every other pair reads what it read before. |
| Prices.AddPrixArticle | database/db_manager.py:355-361 | Nothing is caught. A taken pair raises an integrity error and a `None` article id raises a NOT NULL error, both with no change. Otherwise it does what a successful create does. |
| Prices.UpdatePrix | database/db_manager.py:203-218 | Rewrites the price of the pair's rows only, and answers `True` even when no row matched. |
| Prices.UpdateThenGet | database/db_manager.py:203-218 | After an update, the pair reads back the new price if it had a row, and still `None` if it had none. |
| Prices.DeletePrix | database/db_manager.py:220-233 | Removes exactly the pair's rows and answers `True`. |
| Prices.DeleteThenGet | database/db_manager.py:220-233 | After a delete, the pair reads `None`. |
| Prices.DeleteArticlePrices | ui/pages/article_page.py:649-652 | The raw delete of all of one article's prices. Exactly the other articles' prices remain, and the article is priced in no unit. |
| Warehouses.GetAllEntrepots | database/db_manager.py:438-444 | Lists every warehouse once, ordered by name. |
| Warehouses.CreateEntrepot | database/db_manager.py:446-456 | Always appends one row and returns its id. |
| Warehouses.DuplicateWarehouseNamesAllowed | database/init_db.py:25-30 | A warehouse name that is already used can be used again: the second warehouse gets its own fresh row. |
| Warehouses.UpdateEntrepot | database/db_manager.py:458-468 | Rewrites the name and location of that row only, and answers `True`. |
| Warehouses.DeleteEntrepot | database/db_manager.py:470-480 | Removes exactly that row, leaves the articles pointing at it, and answers `True`. |
| Warehouses.GetEntrepotById | database/db_manager.py:482-488 | Finds a warehouse exactly when the id has a row, and returns that row's data. |
| Warehouses.Percent | database/db_manager.py:512 | The share is 0 when the whole is 0. Otherwise it is 100 × part / whole, so it lies in [0, 100] and is 100 exactly when part equals whole. |
| Warehouses.EntrepotShare | database/db_manager.py:496-512 | The first count is the active articles in the warehouse, the second all active articles. The first is at most the second, and the percentage lies in [0, 100]. |
| Warehouses.FullShareIffAllActiveHere | database/db_manager.py:496-512 | The percentage is 100 exactly when there is an active article and every active article is in this warehouse. |
| Invoices.CreateFacture | database/db_manager.py:364-377 | Appends one invoice holding the caller's total, whatever it is, and returns its fresh id. |
| Invoices.AddArticleToFacture | database/db_manager.py:251-266 | Appends one line whose total is quantity × unit price, and answers `True`. |
| Invoices.AddFactureDetail | database/db_manager.py:379-390 | Appends one line holding the caller's total verbatim. |
| Invoices.AddLineAgreement | database/db_manager.py:379-390 | The two ways of adding a line give the same store exactly when the total passed is quantity × unit price. |
| Invoices.GetAllFactures | database/db_manager.py:287-294 | Lists every invoice once, latest date first. |
| Invoices.GetFactureById | database/db_manager.py:296-303 | Finds an invoice exactly when the id has a row, and returns that row's data. |
| Invoices.ViewLines | database/db_manager.py:268-285 | A view is listed exactly when it joins one of the invoice's lines with its article and its unit. |
| Invoices.GetFactureDetails | database/db_manager.py:268-285 | Shows only the invoice's own lines. Each entry is exactly its line's join: the article name, the unit label, and the article's warehouse name, or none under the left join. Every line whose article and unit rows exist is shown. In a valid store no line is shown twice. |
| Invoices.ViewLinesOrdered | database/db_manager.py:268-285 | The views follow the scan order of the lines, so with increasing line ids each line appears at most once. |
| Invoices.DetailViews | database/db_manager.py:268-285 | Proves the contract of `get_facture_details` on the scan of the line table. |
| Schema.InsertOrIgnoreFirstRow | database/init_db.py:92 | INSERT OR IGNORE with id 1 adds the row only when id 1 is free, and afterwards id 1 is held. |
| Schema.SeedsSurvive | database/init_db.py:86-101 | Seed rows already present stay present when later rows are appended. |
| Schema.SeedUnite | database/init_db.py:86-89 | A unit seed appends the unit exactly when its code is free, and otherwise leaves the rows alone. Either way the code is held afterwards, the AUTOINCREMENT counter goes up by one, and a valid store stays valid. |
| Schema.SeedArticle | database/init_db.py:95-96 | An article seed appends the article, active and without a unit, exactly when its reference is free. Either way the reference is held afterwards and the counter goes up by one. |
| Schema.SeedPrice | database/init_db.py:99-101 | A price seed appends the price exactly when its (article, unit) pair is free. Either way the pair is priced afterwards and the counter goes up by one. |
| Schema.SeedUnitesFacts | database/init_db.py:86-89 | Seeding the units holds all four codes, raises the unit counter by four, and keeps a valid store valid. Once the codes are all there, the unit rows stay as they were. |
| Schema.SeedArticlesFacts | database/init_db.py:95-96 | Seeding the articles holds both references, raises the article counter by two, and keeps the store valid. Once both are there, the article rows stay as they were. |
| Schema.SeedPricesFacts | database/init_db.py:99-101 | Seeding the prices prices all three pairs, raises the price counter by three, and keeps the store valid. Once the pairs are there, the price rows stay as they were. |
| Schema.InitDatabaseFacts | database/init_db.py:15-101 | After `init_database` every seed is present and a valid store stays valid. The unit, article and price counters go up by 4, 2 and 3 whatever was skipped, and invoices are untouched. On a store already seeded, every table keeps its rows. |
| Schema.InitIdempotent | database/init_db.py:15-101 | A second `init_database` keeps the rows of every table from the first run. Only the unit, article and price counters move, by 4, 2 and 3. |
| Schema.RestartAfterSeeding | main.py:22 | Starting the program again on a freshly seeded file keeps every row, raises the unit counter from 4 to 8, and the next unit created gets id 9. |
| Schema.SacReseededAfterDeletion | database/init_db.py:86-89 | With SAC deleted from the seeded units, a restart puts SAC back with id 6 and ends with the unit counter at 8. |
| Schema.UnitsFromEmpty | database/init_db.py:86-89 | On a fresh database the units are KG, SAC, PCS and L, with ids 1 to 4. |
| Schema.ArticlesFromWarehouse | database/init_db.py:92-96 | After the warehouse seed, Riz and Sucre get ids 1 and 2, both active and in warehouse 1. |
| Schema.PricesFromArticles | database/init_db.py:99-101 | The prices are Riz/KG 4000, Riz/SAC 150000 and Sucre/KG 3500. |
| Schema.InitFromEmpty | database/init_db.py:15-101 | `init_database` on an empty database gives exactly the seeded store. |
| Schema.SeededStoreValid | database/init_db.py:16-101 | The seeded store satisfies every schema invariant and holds every seed. |
| ArticleForm.ReadPrice | ui/pages/article_page.py:470-484 | A price field is blank exactly when it strips to nothing. It is accepted exactly when it is a float above 0, and then its value is that float. |
| ArticleForm.CollectPrices | ui/pages/article_page.py:468-484 | The price loop succeeds exactly when every checked unit has a price. Then it yields those units with their prices in form order; otherwise it names the first bad checked unit and why. |
| ArticleForm.CheckNames | ui/pages/article_page.py:459-466 | Refuses exactly when the name or the reference is blank once stripped. Otherwise it gives both stripped. |
| ArticleForm.CheckPrices | ui/pages/article_page.py:468-488 | Accepts exactly when every checked unit is priced and at least one is checked. A bad price is reported before "no unit checked". |
| ArticleForm.ApplyPricesReadBack | ui/pages/article_page.py:677-678 | After the insert loop, each picked unit reads back its picked price. Every other pair reads what it read before, and the store stays valid. |
| ArticleForm.ApplyPricesFrame | ui/pages/article_page.py:677-678 | The insert loop only appends price rows and touches no other table. |
| ArticleForm.AddPrices | ui/pages/article_page.py:491-495 | With no article id, the first `add_prix_article` raises and nothing is written. Otherwise only price rows are appended, and every other table is untouched. The store stays valid. |
| ArticleForm.AddPricesAllSucceed | ui/pages/article_page.py:491-495 | For distinct, unpriced units every `add_prix_article` succeeds, and the loop equals the `create_prix` loop. |
| ArticleForm.PicksFromDistinct | ui/pages/article_page.py:468-484 | Distinct units on the form give picks with distinct units, each from a checked row. |
| ArticleForm.NoPicksIffNoneChecked | ui/pages/article_page.py:486-488 | The price loop yields no pick exactly when no unit is checked. |
| ArticleForm.SaveNewArticle | ui/pages/article_page.py:491-502 | With a taken reference, `create_article` gives `None` and the first price insert raises. The page then shows the error and nothing was written. Whatever the outcome, units, warehouses, invoices and lines are untouched, and every existing article and price row remains. |
| ArticleForm.AjouterArticle | ui/pages/article_page.py:457-502 | Refuses with no write exactly when the names or the prices fail their checks. A blank name or reference is reported first. A save counts one price per checked unit. Units, warehouses, invoices and lines are never touched, and every existing article and price row remains. |
| ArticleForm.DuplicateReferenceWritesNothing | ui/pages/article_page.py:491-502 | A valid form whose reference is taken ends in the error, and the database is unchanged. |
| ArticleForm.SaveNewArticlePrices | ui/pages/article_page.py:491-495 | The new article is appended active, and it is priced in exactly the picked units at the picked prices. |
| ArticleForm.AddCreatesArticleWithPrices | ui/pages/article_page.py:457-502 | A valid form with a free reference creates one article with the stripped names. Its prices are exactly the checked units' entered prices. |
| ArticleForm.SaveEdits | ui/pages/article_page.py:645-652 | After the edit step, the article's row carries the new name, reference and warehouse unless another article holds the reference. Every other row is as it was. The article has no price left, while other articles keep theirs. Units, warehouses, invoices and lines are untouched. |
| ArticleForm.SaveThenCheck | ui/pages/article_page.py:645-678 | A form refused by the price checks leaves the store as it was. A form that passes is saved with one price per checked unit. |
| ArticleForm.UpdateArticleAsWritten | ui/pages/article_page.py:628-687 | Refuses with no write when nothing is selected or a name is blank. Otherwise the article's row is rewritten, unless its reference is taken, whatever the price checks say. The result is Saved exactly when the price checks pass, even when the reference is taken. A form refused for its prices leaves the article with no price. A save counts one price per checked unit. Units, warehouses, invoices and lines are untouched, and other articles keep their prices. |
| ArticleForm.RejectedUpdateLeavesNoPrices | ui/pages/article_page.py:645-674 | As written, an update refused by the price checks leaves the article with no price at all. Yet its row already carries the new fields when the reference is free. |
| ArticleForm.RejectedUpdateWipesPrice | ui/pages/article_page.py:645-674 | In a store holding the seeded Riz with its 4000 price per unit 1 (KG), emptying the KG price field is refused, and Riz has lost that price. |
| ArticleForm.UpdateArticle | ui/pages/article_page.py:628-687 | Validates before writing, and checks the answer of the article update. The form is refused with the store unchanged exactly when there is no selection, a name is blank, a price is bad or missing, or another article holds the reference. A taken reference is reported as such. A save rewrites the article's row. Units, warehouses, invoices and lines are untouched, and other articles keep their prices. |
| ArticleForm.UpdateReplacesPriceSet | ui/pages/article_page.py:645-678 | On a form that passes with a free reference, both versions agree. The row carries the stripped name and reference and the chosen warehouse. The price set becomes exactly the checked units with their entered prices. With a taken reference, the corrected version refuses and writes nothing. |
| ArticleForm.TakenReferenceReportedAsSaved | ui/pages/article_page.py:645-682 | As written, an edit to a reference held by another article is reported as saved. The article row stays as it was, while the price set is replaced. |
| ArticleForm.SugarTakesRiceReference | ui/pages/article_page.py:645-682 | In a store holding the seeded Riz and Sucre, giving Sucre the reference RIZ001 is reported as saved, and Sucre keeps SUC001. The corrected version answers that the reference exists. |
| Cart.ShownPrice | ui/pages/home_page.py:327-334 | The price label shows the stored price of the pair the two combo-box ids name. It shows 0 when there is no such row or an id is not an integer. |
| Cart.ReadItem | ui/pages/home_page.py:338-383 | An empty article, unit or quantity field, or a quantity that is not a float, is refused in that order. An accepted item carries the ids before " - ", the parsed quantity, the label price and total = quantity × price. |
| Cart.AjouterAuPanier | ui/pages/home_page.py:336-383 | A refused add leaves the cart unchanged. An accepted add appends exactly one item at the end. |
| Cart.CartTotalConcat | ui/pages/home_page.py:392-402 | The total of two carts put together is the sum of their totals. |
| Cart.AddRaisesTotal | ui/pages/home_page.py:353-402 | An accepted add raises the displayed total by quantity × label price. |
| Cart.SupprimerDuPanier | ui/pages/home_page.py:407-416 | With a selection that is confirmed, removes exactly the selected item and keeps the others in order. Otherwise the cart is unchanged. |
| Cart.RemoveLowersTotal | ui/pages/home_page.py:392-416 | Removing an item lowers the total by that item's total. |
| Cart.ViderPanier | ui/pages/home_page.py:418-422 | A confirmed clear, or an already empty cart, leaves the cart empty. Otherwise it is unchanged. |
| Cart.AddLines | ui/pages/home_page.py:447-455 | Appends one line per cart item, in cart order, each copying the item's ids (after INTEGER affinity), quantity, unit price and total. Nothing else changes. |
| Cart.EnregistrerVente | ui/pages/home_page.py:424-467 | An empty client or an empty cart writes nothing. Otherwise it records one invoice whose total is the cart total, appends one line per cart item in cart order, each copying its item under the new invoice id, keeps the earlier lines, and then empties the cart; units, articles and prices are untouched. |
| Cart.LinesTotalConcat | ui/pages/home_page.py:437-455 | Line totals add up over concatenated tables. |
| Cart.CopiedLinesTotal | ui/pages/home_page.py:447-455 | Lines that copy a cart item for item add up to the cart total. |
| Cart.SaleTotalMatchesLines | ui/pages/home_page.py:437-455 | After a sale, the invoice's recorded total equals the sum of its lines' totals. |
| SalesReport.ZeroPad | ui/pages/rapport_page.py:218 | `%Y-%m-%d` pads with leading zeros to the field width and keeps the digits. |
| SalesReport.PeriodBounds | ui/pages/rapport_page.py:215-227 | "Aujourd'hui" bounds both ends by today, and "Ce mois" runs from the 1st to today. "Cette semaine" raises, and any other period sets no bound. |
| SalesReport.TodayMeansDatedToday | ui/pages/rapport_page.py:215-235 | With "Aujourd'hui", an invoice is in the period exactly when it is dated today. |
| SalesReport.TestInvoice | ui/pages/rapport_page.py:231-248 | One pass of the loop keeps an invoice exactly when it satisfies the date test and the search test. |
| SalesReport.FilterLoop | ui/pages/rapport_page.py:229-250 | The loop keeps exactly the invoices that pass, in input order. |
| SalesReport.AppliquerFiltres | ui/pages/rapport_page.py:205-250 | Fails exactly for "Cette semaine". Otherwise it keeps exactly the input invoices that pass both filters, with their multiplicity, as a subsequence in input order. |
| SalesReport.NonNumericAmountDropsAll | ui/pages/rapport_page.py:241-246 | An amount search whose term is not a number keeps no invoice. |
| SalesReport.NoFilterKeepsAll | ui/pages/rapport_page.py:237-248 | With no period bounds, "Tous" or "Date" keeps every invoice, in order. |
| SalesReport.EmptyTermKeepsAll | ui/pages/rapport_page.py:207-246 | An empty term filters nothing, whatever the search type. |
| SalesReport.LoadVentes | ui/pages/rapport_page.py:176-203 | The table shows the passing invoices, latest date first, each once per stored row: a reordering of the filtered table. With no filters it shows every invoice, and when the filters raise it stays empty. |
| UnitForm.NormalizeCodeIdempotent | ui/pages/unite_page.py:235 | A normalised code has no surrounding space and no lower-case letter. Normalising it again changes nothing, and it is empty exactly when the text is all space. |
| UnitForm.CheckFields | ui/pages/unite_page.py:235-244 | Refuses exactly when the code or the label is blank, the code first. Otherwise it gives the normalised code and the stripped label. |
| UnitForm.AjouterUniteAsWritten | ui/pages/unite_page.py:231-262 | As written, the form is refused only on blank fields. Every other outcome is reported as success, and the "code exists" message never shows. |
| UnitForm.DuplicateAddReportedAsSuccess | ui/pages/unite_page.py:247-262 | As written, adding a code that is already held writes nothing and reports success. |
| UnitForm.AjouterUnite | ui/pages/unite_page.py:231-262 | Reports "code exists", with no write, exactly when the normalised code is held. Otherwise a success appends the normalised unit. |
| UnitForm.AddVersionsAgreeOnStore | ui/pages/unite_page.py:231-262 | Both versions write the same store and differ only in the message for a taken code. |
| UnitForm.ModifierUniteAsWritten | ui/pages/unite_page.py:264-298 | As written, no selection or a blank field is refused with no write. Every other outcome is reported as success. |
| UnitForm.DuplicateUpdateReportedAsSuccess | ui/pages/unite_page.py:284-296 | As written, changing a unit to a code another unit holds writes nothing and reports success. |
| UnitForm.ModifierUnite | ui/pages/unite_page.py:264-298 | Reports "code exists", with no write, exactly when the row exists and another unit holds the normalised code. |
| UnitForm.ModifierUniteRewritesRow | ui/pages/unite_page.py:284 | A successful modification rewrites only the selected row, with the normalised code and the stripped label. |
| UnitForm.SupprimerUnite | ui/pages/unite_page.py:300-323 | No selection is refused, and a deletion not confirmed changes nothing. A confirmed one removes exactly that unit and reports success, whatever the references. |
| UnitForm.DeleteUsedUnitLeavesDanglingPrices | ui/pages/unite_page.py:313-323 | Deleting a unit some price uses succeeds, and that price row is left naming a unit that is gone. |
| Text.Strip | ui/pages/unite_page.py:235-236 | `strip()`: the result has no surrounding whitespace, and the input is the result with whitespace around it. It is empty exactly when the input is all whitespace. |
| Text.StripIdempotent | ui/pages/unite_page.py:235-236 | Stripping twice is stripping once. |
| Text.Contains | ui/pages/rapport_page.py:239 | `in` on strings holds exactly when the needle occurs at some position of the text. |
| Text.SplitHasSecondPiece | ui/pages/home_page.py:353-354 | `split(" - ")` yields a second piece exactly when the separator occurs. |
| Text.JoinSplit | ui/pages/home_page.py:353-354 | Joining the pieces of a split with the separator gives back the text. |
| Decimal.ParseFloat | ui/pages/home_page.py:355 | `float()` reads a value exactly when the stripped text is a decimal literal with at most one leading sign. Digits read as their integer value, and `whole.frac` as whole plus frac over 10 to the number of fraction digits. A leading minus negates the unsigned reading, and a leading plus keeps it. |
| Decimal.UnsignedValueMeaning | ui/pages/home_page.py:355 | The unsigned reader accepts exactly digits, or digits around one point (not the bare point), and gives each the value it spells. |
| Decimal.MinusReading | ui/pages/home_page.py:355 | "-5" reads as -5. |
| Decimal.PointReading | ui/pages/home_page.py:355 | "2.50" reads as 2.5. |
| Decimal.WholeFloatRoundTrip | ui/pages/home_page.py:355 | A whole number written with ".0" reads back as that number. |
| Decimal.Affinity | ui/pages/home_page.py:449-451 | Text becomes an integer in an INTEGER column exactly when it is an optionally signed run of digits, taking the signed value. Any other text stays text. |
| Decimal.AffinitySignedNatText | ui/pages/home_page.py:449-451 | A signed id text is stored as the signed integer. |
| Decimal.AffinityNatText | ui/pages/home_page.py:449-451 | The decimal text of an id is stored as that id. |

## Left out

- Widgets, layout, navigation, search-box behaviour, scrolling and context menus are not modelled. They have no effect on the data. ui/main_app.py and the warehouse, inventory and trash pages only display data or call `DatabaseManager`.
- PDF building, opening files and the text invoice export are not modelled; they are file output.
- SQL text, connections, logging and the database-file check are not modelled. Each statement's effect on the tables is.
- Money and quantities are `real`, not binary floating point. Sums, products and equality are exact.
- Number display (`:,.0f`), `ROUND`, `round(..., 2)` and the GROUP BY unit breakdown and sales sums of `get_entrepot_stats` are not modelled. These are display rounding and report text.
- `date.today()` is a parameter (`SalesReport.Day`), and the date written on a sale is a parameter.
- SalesReport.PeriodBounds: "Cette semaine" calls `timedelta` on the `datetime` class and raises. It is modelled as the `Raises` outcome, and `load_ventes` then leaves the table empty; week arithmetic is not modelled.
- Decimal.ParseFloat: accepts an optional sign, ASCII digits and one optional decimal point, after `strip`. Non-ASCII Unicode decimal digits, which Python's `float()` also accepts, are not modelled, and neither are exponents, `inf`, `nan` or underscores.
- Text.Strip: strips Python's whitespace set. `Text.Upper` and `Text.Lower` map ASCII letters only, not the full Unicode case mapping.
- Decimal.Affinity: an optionally signed run of digits becomes an integer. Surrounding spaces and real literals such as '3.0', which SQLite also converts, stay text. The pages only pass unsigned id texts.
- Sorting.SortBy: ORDER BY and `sorted` are modelled as some sorted permutation. The order of rows with equal keys is not promised.
- Cart.AjouterAuPanier: the unit price is the number the price label shows, given as a parameter. Reading it back from the formatted label text is not modelled.
- Cart.ReadItem: any other exception in `ajouter_au_panier` (a choice without " - ") is one `MalformedChoice` outcome. The sign of the quantity is not checked, as in the source.
- Cart.SaleTotalMatchesLines: assumes no line already names the new invoice id. With foreign keys off, nothing else guarantees this.
- ArticleForm.SaveNewArticlePrices: assumes no price row already names the new article id, for the same reason.
- Articles.DeleteArticlePermanently: a failing statement is a parameter standing for a disk or lock error. Other exceptions are not modelled.
- Other I/O errors, which every `DatabaseManager` method catches and answers with `False` or `None`, are not modelled.
- build.py and main.py are not modelled; they package and start the application.

## Findings

| source | as written | input that shows it | evidently intended | confidence | as-written member | corrected member |
|---|---|---|---|---|---|---|
| ui/pages/article_page.py:645-674 | `update_article` saves the names and deletes every price of the article before it checks the price fields. A refused form therefore leaves the article without prices. | a store holding the seeded Riz with its 4000 price per unit 1 (KG); update it keeping the names, with KG checked and its price field empty | check every field before writing, so a refused form changes nothing | high (not executed) | ArticleForm.UpdateArticleAsWritten, ArticleForm.RejectedUpdateWipesPrice | ArticleForm.UpdateArticle |
| ui/pages/article_page.py:645-682 | `update_article` ignores the `False` that `DatabaseManager.update_article` returns when another article holds the new reference. It replaces the price set and reports success, while the row keeps its old name and reference | in a store holding the seeded Riz and Sucre, edit Sucre (id 2) giving it the reference RIZ001, with any accepted price form | refuse the edit with a "reference exists" message and write nothing | high (not executed) | ArticleForm.UpdateArticleAsWritten, ArticleForm.SugarTakesRiceReference | ArticleForm.UpdateArticle |
| ui/pages/unite_page.py:247-262 | `add_unite` answers `False` on a taken code instead of raising, so the page reports success and the "code exists" message never shows | any code already held, e.g. "kg" on the seeded database | report "code exists" when the insert is refused | high (not executed) | UnitForm.AjouterUniteAsWritten, UnitForm.DuplicateAddReportedAsSuccess | UnitForm.AjouterUnite |
| ui/pages/unite_page.py:284-296 | `update_unite` answers `False` on a taken code, and the page ignores the answer and reports success | change unit 2 (SAC) to code "KG" on the seeded database | report "code exists" when the update is refused | high (not executed) | UnitForm.ModifierUniteAsWritten, UnitForm.DuplicateUpdateReportedAsSuccess | UnitForm.ModifierUnite |

=== FILE: article_form.dfy ===
/** The article screen's two write paths, `ajouter_article` and
    `update_article`: the checks on the form, then the article row and its
    price set. Every `DatabaseManager` call commits on its own, so writes made
    before a check fails or an exception escapes stay in the database. */
module ArticleForm {

  import opened Wrappers
  import opened Tables
  import opened Text
  import opened Decimal
  import opened Store
  import Articles
  import Prices

  /** One unit's row of the form: its checkbox and the price typed next to it.
      The form keeps these in a dictionary keyed by unit id. The field the
      form names `libelle` holds the unit's code: the form lists units as
      (id, code) pairs, the first two columns of the unit table, so the
      price messages name a unit by its code. */
  datatype UnitEntry = UnitEntry(uniteId: int, libelle: string, checked: bool, prixText: string)

  /** A checked unit with the price read from its field. */
  datatype PricePick = PricePick(uniteId: int, prix: real)

  /** Why the screen refused the form (the warning or error box it shows). */
  datatype Rejection =
    | NoArticleSelected
    | MissingNameOrReference
    | MissingPrice(libelle: string)
    | InvalidPrice(libelle: string)
    | NonPositivePrice(libelle: string)
    | NoUnitSelected
    | ReferenceExists(reference: string)

  datatype PageResult =
    | Rejected(reason: Rejection)
    | Failed(error: DbError)
    | Saved(units: nat)

  datatype PageOutcome = PageOutcome(result: PageResult, store: Store)

  /** The unit ids of the form are dictionary keys, hence distinct. */
  predicate DistinctUnits(entries: seq<UnitEntry>) {
    forall i, j :: 0 <= i < j < |entries| ==> entries[i].uniteId != entries[j].uniteId
  }

  /** What one price field holds, after the checks the page runs on it in
      turn: blank once stripped, not a float, not positive, or a price. */
  datatype PriceField = Blank | NotANumber | NotPositive | Positive(prix: real)

  function ReadPrice(text: string): (r: PriceField)
    ensures r == Blank <==> Strip(text) == []
    ensures r.Positive? <==> Strip(text) != [] && ParseFloat(Strip(text)).Some? && ParseFloat(Strip(text)).value > 0.0
    ensures r.Positive? ==> r.prix == ParseFloat(Strip(text)).value
  {
    var t := Strip(text);
    if t == [] then Blank
    else match ParseFloat(t)
      case None => NotANumber
      case Some(p) => if p <= 0.0 then NotPositive else Positive(p)
  }

  /** A unit's row once its price field has been read. */
  datatype Field = Field(uniteId: int, libelle: string, checked: bool, price: PriceField)

  /** The form with every price field read, row for row. */
  function ReadForm(form: seq<UnitEntry>): (r: seq<Field>)
    ensures |r| == |form|
    ensures forall k :: 0 <= k < |form| ==> r[k].uniteId == form[k].uniteId && r[k].checked == form[k].checked
    ensures forall k :: 0 <= k < |form| ==> r[k].price == ReadPrice(form[k].prixText) && r[k].libelle == form[k].libelle
  {
    seq(|form|, k requires 0 <= k < |form| => Field(form[k].uniteId, form[k].libelle, form[k].checked, ReadPrice(form[k].prixText)))
  }

  predicate DistinctFieldUnits(fields: seq<Field>) {
    forall i, j :: 0 <= i < j < |fields| ==> fields[i].uniteId != fields[j].uniteId
  }

  predicate Priced(e: Field) {
    e.price.Positive?
  }

  /** The warning or error a checked entry raises, if any. */
  function EntryProblem(e: Field): (r: Option<Rejection>)
    ensures r.None? <==> Priced(e)
  {
    match e.price
    case Blank => Some(MissingPrice(e.libelle))
    case NotANumber => Some(InvalidPrice(e.libelle))
    case NotPositive => Some(NonPositivePrice(e.libelle))
    case Positive(_) => None
  }

  /** Every checked entry from position `i` on holds a price. */
  predicate PricedFrom(entries: seq<Field>, i: nat) {
    forall k :: i <= k < |entries| && entries[k].checked ==> Priced(entries[k])
  }

  predicate AllCheckedPriced(entries: seq<Field>) {
    PricedFrom(entries, 0)
  }

  /** The picks of the checked entries from position `i` on, in form order. */
  function PicksFrom(entries: seq<Field>, i: nat): seq<PricePick>
    requires i <= |entries| && PricedFrom(entries, i)
    decreases |entries| - i
  {
    if i == |entries| then []
    else
      var rest := PicksFrom(entries, i + 1);
      if entries[i].checked then [PricePick(entries[i].uniteId, entries[i].price.prix)] + rest else rest
  }

  /** The checked entries' picks, in form order: the reference the collecting
      loop is measured against. */
  function CheckedPicks(entries: seq<Field>): seq<PricePick>
    requires AllCheckedPriced(entries)
  {
    PicksFrom(entries, 0)
  }

  /** Entry `k` is checked and refused, and every checked entry before it
      passes. */
  predicate FirstProblemAt(entries: seq<Field>, k: int, why: Rejection) {
    && 0 <= k < |entries| && entries[k].checked && EntryProblem(entries[k]) == Some(why)
    && forall j :: 0 <= j < k && entries[j].checked ==> Priced(entries[j])
  }

  /** The loop from position `i` on, the entries before it having passed. */
  function CollectFrom(entries: seq<Field>, i: nat): (r: Result<seq<PricePick>, Rejection>)
    requires i <= |entries|
    requires forall j :: 0 <= j < i && entries[j].checked ==> Priced(entries[j])
    ensures r.Ok? <==> PricedFrom(entries, i)
    ensures r.Ok? ==> r.value == PicksFrom(entries, i)
    ensures r.Err? ==> exists k :: FirstProblemAt(entries, k, r.error)
    decreases |entries| - i
  {
    if i == |entries| then Ok([])
    else
      var e := entries[i];
      if e.checked && !Priced(e) then
        assert FirstProblemAt(entries, i, EntryProblem(e).value);
        Err(EntryProblem(e).value)
      else
        match CollectFrom(entries, i + 1)
        case Err(why) => Err(why)
        case Ok(picks) =>
          if e.checked then Ok([PricePick(e.uniteId, e.price.prix)] + picks) else Ok(picks)
  }

  /** The loop over the form's units: stops at the first checked unit whose
      price is missing, not a number, or not positive; otherwise yields the
      checked units with their prices, in form order. */
  function CollectPrices(entries: seq<Field>): (r: Result<seq<PricePick>, Rejection>)
    ensures r.Ok? <==> AllCheckedPriced(entries)
    ensures r.Ok? ==> r.value == CheckedPicks(entries)
    ensures r.Err? ==> exists k :: FirstProblemAt(entries, k, r.error)
  {
    CollectFrom(entries, 0)
  }

  /** The price the picks give a unit: the first pick for it. */
  function PickedPrice(picks: seq<PricePick>, uniteId: int): Option<real> {
    if |picks| == 0 then None
    else if picks[0].uniteId == uniteId then Some(picks[0].prix)
    else PickedPrice(picks[1..], uniteId)
  }

  /** The `create_prix` loop of `update_article`, each answer ignored. */
  function ApplyPrices(s: Store, articleId: int, picks: seq<PricePick>): (r: Store)
    ensures Valid(s) ==> Valid(r)
    decreases |picks|
  {
    if |picks| == 0 then s
    else ApplyPrices(Prices.CreatePrix(s, articleId, picks[0].uniteId, picks[0].prix).store, articleId, picks[1..])
  }

  /** After the loop, a unit the article had no price in reads the first
      price picked for it; a unit it had a price in keeps that price. Other
      articles' prices and every other table are untouched. */
  lemma {:induction false} ApplyPricesReadBack(s: Store, articleId: int, picks: seq<PricePick>, uniteId: int)
    requires Valid(s)
    decreases |picks|
    ensures Valid(ApplyPrices(s, articleId, picks))
    ensures Prices.GetPrixUnitaire(ApplyPrices(s, articleId, picks), articleId, uniteId) ==
      if PairPriced(s.prix.rows, articleId, uniteId) then Prices.GetPrixUnitaire(s, articleId, uniteId) else PickedPrice(picks, uniteId)
  {
    if |picks| > 0 {
      var c := Prices.CreatePrix(s, articleId, picks[0].uniteId, picks[0].prix);
      ApplyPricesReadBack(c.store, articleId, picks[1..], uniteId);
      if c.result {
        Prices.CreateThenGet(s, articleId, picks[0].uniteId, picks[0].prix, articleId, uniteId);
        if uniteId == picks[0].uniteId {
          assert PairPriced(c.store.prix.rows, articleId, uniteId);
        } else {
          assert PairPriced(c.store.prix.rows, articleId, uniteId) <==> PairPriced(s.prix.rows, articleId, uniteId) by {
            assert Prices.GetPrixUnitaire(c.store, articleId, uniteId) == Prices.GetPrixUnitaire(s, articleId, uniteId);
          }
        }
      }
    }
  }

  /** The loop leaves the other tables as they were. */
  lemma {:induction false} ApplyPricesFrame(s: Store, articleId: int, picks: seq<PricePick>)
    ensures var r := ApplyPrices(s, articleId, picks);
      r == s.(prix := r.prix) && |s.prix.rows| <= |r.prix.rows| && r.prix.rows[..|s.prix.rows|] == s.prix.rows
    ensures forall row :: row in s.prix.rows ==> row in ApplyPrices(s, articleId, picks).prix.rows
    decreases |picks|
  {
    if |picks| > 0 {
      var c := Prices.CreatePrix(s, articleId, picks[0].uniteId, picks[0].prix);
      ApplyPricesFrame(c.store, articleId, picks[1..]);
      var r := ApplyPrices(s, articleId, picks);
      assert r.prix.rows[..|c.store.prix.rows|] == c.store.prix.rows;
      assert c.store.prix.rows[..|s.prix.rows|] == s.prix.rows;
    }
    PrefixRowsKept(s.prix.rows, ApplyPrices(s, articleId, picks).prix.rows);
  }

  /** Rows kept as a prefix are still there. */
  lemma PrefixRowsKept<T>(a: seq<T>, b: seq<T>)
    requires |a| <= |b| && b[..|a|] == a
    ensures forall x :: x in a ==> x in b
  {
    forall x | x in a ensures x in b {
      var k :| 0 <= k < |a| && a[k] == x;
      assert b[k] == b[..|a|][k];
    }
  }

  /** The `add_prix_article` loop of `ajouter_article`: the first exception
      ends it, with the earlier prices already committed. */
  function AddPrices(s: Store, articleId: Option<int>, picks: seq<PricePick>): (r: Outcome<Result<(), DbError>>)
    ensures articleId.None? && |picks| > 0 ==> r == Outcome(Err(NotNullViolation), s)
    ensures r.store == s.(prix := r.store.prix)
    ensures |s.prix.rows| <= |r.store.prix.rows| && r.store.prix.rows[..|s.prix.rows|] == s.prix.rows
    ensures Valid(s) ==> Valid(r.store)
    decreases |picks|
  {
    if |picks| == 0 then Outcome(Ok(()), s)
    else
      var a := Prices.AddPrixArticle(s, articleId, picks[0].uniteId, picks[0].prix);
      match a.result
      case Err(e) => Outcome(Err(e), a.store)
      case Ok(_) =>
        var r := AddPrices(a.store, articleId, picks[1..]);
        assert r.store.prix.rows[..|a.store.prix.rows|] == a.store.prix.rows;
        assert a.store.prix.rows[..|s.prix.rows|] == s.prix.rows;
        r
  }

  predicate DistinctPickUnits(picks: seq<PricePick>) {
    forall i, j :: 0 <= i < j < |picks| ==> picks[i].uniteId != picks[j].uniteId
  }

  /** When none of the pairs is priced yet and the units are distinct, every
      `add_prix_article` succeeds and the loop does what the `create_prix`
      loop does. */
  lemma {:induction false} AddPricesAllSucceed(s: Store, articleId: int, picks: seq<PricePick>)
    requires DistinctPickUnits(picks)
    requires forall k :: 0 <= k < |picks| ==> !PairPriced(s.prix.rows, articleId, picks[k].uniteId)
    ensures AddPrices(s, Some(articleId), picks) == Outcome(Ok(()), ApplyPrices(s, articleId, picks))
    decreases |picks|
  {
    if |picks| > 0 {
      var c := Prices.CreatePrix(s, articleId, picks[0].uniteId, picks[0].prix);
      forall k | 0 <= k < |picks[1..]| ensures !PairPriced(c.store.prix.rows, articleId, picks[1..][k].uniteId) {
        var u := picks[1..][k].uniteId;
        assert u == picks[k + 1].uniteId != picks[0].uniteId;
        forall i | 0 <= i < |c.store.prix.rows|
          ensures !(c.store.prix.rows[i].data.articleId == articleId && c.store.prix.rows[i].data.uniteId == u)
        {
          if i < |s.prix.rows| { assert c.store.prix.rows[i] == s.prix.rows[i]; }
        }
      }
      AddPricesAllSucceed(c.store, articleId, picks[1..]);
    }
  }

  /** The picks come from the checked entries, one per entry, so distinct
      units give distinct picks. */
  lemma {:induction false} PicksFromDistinct(entries: seq<Field>, i: nat)
    requires DistinctFieldUnits(entries)
    requires i <= |entries| && PricedFrom(entries, i)
    ensures DistinctPickUnits(PicksFrom(entries, i))
    ensures forall p :: p in PicksFrom(entries, i) ==> exists k :: i <= k < |entries| && entries[k].checked && entries[k].uniteId == p.uniteId
    decreases |entries| - i
  {
    if i < |entries| {
      PicksFromDistinct(entries, i + 1);
    }
  }

  /** No pick is made exactly when no unit is checked. */
  lemma {:induction false} NoPicksIffNoneChecked(entries: seq<Field>, i: nat)
    requires i <= |entries| && PricedFrom(entries, i)
    ensures |PicksFrom(entries, i)| == 0 <==> forall k :: i <= k < |entries| ==> !entries[k].checked
    decreases |entries| - i
  {
    if i < |entries| {
      NoPicksIffNoneChecked(entries, i + 1);
    }
  }

  function WarehouseChoice(entrepotIds: map<string, int>, entrepotNom: string): Option<int> {
    if entrepotNom in entrepotIds then Some(entrepotIds[entrepotNom]) else None
  }

  /** The name and reference fields, stripped; refused when either is blank. */
  function CheckNames(nomText: string, referenceText: string): (r: Result<(string, string), Rejection>)
    ensures r.Err? <==> Strip(nomText) == [] || Strip(referenceText) == []
    ensures r.Err? ==> r.error == MissingNameOrReference
    ensures r.Ok? ==> r.value == (Strip(nomText), Strip(referenceText)) && Trimmed(r.value.0) && Trimmed(r.value.1)
  {
    var nom := Strip(nomText);
    var reference := Strip(referenceText);
    if nom == [] || reference == [] then Err(MissingNameOrReference) else Ok((nom, reference))
  }

  predicate SomeChecked(form: seq<UnitEntry>) {
    exists k :: 0 <= k < |form| && form[k].checked
  }

  /** The unit part of the form: the first refused price, else at least one
      checked unit, else the picks. */
  function CheckPrices(form: seq<UnitEntry>): (r: Result<seq<PricePick>, Rejection>)
    ensures r.Ok? <==> AllCheckedPriced(ReadForm(form)) && SomeChecked(form)
    ensures r.Ok? ==> r.value == CheckedPicks(ReadForm(form)) && |r.value| > 0
    ensures r.Err? && !AllCheckedPriced(ReadForm(form)) ==> exists k :: FirstProblemAt(ReadForm(form), k, r.error)
    ensures r.Err? && AllCheckedPriced(ReadForm(form)) ==> r.error == NoUnitSelected
  {
    var fields := ReadForm(form);
    match CollectPrices(fields)
    case Err(why) => Err(why)
    case Ok(picks) =>
      NoPicksIffNoneChecked(fields, 0);
      if |picks| == 0 then Err(NoUnitSelected) else Ok(picks)
  }

  /** The writes of `ajouter_article`: the article, then its prices. A taken
      reference makes `create_article` answer `None`, and the first
      `add_prix_article` then raises on the NOT NULL column, so the error
      box shows and nothing was written. */
  function SaveNewArticle(s: Store, nom: string, reference: string, entrepotId: Option<int>, picks: seq<PricePick>): (r: PageOutcome)
    requires |picks| > 0
    ensures !r.result.Rejected?
    ensures r.result.Saved? ==> r.result.units == |picks|
    ensures ReferenceHeldByOther(s.articles.rows, reference, None) ==> r == PageOutcome(Failed(NotNullViolation), s)
    ensures r.store.unites == s.unites && r.store.entrepots == s.entrepots && r.store.factures == s.factures && r.store.details == s.details
    ensures forall row :: row in s.articles.rows ==> row in r.store.articles.rows
    ensures forall row :: row in s.prix.rows ==> row in r.store.prix.rows
    ensures Valid(s) ==> Valid(r.store)
  {
    var c := Articles.CreateArticle(s, nom, reference, entrepotId);
    var a := AddPrices(c.store, c.result, picks);
    PrefixRowsKept(c.store.prix.rows, a.store.prix.rows);
    match a.result
    case Err(e) => PageOutcome(Failed(e), a.store)
    case Ok(_) => PageOutcome(Saved(|picks|), a.store)
  }

  /** `ajouter_article`: every check runs before the first write, and a
      refused form leaves the database as it was. */
  function AjouterArticle(s: Store, nomText: string, referenceText: string, entrepotIds: map<string, int>, entrepotNom: string,
                          form: seq<UnitEntry>): (r: PageOutcome)
    ensures r.result.Rejected? ==> r.store == s
    ensures r.result.Rejected? <==> CheckNames(nomText, referenceText).Err? || CheckPrices(form).Err?
    ensures CheckNames(nomText, referenceText).Err? ==> r.result == Rejected(MissingNameOrReference)
    ensures r.result.Saved? ==> CheckPrices(form).Ok? && r.result.units == |CheckedPicks(ReadForm(form))| > 0
    ensures r.store.unites == s.unites && r.store.entrepots == s.entrepots && r.store.factures == s.factures && r.store.details == s.details
    ensures forall row :: row in s.articles.rows ==> row in r.store.articles.rows
    ensures forall row :: row in s.prix.rows ==> row in r.store.prix.rows
    ensures Valid(s) ==> Valid(r.store)
  {
    match CheckNames(nomText, referenceText)
    case Err(why) => PageOutcome(Rejected(why), s)
    case Ok(names) =>
      match CheckPrices(form)
      case Err(why) => PageOutcome(Rejected(why), s)
      case Ok(picks) => SaveNewArticle(s, names.0, names.1, WarehouseChoice(entrepotIds, entrepotNom), picks)
  }

  /** A form that passes its checks but names a taken reference writes
      nothing and ends in the error box. */
  lemma DuplicateReferenceWritesNothing(s: Store, nomText: string, referenceText: string, entrepotIds: map<string, int>,
                                        entrepotNom: string, form: seq<UnitEntry>)
    requires CheckNames(nomText, referenceText).Ok? && CheckPrices(form).Ok?
    requires ReferenceHeldByOther(s.articles.rows, Strip(referenceText), None)
    ensures AjouterArticle(s, nomText, referenceText, entrepotIds, entrepotNom, form) == PageOutcome(Failed(NotNullViolation), s)
  {
  }

  /** A successful add creates one article and gives it exactly the checked
      units' prices. The fresh id must not already carry prices: with foreign
      keys off, nothing else guarantees that. */
  lemma SaveNewArticlePrices(s: Store, nom: string, reference: string, entrepotId: Option<int>, picks: seq<PricePick>, uniteId: int)
    requires Valid(s) && DistinctPickUnits(picks) && |picks| > 0
    requires !ReferenceHeldByOther(s.articles.rows, reference, None)
    requires forall k :: 0 <= k < |s.prix.rows| ==> s.prix.rows[k].data.articleId != s.articles.last + 1
    ensures var r := SaveNewArticle(s, nom, reference, entrepotId, picks);
      && r.result == Saved(|picks|)
      && r.store.articles.rows == s.articles.rows + [Row(s.articles.last + 1, Article(nom, reference, None, 1, entrepotId))]
      && Prices.GetPrixUnitaire(r.store, s.articles.last + 1, uniteId) == PickedPrice(picks, uniteId)
  {
    var c := Articles.CreateArticle(s, nom, reference, entrepotId);
    var id := s.articles.last + 1;
    assert c.result == Some(id) && c.store.prix == s.prix;
    assert forall u :: !PairPriced(c.store.prix.rows, id, u);
    AddPricesAllSucceed(c.store, id, picks);
    ApplyPricesReadBack(c.store, id, picks, uniteId);
    ApplyPricesFrame(c.store, id, picks);
    var r := ApplyPrices(c.store, id, picks);
    assert SaveNewArticle(s, nom, reference, entrepotId, picks) == PageOutcome(Saved(|picks|), r);
  }

  lemma AddCreatesArticleWithPrices(s: Store, nomText: string, referenceText: string, entrepotIds: map<string, int>,
                                    entrepotNom: string, form: seq<UnitEntry>, uniteId: int)
    requires Valid(s) && DistinctUnits(form)
    requires CheckNames(nomText, referenceText).Ok? && CheckPrices(form).Ok?
    requires !ReferenceHeldByOther(s.articles.rows, Strip(referenceText), None)
    requires forall k :: 0 <= k < |s.prix.rows| ==> s.prix.rows[k].data.articleId != s.articles.last + 1
    ensures var r := AjouterArticle(s, nomText, referenceText, entrepotIds, entrepotNom, form);
      && r.result == Saved(|CheckedPicks(ReadForm(form))|)
      && r.store.articles.rows == s.articles.rows + [Row(s.articles.last + 1,
           Article(Strip(nomText), Strip(referenceText), None, 1, WarehouseChoice(entrepotIds, entrepotNom)))]
      && Prices.GetPrixUnitaire(r.store, s.articles.last + 1, uniteId) == PickedPrice(CheckedPicks(ReadForm(form)), uniteId)
  {
    PicksFromDistinct(ReadForm(form), 0);
    SaveNewArticlePrices(s, Strip(nomText), Strip(referenceText), WarehouseChoice(entrepotIds, entrepotNom), CheckedPicks(ReadForm(form)), uniteId);
  }

  /** `update_article(id, ...)` answers `False` exactly when the row exists and
      another article holds the reference. */
  predicate ReferenceTaken(s: Store, id: int, reference: string) {
    id in Ids(s.articles.rows) && ReferenceHeldByOther(s.articles.rows, reference, Some(id))
  }

  /** The article rows after `UPDATE article SET nom, reference, entrepot_id
      WHERE id = ?`: the row of `id` carries the new fields unless another
      article holds the reference, and every other row is as it was. */
  predicate EditedRows(before: seq<Row<Article>>, after: seq<Row<Article>>, id: int, nom: string, reference: string, entrepotId: Option<int>) {
    && |after| == |before|
    && forall k :: 0 <= k < |before| ==>
         after[k] == if before[k].id == id && !ReferenceHeldByOther(before, reference, Some(id))
                     then Row(id, before[k].data.(nom := nom, reference := reference, entrepotId := entrepotId))
                     else before[k]
  }

  /** The first writes of `update_article`: the article's fields, then the
      raw delete of every price it has. */
  function SaveEdits(s: Store, id: int, nom: string, reference: string, entrepotId: Option<int>): (r: Store)
    ensures EditedRows(s.articles.rows, r.articles.rows, id, nom, reference, entrepotId) && r.articles.last == s.articles.last
    ensures forall row :: row in r.prix.rows <==> row in s.prix.rows && row.data.articleId != id
    ensures forall u :: !PairPriced(r.prix.rows, id, u)
    ensures r.unites == s.unites && r.entrepots == s.entrepots && r.factures == s.factures && r.details == s.details
    ensures Valid(s) ==> Valid(r)
  {
    var u := Articles.UpdateArticle(s, id, nom, reference, entrepotId);
    assert EditedRows(s.articles.rows, u.store.articles.rows, id, nom, reference, entrepotId) by {
      forall k | 0 <= k < |s.articles.rows| && s.articles.rows[k].id == id
        ensures u.result <==> !ReferenceHeldByOther(s.articles.rows, reference, Some(id))
      {
        assert id in Ids(s.articles.rows);
      }
    }
    Prices.DeleteArticlePrices(u.store, id)
  }

  /** Whether the page has an article to edit: `not self.selected_article_id`
      is true for `None` and for 0. */
  predicate HasSelection(selected: Option<int>) {
    selected.Some? && selected.value != 0
  }

  /** The rest of `update_article` once the edits are saved: the unit
      checks, then the `create_prix` loop. */
  function SaveThenCheck(s: Store, id: int, form: seq<UnitEntry>): (r: PageOutcome)
    ensures !r.result.Failed?
    ensures r.result.Rejected? <==> CheckPrices(form).Err?
    ensures CheckPrices(form).Err? ==> r == PageOutcome(Rejected(CheckPrices(form).error), s)
    ensures CheckPrices(form).Ok? ==> r.result == Saved(|CheckedPicks(ReadForm(form))|)
    ensures r.store == s.(prix := r.store.prix)
    ensures forall row :: row in s.prix.rows ==> row in r.store.prix.rows
    ensures Valid(s) ==> Valid(r.store)
  {
    match CheckPrices(form)
    case Err(why) => PageOutcome(Rejected(why), s)
    case Ok(picks) =>
      ApplyPricesFrame(s, id, picks);
      PageOutcome(Saved(|picks|), ApplyPrices(s, id, picks))
  }

  /** `update_article` as written: the article's fields are saved and ALL its
      prices deleted before the price fields are checked; only then can the
      form be refused. The answer of `update_article` is ignored, so a
      reference held by another article is reported as saved while the row
      keeps its old fields. */
  function UpdateArticleAsWritten(s: Store, selected: Option<int>, nomText: string, referenceText: string,
                                  entrepotIds: map<string, int>, entrepotNom: string, form: seq<UnitEntry>): (r: PageOutcome)
    ensures !HasSelection(selected) ==> r == PageOutcome(Rejected(NoArticleSelected), s)
    ensures HasSelection(selected) && CheckNames(nomText, referenceText).Err? ==> r == PageOutcome(Rejected(MissingNameOrReference), s)
    ensures HasSelection(selected) && CheckNames(nomText, referenceText).Ok? ==>
      && EditedRows(s.articles.rows, r.store.articles.rows, selected.value, Strip(nomText), Strip(referenceText), WarehouseChoice(entrepotIds, entrepotNom))
      && (r.result.Saved? <==> CheckPrices(form).Ok?)
    ensures HasSelection(selected) && CheckNames(nomText, referenceText).Ok? && CheckPrices(form).Err? ==>
      r.result == Rejected(CheckPrices(form).error) && forall u :: !PairPriced(r.store.prix.rows, selected.value, u)
    ensures !r.result.Failed?
    ensures r.result.Saved? ==> CheckPrices(form).Ok? && r.result.units == |CheckedPicks(ReadForm(form))| > 0
    ensures r.store.unites == s.unites && r.store.entrepots == s.entrepots && r.store.factures == s.factures && r.store.details == s.details
    ensures HasSelection(selected) ==> forall row :: row in s.prix.rows && row.data.articleId != selected.value ==> row in r.store.prix.rows
    ensures Valid(s) ==> Valid(r.store)
  {
    if !HasSelection(selected) then PageOutcome(Rejected(NoArticleSelected), s)
    else
      var id := selected.value;
      match CheckNames(nomText, referenceText)
      case Err(why) => PageOutcome(Rejected(why), s)
      case Ok(names) => SaveThenCheck(SaveEdits(s, id, names.0, names.1, WarehouseChoice(entrepotIds, entrepotNom)), id, form)
  }

  /** As written, an update refused for its price fields still leaves the
      article without a single price. */
  lemma RejectedUpdateLeavesNoPrices(s: Store, id: int, nomText: string, referenceText: string,
                                     entrepotIds: map<string, int>, entrepotNom: string, form: seq<UnitEntry>, uniteId: int)
    requires id != 0 && CheckNames(nomText, referenceText).Ok? && CheckPrices(form).Err?
    ensures var r := UpdateArticleAsWritten(s, Some(id), nomText, referenceText, entrepotIds, entrepotNom, form);
      && r.result == Rejected(CheckPrices(form).error)
      && Prices.GetPrixUnitaire(r.store, id, uniteId).None?
      && EditedRows(s.articles.rows, r.store.articles.rows, id, Strip(nomText), Strip(referenceText), WarehouseChoice(entrepotIds, entrepotNom))
  {
  }

  lemma BlankPriceRefused()
    ensures CheckPrices([UnitEntry(1, "KG", true, "")]) == Err(MissingPrice("KG"))
  {
    var form := [UnitEntry(1, "KG", true, "")];
    assert Strip("") == [];
    assert ReadForm(form)[0].price == Blank;
    assert FirstProblemAt(ReadForm(form), 0, MissingPrice("KG"));
  }

  lemma ExampleNamesAccepted()
    ensures CheckNames("Riz", "RIZ001").Ok?
  {
    assert !AllSpace("Riz") by { assert !IsSpace("Riz"[0]); }
    assert !AllSpace("RIZ001") by { assert !IsSpace("RIZ001"[0]); }
  }

  /** An article priced 4000 per unit 1. */
  const PricedRice := Store(Table([], 0), Table([], 0),
                            Table([Row(1, Article("Riz", "RIZ001", None, 1, None))], 1),
                            Table([Row(1, Price(1, 1, 4000.0))], 1), Table([], 0), Table([], 0))

  lemma PricedRiceHasPrice()
    ensures Prices.GetPrixUnitaire(PricedRice, 1, 1) == Some(4000.0)
  {
    assert Prices.PriceOf(PricedRice.prix.rows[0], 1, 1);
  }

  /** A concrete form that shows it: the unit still checked but its price
      field emptied by mistake. The update is refused, and the article has
      lost its price. */
  lemma RejectedUpdateWipesPrice()
    ensures Prices.GetPrixUnitaire(PricedRice, 1, 1) == Some(4000.0)
    ensures var r := UpdateArticleAsWritten(PricedRice, Some(1), "Riz", "RIZ001", map[], "", [UnitEntry(1, "KG", true, "")]);
      r.result == Rejected(MissingPrice("KG")) && Prices.GetPrixUnitaire(r.store, 1, 1).None?
  {
    PricedRiceHasPrice();
    BlankPriceRefused();
    ExampleNamesAccepted();
    RejectedUpdateLeavesNoPrices(PricedRice, 1, "Riz", "RIZ001", map[], "", [UnitEntry(1, "KG", true, "")], 1);
  }

  /** `update_article` as evidently intended: the same checks first, no write
      at all unless the form passes them, and a reference held by another
      article refused with the store untouched. */
  function UpdateArticle(s: Store, selected: Option<int>, nomText: string, referenceText: string,
                         entrepotIds: map<string, int>, entrepotNom: string, form: seq<UnitEntry>): (r: PageOutcome)
    ensures r.result.Rejected? ==> r.store == s
    ensures !r.result.Failed?
    ensures !HasSelection(selected) ==> r.result == Rejected(NoArticleSelected)
    ensures HasSelection(selected) ==>
      (r.result.Rejected? <==> CheckNames(nomText, referenceText).Err? || CheckPrices(form).Err? || ReferenceTaken(s, selected.value, Strip(referenceText)))
    ensures HasSelection(selected) && CheckNames(nomText, referenceText).Ok? && CheckPrices(form).Ok? && ReferenceTaken(s, selected.value, Strip(referenceText)) ==>
      r.result == Rejected(ReferenceExists(Strip(referenceText)))
    ensures r.result.Saved? ==> CheckPrices(form).Ok? && r.result.units == |CheckedPicks(ReadForm(form))| > 0
    ensures r.result.Saved? ==>
      EditedRows(s.articles.rows, r.store.articles.rows, selected.value, Strip(nomText), Strip(referenceText), WarehouseChoice(entrepotIds, entrepotNom))
    ensures r.store.unites == s.unites && r.store.entrepots == s.entrepots && r.store.factures == s.factures && r.store.details == s.details
    ensures HasSelection(selected) ==> forall row :: row in s.prix.rows && row.data.articleId != selected.value ==> row in r.store.prix.rows
    ensures Valid(s) ==> Valid(r.store)
  {
    if !HasSelection(selected) then PageOutcome(Rejected(NoArticleSelected), s)
    else
      var id := selected.value;
      match CheckNames(nomText, referenceText)
      case Err(why) => PageOutcome(Rejected(why), s)
      case Ok(names) =>
        match CheckPrices(form)
        case Err(why) => PageOutcome(Rejected(why), s)
        case Ok(picks) =>
          var entrepotId := WarehouseChoice(entrepotIds, entrepotNom);
          if !Articles.UpdateArticle(s, id, names.0, names.1, entrepotId).result then
            PageOutcome(Rejected(ReferenceExists(names.1)), s)
          else
            var s2 := SaveEdits(s, id, names.0, names.1, entrepotId);
            ApplyPricesFrame(s2, id, picks);
            PageOutcome(Saved(|picks|), ApplyPrices(s2, id, picks))
  }

  /** A form both versions accept is saved the same way by both when the
      reference is free: the article's row carries the new fields and its
      price set becomes exactly the checked units with their prices, the old
      rows gone. When another article holds the reference, the corrected
      version refuses and writes nothing. */
  lemma UpdateReplacesPriceSet(s: Store, id: int, nomText: string, referenceText: string,
                               entrepotIds: map<string, int>, entrepotNom: string, form: seq<UnitEntry>, uniteId: int)
    requires Valid(s) && id != 0
    requires CheckNames(nomText, referenceText).Ok? && CheckPrices(form).Ok?
    ensures var r := UpdateArticle(s, Some(id), nomText, referenceText, entrepotIds, entrepotNom, form);
      ReferenceTaken(s, id, Strip(referenceText)) ==> r == PageOutcome(Rejected(ReferenceExists(Strip(referenceText))), s)
    ensures var r := UpdateArticle(s, Some(id), nomText, referenceText, entrepotIds, entrepotNom, form);
      !ReferenceTaken(s, id, Strip(referenceText)) ==>
        && r == UpdateArticleAsWritten(s, Some(id), nomText, referenceText, entrepotIds, entrepotNom, form)
        && r.result == Saved(|CheckedPicks(ReadForm(form))|)
        && Prices.GetPrixUnitaire(r.store, id, uniteId) == PickedPrice(CheckedPicks(ReadForm(form)), uniteId)
        && forall k :: 0 <= k < |s.articles.rows| && s.articles.rows[k].id == id ==>
             r.store.articles.rows[k].data == s.articles.rows[k].data.(nom := Strip(nomText), reference := Strip(referenceText),
                                                                      entrepotId := WarehouseChoice(entrepotIds, entrepotNom))
  {
    var nom, reference, entrepotId := Strip(nomText), Strip(referenceText), WarehouseChoice(entrepotIds, entrepotNom);
    var picks := CheckedPicks(ReadForm(form));
    assert CheckNames(nomText, referenceText).value == (nom, reference);
    assert CheckPrices(form).value == picks;
    var r := UpdateArticle(s, Some(id), nomText, referenceText, entrepotIds, entrepotNom, form);
    if !ReferenceTaken(s, id, reference) {
      assert Articles.UpdateArticle(s, id, nom, reference, entrepotId).result;
      var s2 := SaveEdits(s, id, nom, reference, entrepotId);
      assert r == PageOutcome(Saved(|picks|), ApplyPrices(s2, id, picks));
      ApplyPricesReadBack(s2, id, picks, uniteId);
      ApplyPricesFrame(s2, id, picks);
      assert !PairPriced(s2.prix.rows, id, uniteId);
      forall k | 0 <= k < |s.articles.rows| && s.articles.rows[k].id == id
        ensures r.store.articles.rows[k].data == s.articles.rows[k].data.(nom := nom, reference := reference, entrepotId := entrepotId)
      {
        assert id in Ids(s.articles.rows);
        assert r.store.articles.rows[k] == s2.articles.rows[k];
      }
    }
  }

  /** As written, a reference held by another article is reported as saved:
      the row keeps its old fields while its price set is replaced. */
  lemma TakenReferenceReportedAsSaved(s: Store, id: int, nomText: string, referenceText: string,
                                      entrepotIds: map<string, int>, entrepotNom: string, form: seq<UnitEntry>, uniteId: int)
    requires Valid(s) && id != 0
    requires CheckNames(nomText, referenceText).Ok? && CheckPrices(form).Ok?
    requires ReferenceTaken(s, id, Strip(referenceText))
    ensures var r := UpdateArticleAsWritten(s, Some(id), nomText, referenceText, entrepotIds, entrepotNom, form);
      && r.result == Saved(|CheckedPicks(ReadForm(form))|)
      && r.store.articles == s.articles
      && Prices.GetPrixUnitaire(r.store, id, uniteId) == PickedPrice(CheckedPicks(ReadForm(form)), uniteId)
  {
    var s2 := SaveEdits(s, id, Strip(nomText), Strip(referenceText), WarehouseChoice(entrepotIds, entrepotNom));
    ApplyPricesReadBack(s2, id, CheckedPicks(ReadForm(form)), uniteId);
    ApplyPricesFrame(s2, id, CheckedPicks(ReadForm(form)));
  }

  /** A store holding the seeded Riz and Sucre rows, Sucre priced 3500 per
      unit 1; no unit or warehouse rows. */
  const RiceAndSugar := Store(Table([], 0), Table([], 0),
                              Table([Row(1, Article("Riz", "RIZ001", None, 1, Some(1))),
                                     Row(2, Article("Sucre", "SUC001", None, 1, Some(1)))], 2),
                              Table([Row(1, Price(2, 1, 3500.0))], 1), Table([], 0), Table([], 0))

  /** Sucre edited to take Riz's reference: as written the page reports the
      update as saved, yet Sucre keeps its name and reference "SUC001". The
      corrected version refuses it. */
  lemma SugarNamesAccepted()
    ensures CheckNames("Sucre", "RIZ001").Ok? && Strip("Sucre") == "Sucre" && Strip("RIZ001") == "RIZ001"
  {
    assert Trimmed("Sucre") by { assert !IsSpace("Sucre"[0]) && !IsSpace("Sucre"[4]); }
    assert Trimmed("RIZ001") by { assert !IsSpace("RIZ001"[0]) && !IsSpace("RIZ001"[5]); }
    StripIdempotentOnTrimmed("Sucre");
    StripIdempotentOnTrimmed("RIZ001");
  }

  lemma RiceAndSugarValid()
    ensures Valid(RiceAndSugar)
    ensures ReferenceTaken(RiceAndSugar, 2, "RIZ001")
  {
    assert RiceAndSugar.articles.rows[1].id == 2;
    assert RiceAndSugar.articles.rows[0].data.reference == "RIZ001";
  }

  lemma SugarTakesRiceReference(form: seq<UnitEntry>)
    requires CheckPrices(form).Ok?
    ensures var r := UpdateArticleAsWritten(RiceAndSugar, Some(2), "Sucre", "RIZ001", map[], "", form);
      r.result.Saved? && r.store.articles.rows[1].data.reference == "SUC001"
    ensures UpdateArticle(RiceAndSugar, Some(2), "Sucre", "RIZ001", map[], "", form).result == Rejected(ReferenceExists("RIZ001"))
  {
    SugarNamesAccepted();
    RiceAndSugarValid();
    TakenReferenceReportedAsSaved(RiceAndSugar, 2, "Sucre", "RIZ001", map[], "", form, 1);
    UpdateReplacesPriceSet(RiceAndSugar, 2, "Sucre", "RIZ001", map[], "", form, 1);
  }
}

=== FILE: articles.dfy ===
/** `DatabaseManager`'s article operations (`article` table): listings, writes
    guarded by the UNIQUE reference, the soft delete to the trash and back, and
    the one transactional operation, the cascading permanent delete. */
module Articles {

  import opened Wrappers
  import opened Tables
  import opened Sorting
  import opened Decimal
  import opened Store

  predicate IsActive(row: Row<Article>) {
    row.data.actif == 1
  }

  predicate IsInactive(row: Row<Article>) {
    row.data.actif == 0
  }

  function ArticleName(row: Row<Article>): string {
    row.data.nom
  }

  /** `get_all_articles`: the articles with `actif = 1`, ordered by name. */
  function GetAllArticles(s: Store): (r: seq<Row<Article>>)
    ensures forall row :: row in r <==> row in s.articles.rows && row.data.actif == 1
    ensures SortedBy(r, ArticleName, false)
    ensures multiset(r) == multiset(Where(s.articles.rows, IsActive))
  {
    var r := SortBy(Where(s.articles.rows, IsActive), ArticleName, false);
    assert forall row :: row in r <==> row in multiset(r);
    r
  }

  /** `get_all_articles_inactifs`: the articles with `actif = 0` (the trash),
      ordered by name. */
  function GetAllArticlesInactifs(s: Store): (r: seq<Row<Article>>)
    ensures forall row :: row in r <==> row in s.articles.rows && row.data.actif == 0
    ensures SortedBy(r, ArticleName, false)
    ensures multiset(r) == multiset(Where(s.articles.rows, IsInactive))
  {
    var r := SortBy(Where(s.articles.rows, IsInactive), ArticleName, false);
    assert forall row :: row in r <==> row in multiset(r);
    r
  }

  /** The active list and the trash together hold every article exactly once. */
  lemma ListingsPartitionArticles(s: Store)
    requires Valid(s)
    ensures multiset(GetAllArticles(s)) + multiset(GetAllArticlesInactifs(s)) == multiset(s.articles.rows)
    ensures forall row :: row in GetAllArticles(s) ==> row !in GetAllArticlesInactifs(s)
  {
    WherePartition(s.articles.rows, IsActive, IsInactive);
  }

  /** One row of `get_all_articles_with_unite`. */
  datatype ArticleWithUnit = ArticleWithUnit(id: int, nom: string, reference: string, uniteId: Option<int>, uniteLibelle: Option<string>)

  /** The label the LEFT JOIN finds for a nullable unit id. */
  function JoinedUnitLabel(s: Store, uniteId: Option<int>): (r: Option<string>)
    ensures r.Some? <==> uniteId.Some? && uniteId.value in Ids(s.unites.rows)
    ensures r.Some? ==> exists u :: u in s.unites.rows && u.id == uniteId.value && u.data.libelle == r.value
  {
    match uniteId
    case None => None
    case Some(u) =>
      match Find(s.unites.rows, u)
      case None => None
      case Some(unit) =>
        assert Row(u, unit) in s.unites.rows;
        Some(unit.libelle)
  }

  function WithUnitLabel(s: Store, row: Row<Article>): ArticleWithUnit {
    ArticleWithUnit(row.id, row.data.nom, row.data.reference, row.data.uniteId, JoinedUnitLabel(s, row.data.uniteId))
  }

  function WithUnitName(a: ArticleWithUnit): string {
    a.nom
  }

  function WithUnitLabels(s: Store, rows: seq<Row<Article>>): (r: seq<ArticleWithUnit>)
    ensures |r| == |rows|
    ensures forall k :: 0 <= k < |r| ==> r[k] == WithUnitLabel(s, rows[k])
  {
    if |rows| == 0 then [] else [WithUnitLabel(s, rows[0])] + WithUnitLabels(s, rows[1..])
  }

  /** A label in a joined row is the label of the unit its id names. */
  predicate LabelFromUnits(s: Store, a: ArticleWithUnit) {
    a.uniteLibelle.Some? ==>
      a.uniteId.Some? && exists u :: u in s.unites.rows && u.id == a.uniteId.value && u.data.libelle == a.uniteLibelle.value
  }

  /** `get_all_articles_with_unite`: every article, active or not, ordered by
      name, with the label of its `unite_id` unit when that unit exists (LEFT
      JOIN). */
  function GetAllArticlesWithUnite(s: Store): (r: seq<ArticleWithUnit>)
    ensures |r| == |s.articles.rows|
    ensures SortedBy(r, WithUnitName, false)
    ensures forall a :: a in r <==> exists k :: 0 <= k < |s.articles.rows| && a == WithUnitLabel(s, s.articles.rows[k])
    ensures forall a :: a in r ==> LabelFromUnits(s, a)
  {
    var rows := s.articles.rows;
    var joined := WithUnitLabels(s, rows);
    var r := SortBy(joined, WithUnitName, false);
    SameMembers(r, joined);
    forall a | a in joined
      ensures (exists k :: 0 <= k < |rows| && a == WithUnitLabel(s, rows[k])) && LabelFromUnits(s, a)
    {
      var k :| 0 <= k < |joined| && joined[k] == a;
      assert a == WithUnitLabel(s, rows[k]);
    }
    forall a | exists k :: 0 <= k < |rows| && a == WithUnitLabel(s, rows[k])
      ensures a in joined
    {
      var k :| 0 <= k < |rows| && a == WithUnitLabel(s, rows[k]);
      assert joined[k] == a;
    }
    r
  }

  /** Appending an article whose reference is free, with a 0/1 flag, keeps
      the store valid, and the new id finds it. */
  lemma InsertArticleValid(s: Store, a: Article)
    requires Valid(s) && !ReferenceHeldByOther(s.articles.rows, a.reference, None)
    requires a.actif == 0 || a.actif == 1
    ensures Valid(s.(articles := Insert(s.articles, a)))
    ensures Find(Insert(s.articles, a).rows, s.articles.last + 1) == Some(a)
  {
    var old_ := s.articles.rows;
    var t := Insert(s.articles, a);
    assert forall i :: 0 <= i < |old_| ==> t.rows[i] == old_[i];
    assert t.rows[|old_|] == Row(s.articles.last + 1, a);
    assert ReferencesUnique(t.rows) by {
      forall i, j | 0 <= i < j < |t.rows| ensures t.rows[i].data.reference != t.rows[j].data.reference {
        if j == |old_| { assert t.rows[i].data.reference == old_[i].data.reference; }
      }
    }
    assert ActiveFlagsBinary(t.rows);
  }

  /** `create_article`: a new active article, or `None` when the reference is
      taken. */
  function CreateArticle(s: Store, nom: string, reference: string, entrepotId: Option<int>): (r: Outcome<Option<int>>)
    ensures r.result.None? <==> ReferenceHeldByOther(s.articles.rows, reference, None)
    ensures r.result.None? ==> r.store == s
    ensures r.result.Some? ==> r.result.value == s.articles.last + 1
    ensures r.result.Some? ==> r.store == s.(articles := r.store.articles)
    ensures r.result.Some? ==> r.store.articles.rows == s.articles.rows + [Row(r.result.value, Article(nom, reference, None, 1, entrepotId))]
    ensures Valid(s) && r.result.Some? ==>
      r.result.value !in Ids(s.articles.rows) && Find(r.store.articles.rows, r.result.value) == Some(Article(nom, reference, None, 1, entrepotId))
    ensures Valid(s) ==> Valid(r.store)
  {
    if ReferenceHeldByOther(s.articles.rows, reference, None) then Outcome(None, s)
    else
      var a := Article(nom, reference, None, 1, entrepotId);
      var s' := s.(articles := Insert(s.articles, a));
      assert Valid(s) ==> Valid(s') && Find(s'.articles.rows, s.articles.last + 1) == Some(a) by {
        if Valid(s) { InsertArticleValid(s, a); }
      }
      Outcome(Some(s.articles.last + 1), s')
  }

  /** `add_article`: like `create_article` without the warehouse, but a taken
      reference raises instead of answering `None`. */
  function AddArticle(s: Store, nom: string, reference: string): (r: Outcome<Result<int, DbError>>)
    ensures r.result.Err? <==> ReferenceHeldByOther(s.articles.rows, reference, None)
    ensures r.result.Err? ==> r.store == s
    ensures r.result.Ok? ==> r.store.articles.rows == s.articles.rows + [Row(r.result.value, Article(nom, reference, None, 1, None))]
    ensures r.result.Ok? ==> r.store == s.(articles := r.store.articles)
    ensures Valid(s) ==> Valid(r.store)
  {
    var c := CreateArticle(s, nom, reference, None);
    match c.result
    case None => Outcome(Err(IntegrityError), s)
    case Some(id) => Outcome(Ok(id), c.store)
  }

  /** `update_article`: name, reference and warehouse of the row with that id;
      `actif` is untouched. A reference held by another article fails the
      UNIQUE constraint and changes nothing; an id with no row answers `True`. */
  function UpdateArticle(s: Store, id: int, nom: string, reference: string, entrepotId: Option<int>): (r: Outcome<bool>)
    ensures !r.result <==> id in Ids(s.articles.rows) && ReferenceHeldByOther(s.articles.rows, reference, Some(id))
    ensures !r.result || id !in Ids(s.articles.rows) ==> r.store == s
    ensures r.store == s.(articles := r.store.articles)
    ensures r.store.articles.last == s.articles.last && |r.store.articles.rows| == |s.articles.rows|
    ensures forall k :: 0 <= k < |s.articles.rows| ==>
      var old_ := s.articles.rows[k];
      r.store.articles.rows[k] ==
        if r.result && old_.id == id then Row(id, old_.data.(nom := nom, reference := reference, entrepotId := entrepotId)) else old_
    ensures Valid(s) ==> Valid(r.store)
  {
    if id !in Ids(s.articles.rows) then Outcome(true, s)
    else if ReferenceHeldByOther(s.articles.rows, reference, Some(id)) then Outcome(false, s)
    else
      var sel := (row: Row<Article>) => row.id == id;
      var f := (a: Article) => a.(nom := nom, reference := reference, entrepotId := entrepotId);
      var s' := s.(articles := Table(UpdateWhere(s.articles.rows, sel, f), s.articles.last));
      assert Valid(s) ==> Valid(s') by {
        if Valid(s) { UpdateKeepsWellFormed(s.articles, sel, f); }
      }
      Outcome(true, s')
  }

  /** The rows of `t` after `UPDATE article SET actif = flag WHERE id = ?`. */
  function SetActif(rows: seq<Row<Article>>, id: int, flag: int): (r: seq<Row<Article>>)
    ensures |r| == |rows|
    ensures forall k :: 0 <= k < |r| ==> r[k].id == rows[k].id
    ensures forall k :: 0 <= k < |r| ==> r[k] == if rows[k].id == id then Row(id, rows[k].data.(actif := flag)) else rows[k]
  {
    UpdateWhere(rows, (row: Row<Article>) => row.id == id, (a: Article) => a.(actif := flag))
  }

  lemma SetActifKeepsValid(s: Store, id: int, flag: int)
    requires Valid(s) && (flag == 0 || flag == 1)
    ensures Valid(s.(articles := Table(SetActif(s.articles.rows, id, flag), s.articles.last)))
  {
    var rows := SetActif(s.articles.rows, id, flag);
    assert forall k :: 0 <= k < |rows| ==> rows[k].data.reference == s.articles.rows[k].data.reference;
  }

  /** `delete_article`, the soft delete: `False` and no change for an unknown
      id; otherwise the article's `actif` becomes 0, nothing else changes, and
      the answer is `True`. */
  function DeleteArticle(s: Store, id: int): (r: Outcome<bool>)
    ensures r.result <==> id in Ids(s.articles.rows)
    ensures !r.result ==> r.store == s
    ensures r.store == s.(articles := r.store.articles)
    ensures r.store.articles.last == s.articles.last && |r.store.articles.rows| == |s.articles.rows|
    ensures forall k :: 0 <= k < |s.articles.rows| ==>
      r.store.articles.rows[k] == if s.articles.rows[k].id == id then Row(id, s.articles.rows[k].data.(actif := 0)) else s.articles.rows[k]
    ensures Valid(s) ==> Valid(r.store)
  {
    if id !in Ids(s.articles.rows) then
      Outcome(false, s)
    else
      var s' := s.(articles := Table(SetActif(s.articles.rows, id, 0), s.articles.last));
      assert Valid(s) ==> Valid(s') by {
        if Valid(s) { SetActifKeepsValid(s, id, 0); }
      }
      Outcome(true, s')
  }

  /** `reactivate_article`: `actif` becomes 1 for the row with that id, if there
      is one, and the answer is `True` either way. */
  function ReactivateArticle(s: Store, id: int): (r: Outcome<bool>)
    ensures r.result
    ensures id !in Ids(s.articles.rows) ==> r.store == s
    ensures r.store == s.(articles := r.store.articles)
    ensures r.store.articles.last == s.articles.last && |r.store.articles.rows| == |s.articles.rows|
    ensures forall k :: 0 <= k < |s.articles.rows| ==>
      r.store.articles.rows[k] == if s.articles.rows[k].id == id then Row(id, s.articles.rows[k].data.(actif := 1)) else s.articles.rows[k]
    ensures Valid(s) ==> Valid(r.store)
  {
    var rows := SetActif(s.articles.rows, id, 1);
    assert id !in Ids(s.articles.rows) ==> rows == s.articles.rows;
    var s' := s.(articles := Table(rows, s.articles.last));
    assert Valid(s) ==> Valid(s') by {
      if Valid(s) { SetActifKeepsValid(s, id, 1); }
    }
    Outcome(true, s')
  }

  /** Soft-deleting an article that is already in the trash changes nothing,
      so `delete_article` is idempotent. */
  lemma DeleteArticleIdempotent(s: Store, id: int)
    ensures DeleteArticle(DeleteArticle(s, id).store, id) == DeleteArticle(s, id)
  {
    var s1 := DeleteArticle(s, id).store;
    if id in Ids(s.articles.rows) {
      assert Ids(s1.articles.rows) == Ids(s.articles.rows) by {
        forall x ensures x in Ids(s1.articles.rows) <==> x in Ids(s.articles.rows) {
          if x in Ids(s.articles.rows) {
            var k :| 0 <= k < |s.articles.rows| && s.articles.rows[k].id == x;
            assert s1.articles.rows[k].id == x;
          }
        }
      }
      var s2 := DeleteArticle(s1, id).store;
      assert s2.articles.rows == s1.articles.rows;
    }
  }

  /** Sending an active article to the trash and restoring it gives back the
      database it started from. */
  lemma SoftDeleteThenReactivateRestores(s: Store, id: int)
    requires Valid(s)
    requires forall k :: 0 <= k < |s.articles.rows| && s.articles.rows[k].id == id ==> s.articles.rows[k].data.actif == 1
    ensures ReactivateArticle(DeleteArticle(s, id).store, id).store == s
  {
    var s1 := DeleteArticle(s, id).store;
    var s2 := ReactivateArticle(s1, id).store;
    assert s2.articles.rows == s.articles.rows;
  }

  /** The statements of `delete_article_permanently`, in execution order. */
  datatype CascadeStep = DeletePrices | DeleteLines | DeleteArticleRow

  /** `DELETE FROM prix_article WHERE article_id = ?`. */
  function PurgePrices(t: Table<Price>, id: int): (r: Table<Price>)
    ensures r.last == t.last
    ensures forall row :: row in r.rows <==> row in t.rows && row.data.articleId != id
    ensures WellFormed(t) && PricePairsUnique(t.rows) ==> WellFormed(r) && PricePairsUnique(r.rows)
  {
    Table(Where(t.rows, (row: Row<Price>) => row.data.articleId != id), t.last)
  }

  /** `DELETE FROM facture_detail WHERE article_id = ?`: the bound integer
      matches the lines whose column holds that integer. */
  function PurgeLines(t: Table<InvoiceLine>, id: int): (r: Table<InvoiceLine>)
    ensures r.last == t.last
    ensures forall row :: row in r.rows <==> row in t.rows && row.data.articleId != IntKey(id)
    ensures WellFormed(t) ==> WellFormed(r)
  {
    Table(Where(t.rows, (row: Row<InvoiceLine>) => row.data.articleId != IntKey(id)), t.last)
  }

  /** `DELETE FROM article WHERE id = ?`. */
  function PurgeArticle(t: Table<Article>, id: int): (r: Table<Article>)
    ensures r.last == t.last
    ensures forall row :: row in r.rows <==> row in t.rows && row.id != id
    ensures id !in Ids(r.rows)
    ensures WellFormed(t) && ReferencesUnique(t.rows) && ActiveFlagsBinary(t.rows) ==>
      WellFormed(r) && ReferencesUnique(r.rows) && ActiveFlagsBinary(r.rows)
  {
    var r := Table(Where(t.rows, (row: Row<Article>) => row.id != id), t.last);
    assert forall k :: 0 <= k < |r.rows| ==> r.rows[k].id != id by {
      forall k | 0 <= k < |r.rows| ensures r.rows[k].id != id {
        assert r.rows[k] in r.rows;
      }
    }
    r
  }

  /** `delete_article_permanently`: inside one transaction, the article's
      prices, then the invoice lines naming it, then the article row are
      deleted. `failing` names a statement that raises (a disk or lock error
      in the application); the ROLLBACK then discards the earlier deletes and
      the answer is `False`. */
  function DeleteArticlePermanently(s: Store, id: int, failing: Option<CascadeStep>): (r: Outcome<bool>)
    ensures r.result <==> failing.None?
    ensures !r.result ==> r.store == s
    ensures r.result ==> id !in Ids(r.store.articles.rows)
    ensures r.result ==> forall row :: row in r.store.prix.rows ==> row.data.articleId != id
    ensures r.result ==> forall row :: row in r.store.details.rows ==> row.data.articleId != IntKey(id)
    ensures r.result ==> forall row :: row in r.store.articles.rows <==> row in s.articles.rows && row.id != id
    ensures r.result ==> forall row :: row in r.store.prix.rows <==> row in s.prix.rows && row.data.articleId != id
    ensures r.result ==> forall row :: row in r.store.details.rows <==> row in s.details.rows && row.data.articleId != IntKey(id)
    ensures r.store.unites == s.unites && r.store.entrepots == s.entrepots && r.store.factures == s.factures
    ensures r.store.articles.last == s.articles.last && r.store.prix.last == s.prix.last && r.store.details.last == s.details.last
    ensures Valid(s) ==> Valid(r.store)
  {
    var afterPrices := s.(prix := PurgePrices(s.prix, id));
    var afterLines := afterPrices.(details := PurgeLines(s.details, id));
    var afterArticle := afterLines.(articles := PurgeArticle(s.articles, id));
    match failing
    case Some(_) => Outcome(false, s)
    case None => Outcome(true, afterArticle)
  }
}

=== FILE: cart.dfy ===
/** The sales screen: the cart kept in memory, its total, and the recording
    of a sale as one invoice and one line per cart item. Article and unit ids
    travel as the text before " - " in the combo boxes' entries. */
module Cart {

  import opened Wrappers
  import opened Tables
  import opened Text
  import opened Decimal
  import opened Store
  import Prices
  import Invoices

  /** One cart entry; the ids and names are the pieces of the chosen entries. */
  datatype CartItem = CartItem(articleId: string, articleNom: string, uniteId: string, uniteNom: string,
                               quantite: real, prixUnitaire: real, prixTotal: real)

  const Separator := " - "

  /** The id part of a combo-box entry, `choice.split(" - ")[0]`. */
  function ChoiceId(choice: string): string {
    Split(choice, Separator)[0]
  }

  /** `get_prix_article_unite` as the page calls it: the ids are text, which
      the INTEGER columns compare after affinity conversion, and a missing
      price (`None`) shows as 0. */
  function ShownPrice(s: Store, articleChoice: string, uniteChoice: string): (r: real)
    ensures var a := Affinity(ChoiceId(articleChoice)); var u := Affinity(ChoiceId(uniteChoice));
      !(a.IntKey? && u.IntKey? && PairPriced(s.prix.rows, a.n, u.n)) ==> r == 0.0
    ensures var a := Affinity(ChoiceId(articleChoice)); var u := Affinity(ChoiceId(uniteChoice));
      Valid(s) && a.IntKey? && u.IntKey? ==>
        forall k :: 0 <= k < |s.prix.rows| && Prices.PriceOf(s.prix.rows[k], a.n, u.n) ==> r == s.prix.rows[k].data.prixUnitaire
  {
    match (Affinity(ChoiceId(articleChoice)), Affinity(ChoiceId(uniteChoice)))
    case (IntKey(a), IntKey(u)) => Prices.GetPrixUnitaire(s, a, u).GetOr(0.0)
    case _ => 0.0
  }

  /** How `ajouter_au_panier` ended: the three warnings for an empty field,
      the `ValueError` of a quantity that is not a float, the generic error of
      an entry without " - " (its second piece does not exist), or the add. */
  datatype AddResult = Added | MissingArticle | MissingUnit | MissingQuantity | InvalidQuantity | MalformedChoice

  datatype CartOutcome = CartOutcome(result: AddResult, cart: seq<CartItem>)

  /** Every field filled, the quantity a float, both choices holding " - ". */
  predicate AddAccepted(articleChoice: string, uniteChoice: string, quantiteText: string) {
    && articleChoice != [] && uniteChoice != [] && quantiteText != []
    && ParseFloat(quantiteText).Some?
    && Contains(articleChoice, Separator) && Contains(uniteChoice, Separator)
  }

  /** An item's total, quantity times unit price. */
  function ItemTotal(quantite: real, prixUnitaire: real): real {
    quantite * prixUnitaire
  }

  /** The field checks of `ajouter_au_panier`, in the order they run: the
      new item, or why there is none. */
  function ReadItem(articleChoice: string, uniteChoice: string, quantiteText: string, labelPrice: real): (r: Result<CartItem, AddResult>)
    ensures r.Ok? <==> AddAccepted(articleChoice, uniteChoice, quantiteText)
    ensures r.Err? ==> r.error != Added
    ensures articleChoice == [] ==> r == Err(MissingArticle)
    ensures articleChoice != [] && uniteChoice == [] ==> r == Err(MissingUnit)
    ensures articleChoice != [] && uniteChoice != [] && quantiteText == [] ==> r == Err(MissingQuantity)
    ensures articleChoice != [] && uniteChoice != [] && quantiteText != [] && ParseFloat(quantiteText).None? ==>
      r == Err(InvalidQuantity)
    ensures r.Ok? ==>
      && ParseFloat(quantiteText).Some?
      && r.value.articleId == ChoiceId(articleChoice) && r.value.uniteId == ChoiceId(uniteChoice)
      && r.value.quantite == ParseFloat(quantiteText).value && r.value.prixUnitaire == labelPrice
      && r.value.prixTotal == ItemTotal(r.value.quantite, r.value.prixUnitaire)
  {
    SplitHasSecondPiece(articleChoice, Separator);
    SplitHasSecondPiece(uniteChoice, Separator);
    if articleChoice == [] then Err(MissingArticle)
    else if uniteChoice == [] then Err(MissingUnit)
    else if quantiteText == [] then Err(MissingQuantity)
    else
      var articleInfo := Split(articleChoice, Separator);
      var uniteInfo := Split(uniteChoice, Separator);
      match ParseFloat(quantiteText)
      case None => Err(InvalidQuantity)
      case Some(quantite) =>
        if |articleInfo| < 2 || |uniteInfo| < 2 then Err(MalformedChoice)
        else Ok(CartItem(articleInfo[0], articleInfo[1], uniteInfo[0], uniteInfo[1], quantite, labelPrice, ItemTotal(quantite, labelPrice)))
  }

  /** `ajouter_au_panier`. The unit price is the one the price label shows. */
  function AjouterAuPanier(cart: seq<CartItem>, articleChoice: string, uniteChoice: string, quantiteText: string,
                           labelPrice: real): (r: CartOutcome)
    ensures r.result == Added <==> AddAccepted(articleChoice, uniteChoice, quantiteText)
    ensures r.result != Added ==> r.cart == cart && r.result == ReadItem(articleChoice, uniteChoice, quantiteText, labelPrice).error
    ensures r.result == Added ==>
      && |r.cart| == |cart| + 1 && r.cart[..|cart|] == cart
      && r.cart[|cart|] == ReadItem(articleChoice, uniteChoice, quantiteText, labelPrice).value
  {
    match ReadItem(articleChoice, uniteChoice, quantiteText, labelPrice)
    case Err(why) => CartOutcome(why, cart)
    case Ok(item) => CartOutcome(Added, cart + [item])
  }

  /** The running total `refresh_panier` shows: the sum of the items' totals. */
  function CartTotal(cart: seq<CartItem>): real {
    if |cart| == 0 then 0.0 else cart[0].prixTotal + CartTotal(cart[1..])
  }

  /** The total of two carts laid end to end is the sum of their totals. */
  lemma {:induction false} CartTotalConcat(a: seq<CartItem>, b: seq<CartItem>)
    ensures CartTotal(a + b) == CartTotal(a) + CartTotal(b)
  {
    if |a| == 0 {
      assert a + b == b;
    } else {
      assert (a + b)[0] == a[0];
      assert (a + b)[1..] == a[1..] + b;
      CartTotalConcat(a[1..], b);
    }
  }

  /** Adding an item raises the total by that item's total. */
  lemma AddRaisesTotal(cart: seq<CartItem>, articleChoice: string, uniteChoice: string, quantiteText: string, labelPrice: real)
    requires AddAccepted(articleChoice, uniteChoice, quantiteText)
    ensures CartTotal(AjouterAuPanier(cart, articleChoice, uniteChoice, quantiteText, labelPrice).cart)
      == CartTotal(cart) + ItemTotal(ParseFloat(quantiteText).value, labelPrice)
  {
    var item := ReadItem(articleChoice, uniteChoice, quantiteText, labelPrice).value;
    assert AjouterAuPanier(cart, articleChoice, uniteChoice, quantiteText, labelPrice).cart == cart + [item];
    assert CartTotal([item]) == item.prixTotal;
    CartTotalConcat(cart, [item]);
  }

  /** `supprimer_du_panier`: with a row selected and the removal confirmed,
      the item at that index goes; otherwise nothing changes. The table's
      rows mirror the cart, so a selected index is always in range. */
  function SupprimerDuPanier(cart: seq<CartItem>, selected: Option<nat>, confirmed: bool): (r: seq<CartItem>)
    ensures selected.Some? && confirmed && selected.value < |cart| ==>
      && |r| == |cart| - 1
      && (forall k :: 0 <= k < selected.value ==> r[k] == cart[k])
      && (forall k :: selected.value <= k < |r| ==> r[k] == cart[k + 1])
    ensures !(selected.Some? && confirmed && selected.value < |cart|) ==> r == cart
  {
    match selected
    case Some(i) => if confirmed && i < |cart| then cart[..i] + cart[i + 1..] else cart
    case None => cart
  }

  /** Taking the item at `i` out of a cart takes its total off. */
  lemma {:induction false} CartTotalWithout(cart: seq<CartItem>, i: nat)
    requires i < |cart|
    ensures CartTotal(cart[..i] + cart[i + 1..]) == CartTotal(cart) - cart[i].prixTotal
  {
    var rest := cart[..i] + cart[i + 1..];
    if i == 0 {
      assert rest == cart[1..];
    } else {
      assert rest[0] == cart[0];
      assert rest[1..] == cart[1..][..i - 1] + cart[1..][i..];
      CartTotalWithout(cart[1..], i - 1);
    }
  }

  /** Removing an item lowers the total by exactly that item's total. */
  lemma RemoveLowersTotal(cart: seq<CartItem>, i: nat)
    requires i < |cart|
    ensures CartTotal(SupprimerDuPanier(cart, Some(i), true)) == CartTotal(cart) - cart[i].prixTotal
  {
    assert SupprimerDuPanier(cart, Some(i), true) == cart[..i] + cart[i + 1..];
    CartTotalWithout(cart, i);
  }

  /** `vider_panier`: a non-empty cart is emptied once confirmed. */
  function ViderPanier(cart: seq<CartItem>, confirmed: bool): (r: seq<CartItem>)
    ensures r == [] <==> cart == [] || confirmed
    ensures r != [] ==> r == cart
  {
    if |cart| > 0 && confirmed then [] else cart
  }

  /** The line `enregistrer_vente` stores for one item: its values copied,
      its ids under the INTEGER columns' affinity. */
  function LineFor(factureId: int, item: CartItem): InvoiceLine {
    InvoiceLine(factureId, Affinity(item.articleId), Affinity(item.uniteId), item.quantite, item.prixUnitaire, item.prixTotal)
  }

  /** The `add_facture_detail` loop: one line per item, in cart order. */
  function AddLines(s: Store, factureId: int, items: seq<CartItem>): (r: Store)
    ensures r == s.(details := r.details)
    ensures |r.details.rows| == |s.details.rows| + |items| && r.details.rows[..|s.details.rows|] == s.details.rows
    ensures forall k :: 0 <= k < |items| ==> r.details.rows[|s.details.rows| + k].data == LineFor(factureId, items[k])
    ensures Valid(s) ==> Valid(r)
    decreases |items|
  {
    if |items| == 0 then s
    else
      var line := LineFor(factureId, items[0]);
      var s1 := Invoices.AddFactureDetail(s, factureId, line.articleId, line.uniteId, line.quantite, line.prixUnitaire, line.prixTotal);
      var r := AddLines(s1, factureId, items[1..]);
      var n := |s.details.rows|;
      assert |s1.details.rows| == n + 1 && s1.details.rows[n].data == line;
      assert s1.details.rows[..n] == s.details.rows;
      assert r.details.rows[..n + 1] == s1.details.rows;
      assert r.details.rows[..n] == s.details.rows by {
        assert r.details.rows[..n] == r.details.rows[..n + 1][..n];
      }
      assert r.details.rows[n] == s1.details.rows[n];
      assert forall k :: 1 <= k < |items| ==> r.details.rows[n + k].data == LineFor(factureId, items[k]) by {
        forall k | 1 <= k < |items| ensures r.details.rows[n + k].data == LineFor(factureId, items[k]) {
          assert items[1..][k - 1] == items[k];
          assert r.details.rows[(n + 1) + (k - 1)] == r.details.rows[n + k];
        }
      }
      r
  }

  datatype SaleResult = MissingClient | EmptyCart | Recorded(factureId: int)

  datatype SaleOutcome = SaleOutcome(result: SaleResult, store: Store, cart: seq<CartItem>)

  /** `enregistrer_vente`: refused with no client name or an empty cart;
      otherwise one invoice for the cart's total, one line per item, and the
      form reset, the cart with it. */
  function EnregistrerVente(s: Store, cart: seq<CartItem>, client: string, date: string): (r: SaleOutcome)
    ensures client == [] ==> r == SaleOutcome(MissingClient, s, cart)
    ensures client != [] && cart == [] ==> r == SaleOutcome(EmptyCart, s, cart)
    ensures r.result.Recorded? <==> client != [] && cart != []
    ensures r.result.Recorded? ==>
      && r.result.factureId == s.factures.last + 1
      && r.cart == []
      && r.store.factures.rows == s.factures.rows + [Row(r.result.factureId, Invoice(client, date, CartTotal(cart)))]
      && r.store.unites == s.unites && r.store.entrepots == s.entrepots
      && r.store.articles == s.articles && r.store.prix == s.prix
    ensures r.result.Recorded? ==>
      && |r.store.details.rows| == |s.details.rows| + |cart|
      && r.store.details.rows[..|s.details.rows|] == s.details.rows
      && forall k :: 0 <= k < |cart| ==> r.store.details.rows[|s.details.rows| + k].data == LineFor(r.result.factureId, cart[k])
    ensures Valid(s) ==> Valid(r.store)
  {
    if client == [] then SaleOutcome(MissingClient, s, cart)
    else if cart == [] then SaleOutcome(EmptyCart, s, cart)
    else
      var c := Invoices.CreateFacture(s, client, date, CartTotal(cart));
      var id := c.result.value;
      SaleOutcome(Recorded(id), AddLines(c.store, id, cart), [])
  }

  /** The sum of the totals of an invoice's lines. */
  function LinesTotal(rows: seq<Row<InvoiceLine>>, factureId: int): real {
    if |rows| == 0 then 0.0
    else (if rows[0].data.factureId == factureId then rows[0].data.prixTotal else 0.0) + LinesTotal(rows[1..], factureId)
  }

  lemma {:induction false} LinesTotalConcat(a: seq<Row<InvoiceLine>>, b: seq<Row<InvoiceLine>>, factureId: int)
    ensures LinesTotal(a + b, factureId) == LinesTotal(a, factureId) + LinesTotal(b, factureId)
  {
    if |a| == 0 {
      assert a + b == b;
    } else {
      assert (a + b)[0] == a[0];
      assert (a + b)[1..] == a[1..] + b;
      LinesTotalConcat(a[1..], b, factureId);
    }
  }

  lemma {:induction false} LinesTotalNone(rows: seq<Row<InvoiceLine>>, factureId: int)
    requires forall k :: 0 <= k < |rows| ==> rows[k].data.factureId != factureId
    ensures LinesTotal(rows, factureId) == 0.0
  {
    if |rows| > 0 {
      LinesTotalNone(rows[1..], factureId);
    }
  }

  /** Lines copied from a cart, all for one invoice, total what the cart does. */
  lemma {:induction false} CopiedLinesTotal(rows: seq<Row<InvoiceLine>>, cart: seq<CartItem>, factureId: int)
    requires |rows| == |cart|
    requires forall k :: 0 <= k < |cart| ==> rows[k].data == LineFor(factureId, cart[k])
    ensures LinesTotal(rows, factureId) == CartTotal(cart)
  {
    if |cart| > 0 {
      CopiedLinesTotal(rows[1..], cart[1..], factureId);
    }
  }

  /** The recorded invoice's total equals the sum of its lines' totals. No
      line may already point at the new invoice id: with foreign keys off,
      nothing else rules that out. */
  lemma SaleTotalMatchesLines(s: Store, cart: seq<CartItem>, client: string, date: string)
    requires client != [] && cart != []
    requires forall k :: 0 <= k < |s.details.rows| ==> s.details.rows[k].data.factureId != s.factures.last + 1
    ensures var r := EnregistrerVente(s, cart, client, date);
      LinesTotal(r.store.details.rows, r.result.factureId) == CartTotal(cart)
  {
    var id := s.factures.last + 1;
    var c := Invoices.CreateFacture(s, client, date, CartTotal(cart));
    var rows := AddLines(c.store, id, cart).details.rows;
    var n := |s.details.rows|;
    assert rows == rows[..n] + rows[n..];
    LinesTotalConcat(rows[..n], rows[n..], id);
    LinesTotalNone(s.details.rows, id);
    CopiedLinesTotal(rows[n..], cart, id);
  }
}

=== FILE: decimal.dfy ===
/** Reading numbers out of form text: Python's `float(text)` for plain decimal
    literals, and SQLite's INTEGER column affinity, which stores text that
    spells an integer as that integer and keeps any other text as text. */
module Decimal {

  import opened Wrappers
  import opened Text

  predicate IsDigit(c: char) {
    '0' <= c <= '9'
  }

  predicate AllDigits(s: string) {
    forall i :: 0 <= i < |s| ==> IsDigit(s[i])
  }

  /** Value of a string of decimal digits (0 for the empty string). */
  function DigitsValue(s: string): (n: nat)
    requires AllDigits(s)
    decreases |s|
  {
    if |s| == 0 then 0
    else DigitsValue(s[..|s| - 1]) * 10 + (s[|s| - 1] as int - '0' as int)
  }

  function Pow10(k: nat): (p: nat)
    ensures p >= 1
  {
    if k == 0 then 1 else 10 * Pow10(k - 1)
  }

  /** Value of an unsigned literal `digits`, `digits.`, `.digits` or
      `digits.digits`; None for anything else. */
  function UnsignedValue(t: string): (r: Option<real>)
    ensures r.Some? ==> r.value >= 0.0
    ensures r.Some? ==> |t| > 0
    ensures |t| > 0 && AllDigits(t) ==> r == Some(DigitsValue(t) as real)
  {
    match FindFirst(t, ".")
    case None =>
      if |t| > 0 && AllDigits(t) then Some(DigitsValue(t) as real) else None
    case Some(k) =>
      var whole := t[..k];
      var frac := t[k + 1..];
      assert OccursAt(t, ".", k);
      assert t[k] == '.' by { assert t[k..k + 1][0] == t[k]; }
      if AllDigits(whole) && AllDigits(frac) && |whole| + |frac| > 0 then
        Some(DigitsValue(whole) as real + DigitsValue(frac) as real / Pow10(|frac|) as real)
      else
        None
  }

  /** `t` is `whole.frac` with the point at `k`: digits on both sides, and
      not the bare point. */
  predicate PointLiteral(t: string, k: int) {
    && 0 <= k < |t| && t[k] == '.' && |t| > 1
    && AllDigits(t[..k]) && AllDigits(t[k + 1..])
  }

  /** The value a point literal spells: the whole part plus the fraction's
      digits over 10 to the number of them. */
  function PointValue(t: string, k: int): real
    requires PointLiteral(t, k)
  {
    DigitsValue(t[..k]) as real + DigitsValue(t[k + 1..]) as real / Pow10(|t| - k - 1) as real
  }

  /** An unsigned decimal literal: digits, or digits around one point. */
  predicate UnsignedLiteral(t: string) {
    (|t| > 0 && AllDigits(t)) || exists k :: 0 <= k < |t| && PointLiteral(t, k)
  }

  /** A decimal literal with at most one leading sign. */
  predicate DecimalLiteral(t: string) {
    UnsignedLiteral(t) || (|t| > 0 && (t[0] == '-' || t[0] == '+') && UnsignedLiteral(t[1..]))
  }

  /** `UnsignedValue` reads exactly the unsigned literals, each as the value
      it spells. */
  lemma UnsignedValueMeaning(t: string)
    ensures UnsignedValue(t).Some? <==> UnsignedLiteral(t)
    ensures forall k :: PointLiteral(t, k) ==> UnsignedValue(t) == Some(PointValue(t, k))
  {
    forall k | PointLiteral(t, k)
      ensures UnsignedValue(t) == Some(PointValue(t, k))
    {
      assert OccursAt(t, ".", k) by { assert t[k..k + 1] == [t[k]]; }
      forall j | 0 <= j < k
        ensures !OccursAt(t, ".", j)
      {
        assert t[j] == t[..k][j];
        assert t[j..j + 1][0] == t[j];
      }
      FirstOccurrenceIsFindFirst(t, ".", k);
    }
    match FindFirst(t, ".")
    case None =>
    case Some(k) =>
      assert t[k] == '.' by { assert t[k..k + 1][0] == t[k]; }
      if UnsignedValue(t).Some? {
        assert PointLiteral(t, k);
      }
  }

  /** A signed literal cannot be read as an unsigned one. */
  lemma SignNotUnsigned(t: string)
    requires |t| > 0 && (t[0] == '-' || t[0] == '+')
    ensures !UnsignedLiteral(t)
  {
    assert !IsDigit(t[0]);
    forall k | 0 < k < |t|
      ensures !AllDigits(t[..k])
    {
      assert t[..k][0] == t[0];
    }
  }

  /** Python's `float(text)` for decimal literals: surrounding white space is
      ignored and one leading sign is allowed. None stands for the ValueError. */
  function ParseFloat(text: string): (r: Option<real>)
    ensures r.Some? <==> DecimalLiteral(Strip(text))
    ensures var t := Strip(text); |t| > 0 && AllDigits(t) ==> r == Some(DigitsValue(t) as real)
    ensures var t := Strip(text); forall k :: PointLiteral(t, k) ==> r == Some(PointValue(t, k))
    ensures var t := Strip(text); |t| > 0 && t[0] == '-' && UnsignedValue(t[1..]).Some? ==> r == Some(-UnsignedValue(t[1..]).value)
    ensures var t := Strip(text); |t| > 0 && t[0] == '+' ==> r == UnsignedValue(t[1..])
  {
    var t := Strip(text);
    UnsignedValueMeaning(t);
    if |t| > 0 && t[0] == '-' then
      UnsignedValueMeaning(t[1..]);
      SignNotUnsigned(t);
      match UnsignedValue(t[1..])
      case Some(v) => Some(-v)
      case None => None
    else if |t| > 0 && t[0] == '+' then
      UnsignedValueMeaning(t[1..]);
      SignNotUnsigned(t);
      UnsignedValue(t[1..])
    else
      UnsignedValue(t)
  }

  /** A minus sign negates the value read after it: `"-5"` is -5. */
  lemma MinusReading()
    ensures ParseFloat("-5") == Some(-5.0)
  {
    var t := "-5";
    assert Trimmed(t);
    StripIdempotentOnTrimmed(t);
    assert t[1..] == "5" && AllDigits("5");
    assert DigitsValue("5") == 5 by { assert "5"[..0] == ""; }
  }

  /** A point literal counts its fraction digits: `"2.50"` is 2.5. */
  lemma PointReading()
    ensures ParseFloat("2.50") == Some(2.5)
  {
    var t := "2.50";
    assert Trimmed(t);
    StripIdempotentOnTrimmed(t);
    TwoFiftyLiteral();
  }

  lemma TwoFiftyLiteral()
    ensures PointLiteral("2.50", 1) && PointValue("2.50", 1) == 2.5
  {
    var t := "2.50";
    assert t[..1] == "2" && t[2..] == "50";
    assert DigitsValue("2") == 2 by { assert "2"[..0] == ""; }
    assert DigitsValue("50") == 50 by { assert "50"[..1] == "5" && "5"[..0] == ""; }
    assert Pow10(2) == 100;
  }

  /** Decimal digits of `n`, most significant first, as `str(n)` writes them. */
  function NatText(n: nat): (s: string)
    ensures |s| > 0 && AllDigits(s)
  {
    if n < 10 then [('0' as int + n) as char]
    else NatText(n / 10) + [('0' as int + n % 10) as char]
  }

  /** Reading back the digits written for `n` gives `n`. */
  lemma {:induction false} DigitsValueNatText(n: nat)
    ensures DigitsValue(NatText(n)) == n
  {
    var s := NatText(n);
    if n >= 10 {
      DigitsValueNatText(n / 10);
      assert s[..|s| - 1] == NatText(n / 10);
    }
  }

  /** `str(x)` for a whole-valued float below 10^16 is the digits followed by
      ".0"; `float()` reads it back exactly. This is what happens to a stored
      price when the article form loads it into a price field and saves it. */
  lemma WholeFloatRoundTrip(n: nat)
    ensures ParseFloat(NatText(n) + ".0") == Some(n as real)
  {
    var t := NatText(n) + ".0";
    assert IsDigit(t[0]);
    assert Trimmed(t);
    StripIdempotentOnTrimmed(t);
    WholeLiteralValue(n);
  }

  /** The unsigned literal `digits(n).0` has the value n. */
  lemma WholeLiteralValue(n: nat)
    ensures UnsignedValue(NatText(n) + ".0") == Some(n as real)
  {
    var d := NatText(n);
    var t := d + ".0";
    var k := |d|;
    assert OccursAt(t, ".", k) by { assert t[k..k + 1] == "."; }
    assert forall j :: 0 <= j < k ==> !OccursAt(t, ".", j) by {
      forall j | 0 <= j < k ensures !OccursAt(t, ".", j) {
        assert t[j..j + 1][0] == t[j] == d[j];
      }
    }
    FirstOccurrenceIsFindFirst(t, ".", k);
    assert t[..k] == d;
    assert t[k + 1..] == "0";
    DigitsValueNatText(n);
    assert DigitsValue("0") == 0 by { assert "0"[..0] == ""; }
  }

  /** FindFirst finds the leftmost occurrence. */
  lemma FirstOccurrenceIsFindFirst(s: string, sep: string, k: nat)
    requires |sep| > 0
    requires OccursAt(s, sep, k)
    requires forall j :: 0 <= j < k ==> !OccursAt(s, sep, j)
    ensures FindFirst(s, sep) == Some(k)
  {
  }

  /** Python's `float(a) == float(b)` for integers typed as text: the same
      digits give the same value, so an exact amount search matches. */
  lemma ParseFloatNatText(n: nat)
    ensures ParseFloat(NatText(n)) == Some(n as real)
  {
    var t := NatText(n);
    assert IsDigit(t[0]) && IsDigit(t[|t| - 1]);
    assert Trimmed(t);
    StripIdempotentOnTrimmed(t);
    assert ParseFloat(t) == UnsignedValue(t);
    assert UnsignedValue(t) == Some(DigitsValue(t) as real);
    DigitsValueNatText(n);
  }

  datatype Key = IntKey(n: int) | TextKey(t: string)

  /** SQLite's INTEGER affinity applied to a text value written into (or
      compared with) an INTEGER column: an optionally signed run of digits
      becomes that integer, anything else stays text. */
  function Affinity(t: string): (k: Key)
    ensures k.TextKey? ==> k.t == t
    ensures k.IntKey? <==> (|t| > 0 && AllDigits(t)) || (|t| > 1 && (t[0] == '-' || t[0] == '+') && AllDigits(t[1..]))
    ensures |t| > 0 && AllDigits(t) ==> k == IntKey(DigitsValue(t))
    ensures |t| > 1 && t[0] == '+' && AllDigits(t[1..]) ==> k == IntKey(DigitsValue(t[1..]))
    ensures |t| > 1 && t[0] == '-' && AllDigits(t[1..]) ==> k == IntKey(-(DigitsValue(t[1..]) as int))
  {
    if |t| > 0 && AllDigits(t) then IntKey(DigitsValue(t))
    else if |t| > 1 && (t[0] == '-' || t[0] == '+') && AllDigits(t[1..]) then
      IntKey(if t[0] == '-' then -(DigitsValue(t[1..]) as int) else DigitsValue(t[1..]))
    else TextKey(t)
  }

  /** The id text the pages build with `f"{id} - ..."` is read back by SQLite as
      the same integer id. */
  lemma AffinityNatText(n: nat)
    ensures Affinity(NatText(n)) == IntKey(n)
  {
    DigitsValueNatText(n);
  }

  /** A signed id text is read back as the signed integer. */
  lemma AffinitySignedNatText(n: nat)
    ensures Affinity("-" + NatText(n)) == IntKey(-(n as int))
    ensures Affinity("+" + NatText(n)) == IntKey(n)
  {
    assert ("-" + NatText(n))[1..] == NatText(n);
    assert ("+" + NatText(n))[1..] == NatText(n);
    DigitsValueNatText(n);
  }
}

=== FILE: invoices.dfy ===
/** `DatabaseManager`'s invoice operations (`facture` and `facture_detail`). */
module Invoices {

  import opened Wrappers
  import opened Tables
  import opened Sorting
  import opened Decimal
  import opened Store

  /** `create_facture` as Python keeps it (the second definition): a new
      invoice row whose id is returned. The total is whatever the caller
      passes; nothing ties it to the lines. */
  function CreateFacture(s: Store, nomClient: string, dateFacture: string, montantTotal: real): (r: Outcome<Option<int>>)
    ensures r.result == Some(s.factures.last + 1)
    ensures r.store == s.(factures := r.store.factures)
    ensures r.store.factures.rows == s.factures.rows + [Row(s.factures.last + 1, Invoice(nomClient, dateFacture, montantTotal))]
    ensures Valid(s) ==> Valid(r.store) && s.factures.last + 1 !in Ids(s.factures.rows)
  {
    Outcome(Some(s.factures.last + 1), s.(factures := Insert(s.factures, Invoice(nomClient, dateFacture, montantTotal))))
  }

  /** `add_article_to_facture`: one line whose total is computed here as
      quantity times unit price; the answer is `True`. */
  function AddArticleToFacture(s: Store, factureId: int, articleId: int, uniteId: int, quantite: real, prixUnitaire: real): (r: Outcome<bool>)
    ensures r.result
    ensures r.store == s.(details := r.store.details)
    ensures |r.store.details.rows| == |s.details.rows| + 1 && r.store.details.rows[..|s.details.rows|] == s.details.rows
    ensures var line := r.store.details.rows[|s.details.rows|].data;
      line.factureId == factureId && line.articleId == IntKey(articleId) && line.uniteId == IntKey(uniteId)
      && line.quantite == quantite && line.prixUnitaire == prixUnitaire && line.prixTotal == quantite * prixUnitaire
    ensures Valid(s) ==> Valid(r.store)
  {
    var line := InvoiceLine(factureId, IntKey(articleId), IntKey(uniteId), quantite, prixUnitaire, quantite * prixUnitaire);
    var s' := s.(details := Insert(s.details, line));
    assert s'.details.rows[..|s.details.rows|] == s.details.rows;
    Outcome(true, s')
  }

  /** `add_facture_detail`: one line holding exactly the values passed, the
      total included (it is not recomputed). The article and unit ids are
      stored after the column's INTEGER affinity, as `Key`s. */
  function AddFactureDetail(s: Store, factureId: int, articleId: Key, uniteId: Key, quantite: real, prixUnitaire: real, prixTotal: real): (r: Store)
    ensures r == s.(details := r.details)
    ensures r.details.rows == s.details.rows + [Row(s.details.last + 1, InvoiceLine(factureId, articleId, uniteId, quantite, prixUnitaire, prixTotal))]
    ensures Valid(s) ==> Valid(r)
  {
    s.(details := Insert(s.details, InvoiceLine(factureId, articleId, uniteId, quantite, prixUnitaire, prixTotal)))
  }

  /** The two ways of adding a line agree exactly when the caller of
      `add_facture_detail` passes quantity times unit price as the total. */
  lemma AddLineAgreement(s: Store, factureId: int, articleId: int, uniteId: int, quantite: real, prixUnitaire: real, prixTotal: real)
    ensures AddFactureDetail(s, factureId, IntKey(articleId), IntKey(uniteId), quantite, prixUnitaire, prixTotal)
      == AddArticleToFacture(s, factureId, articleId, uniteId, quantite, prixUnitaire).store
      <==> prixTotal == quantite * prixUnitaire
  {
    var a := AddFactureDetail(s, factureId, IntKey(articleId), IntKey(uniteId), quantite, prixUnitaire, prixTotal);
    var b := AddArticleToFacture(s, factureId, articleId, uniteId, quantite, prixUnitaire).store;
    if a == b {
      assert a.details.rows[|s.details.rows|] == b.details.rows[|s.details.rows|];
    }
  }

  function InvoiceDate(row: Row<Invoice>): string {
    row.data.dateFacture
  }

  /** `get_all_factures`: every invoice, latest date first (dates are ISO
      text, compared as strings). */
  function GetAllFactures(s: Store): (r: seq<Row<Invoice>>)
    ensures multiset(r) == multiset(s.factures.rows)
    ensures SortedBy(r, InvoiceDate, true)
  {
    SortBy(s.factures.rows, InvoiceDate, true)
  }

  /** `get_facture_by_id`: the invoice with that id, or `None`. */
  function GetFactureById(s: Store, factureId: int): (r: Option<Invoice>)
    ensures r.Some? <==> factureId in Ids(s.factures.rows)
    ensures Valid(s) ==> forall k :: 0 <= k < |s.factures.rows| && s.factures.rows[k].id == factureId ==> r == Some(s.factures.rows[k].data)
  {
    Find(s.factures.rows, factureId)
  }

  /** One row of `get_facture_details`: the line, its article's name, its
      unit's label and, when there is one, the article's warehouse name. */
  datatype LineView = LineView(line: Row<InvoiceLine>, articleNom: string, uniteLibelle: string, entrepotNom: Option<string>)

  /** The integer a key column compares equal to, if any: a value that stayed
      text never equals an integer id. */
  function KeyId(k: Key): Option<int> {
    match k
    case IntKey(n) => Some(n)
    case TextKey(_) => None
  }

  function WarehouseName(s: Store, entrepotId: Option<int>): Option<string> {
    match entrepotId
    case None => None
    case Some(e) =>
      match Find(s.entrepots.rows, e)
      case None => None
      case Some(w) => Some(w.nom)
  }

  /** The joined view of one line, or `None` when its article or its unit
      cannot be found (the inner joins drop it). */
  function ViewOf(s: Store, line: Row<InvoiceLine>): Option<LineView> {
    match (KeyId(line.data.articleId), KeyId(line.data.uniteId))
    case (Some(a), Some(u)) =>
      (match (Find(s.articles.rows, a), Find(s.unites.rows, u))
       case (Some(article), Some(unit)) => Some(LineView(line, article.nom, unit.libelle, WarehouseName(s, article.entrepotId)))
       case _ => None)
    case _ => None
  }

  /** A joined view carries the line it was built from. */
  lemma ViewOfKeepsLine(s: Store, line: Row<InvoiceLine>)
    ensures ViewOf(s, line).Some? ==> ViewOf(s, line).value.line == line
  {
  }

  /** The views of the invoice's lines, in scan order. */
  function ViewLines(s: Store, lines: seq<Row<InvoiceLine>>, factureId: int): (r: seq<LineView>)
    ensures forall v :: v in r <==> exists line :: line in lines && line.data.factureId == factureId && ViewOf(s, line) == Some(v)
  {
    if |lines| == 0 then []
    else
      var tail := ViewLines(s, lines[1..], factureId);
      assert forall line :: line in lines <==> line == lines[0] || line in lines[1..];
      var head := if lines[0].data.factureId == factureId && ViewOf(s, lines[0]).Some? then [ViewOf(s, lines[0]).value] else [];
      head + tail
  }

  /** A listed view comes from one of the invoice's lines. */
  lemma ViewLineFrom(s: Store, lines: seq<Row<InvoiceLine>>, factureId: int, v: LineView)
    requires v in ViewLines(s, lines, factureId)
    ensures v.line in lines && v.line.data.factureId == factureId && ViewOf(s, v.line) == Some(v)
  {
    var line :| line in lines && line.data.factureId == factureId && ViewOf(s, line) == Some(v);
    ViewOfKeepsLine(s, line);
  }

  /** One step of the scan: the first line's view, if it is shown, then the
      views of the rest. */
  lemma ViewLinesStep(s: Store, lines: seq<Row<InvoiceLine>>, factureId: int)
    requires |lines| > 0
    ensures var r := ViewLines(s, lines, factureId);
      var tail := ViewLines(s, lines[1..], factureId);
      (r == tail || (|r| == |tail| + 1 && r[0].line == lines[0] && r[1..] == tail))
  {
    ViewOfKeepsLine(s, lines[0]);
  }

  predicate LinesInIdOrder(r: seq<LineView>) {
    forall i, j :: 0 <= i < j < |r| ==> r[i].line.id < r[j].line.id
  }

  /** With line ids increasing, the views keep that order, so no line is
      listed twice. */
  lemma {:induction false} ViewLinesOrdered(s: Store, lines: seq<Row<InvoiceLine>>, factureId: int)
    requires IdsIncreasing(lines)
    ensures LinesInIdOrder(ViewLines(s, lines, factureId))
  {
    if |lines| > 0 {
      var r := ViewLines(s, lines, factureId);
      var tail := ViewLines(s, lines[1..], factureId);
      assert IdsIncreasing(lines[1..]) by {
        forall i, j | 0 <= i < j < |lines[1..]| ensures lines[1..][i].id < lines[1..][j].id {
          assert lines[1..][i] == lines[i + 1] && lines[1..][j] == lines[j + 1];
        }
      }
      ViewLinesOrdered(s, lines[1..], factureId);
      ViewLinesStep(s, lines, factureId);
      if r != tail {
        forall k | 0 <= k < |tail| ensures lines[0].id < tail[k].line.id {
          ViewLineFrom(s, lines[1..], factureId, tail[k]);
          var m :| 0 <= m < |lines[1..]| && lines[1..][m] == tail[k].line;
          assert lines[m + 1] == tail[k].line;
        }
        forall i, j | 0 <= i < j < |r| ensures r[i].line.id < r[j].line.id {
          assert r[j] == tail[j - 1];
          assert LinesInIdOrder(tail);
          if i > 0 {
            assert r[i] == tail[i - 1];
          }
        }
      }
    }
  }

  /** What a joined view says about its line: integer keys naming an article
      row with that name and a unit row with that label. */
  lemma ViewOfShape(s: Store, line: Row<InvoiceLine>)
    requires ViewOf(s, line).Some?
    ensures var v := ViewOf(s, line).value;
      && v.line == line
      && line.data.articleId.IntKey? && line.data.uniteId.IntKey?
      && (exists ar :: ar in s.articles.rows && IntKey(ar.id) == line.data.articleId && ar.data.nom == v.articleNom)
      && (exists ur :: ur in s.unites.rows && IntKey(ur.id) == line.data.uniteId && ur.data.libelle == v.uniteLibelle)
  {
  }

  /** `get_facture_details`: the invoice's lines joined with their article and
      unit (inner joins: a line whose article or unit row is gone, or whose id
      stayed text, is not shown) and the article's warehouse (left join). */
  function GetFactureDetails(s: Store, factureId: int): (r: seq<LineView>)
    ensures forall v :: v in r ==> v.line in s.details.rows && v.line.data.factureId == factureId
    ensures forall v :: v in r ==> ViewOf(s, v.line) == Some(v)
    ensures forall v :: v in r ==> v.line.data.articleId.IntKey? && v.line.data.uniteId.IntKey?
    ensures forall v :: v in r ==>
      exists ar :: ar in s.articles.rows && IntKey(ar.id) == v.line.data.articleId && ar.data.nom == v.articleNom
    ensures forall v :: v in r ==>
      exists ur :: ur in s.unites.rows && IntKey(ur.id) == v.line.data.uniteId && ur.data.libelle == v.uniteLibelle
    ensures forall line ::
      (line in s.details.rows && line.data.factureId == factureId
       && line.data.articleId.IntKey? && line.data.articleId.n in Ids(s.articles.rows)
       && line.data.uniteId.IntKey? && line.data.uniteId.n in Ids(s.unites.rows))
      ==> exists v :: v in r && v.line == line
    ensures Valid(s) ==> forall i, j :: 0 <= i < j < |r| ==> r[i].line != r[j].line
  {
    DetailViews(s, factureId);
    ViewLines(s, s.details.rows, factureId)
  }

  /** The contract of `get_facture_details`, proved about the scan. */
  lemma DetailViews(s: Store, factureId: int)
    ensures var r := ViewLines(s, s.details.rows, factureId);
      && (forall v :: v in r ==> v.line in s.details.rows && v.line.data.factureId == factureId)
      && (forall v :: v in r ==> ViewOf(s, v.line) == Some(v))
      && (forall v :: v in r ==> v.line.data.articleId.IntKey? && v.line.data.uniteId.IntKey?)
      && (forall v :: v in r ==>
            exists ar :: ar in s.articles.rows && IntKey(ar.id) == v.line.data.articleId && ar.data.nom == v.articleNom)
      && (forall v :: v in r ==>
            exists ur :: ur in s.unites.rows && IntKey(ur.id) == v.line.data.uniteId && ur.data.libelle == v.uniteLibelle)
      && (forall line ::
            (line in s.details.rows && line.data.factureId == factureId
             && line.data.articleId.IntKey? && line.data.articleId.n in Ids(s.articles.rows)
             && line.data.uniteId.IntKey? && line.data.uniteId.n in Ids(s.unites.rows))
            ==> exists v :: v in r && v.line == line)
      && (Valid(s) ==> forall i, j :: 0 <= i < j < |r| ==> r[i].line != r[j].line)
  {
    var r := ViewLines(s, s.details.rows, factureId);
    forall v | v in r
      ensures v.line in s.details.rows && v.line.data.factureId == factureId && ViewOf(s, v.line) == Some(v)
      ensures v.line.data.articleId.IntKey? && v.line.data.uniteId.IntKey?
      ensures exists ar :: ar in s.articles.rows && IntKey(ar.id) == v.line.data.articleId && ar.data.nom == v.articleNom
      ensures exists ur :: ur in s.unites.rows && IntKey(ur.id) == v.line.data.uniteId && ur.data.libelle == v.uniteLibelle
    {
      ViewLineFrom(s, s.details.rows, factureId, v);
      ViewOfShape(s, v.line);
    }
    forall line | line in s.details.rows && line.data.factureId == factureId
        && line.data.articleId.IntKey? && line.data.articleId.n in Ids(s.articles.rows)
        && line.data.uniteId.IntKey? && line.data.uniteId.n in Ids(s.unites.rows)
      ensures exists v :: v in r && v.line == line
    {
      ViewOfFound(s, line);
      ViewOfShape(s, line);
    }
    if Valid(s) {
      ViewLinesOrdered(s, s.details.rows, factureId);
      forall i, j | 0 <= i < j < |r| ensures r[i].line != r[j].line {
        assert LinesInIdOrder(r);
      }
    }
  }

  /** A line whose integer keys name existing rows has a view. */
  lemma ViewOfFound(s: Store, line: Row<InvoiceLine>)
    requires line.data.articleId.IntKey? && line.data.articleId.n in Ids(s.articles.rows)
    requires line.data.uniteId.IntKey? && line.data.uniteId.n in Ids(s.unites.rows)
    ensures ViewOf(s, line).Some?
  {
  }
}

=== FILE: prices.dfy ===
/** `DatabaseManager`'s price operations (`prix_article` table): one price per
    (article, unit) pair, looked up, created, rewritten and deleted by that
    pair. */
module Prices {

  import opened Wrappers
  import opened Tables
  import opened Sorting
  import opened Store

  /** One row of `get_prix_by_article`: the price row joined with its unit. */
  datatype PriceWithUnit = PriceWithUnit(id: int, articleId: int, uniteId: int, prixUnitaire: real, code: string, libelle: string)

  /** One row of `get_unites_by_article`: the unit and what the article costs
      in it. */
  datatype UnitWithPrice = UnitWithPrice(uniteId: int, code: string, libelle: string, prixUnitaire: real)

  function PriceUnitLabel(p: PriceWithUnit): string {
    p.libelle
  }

  function UnitPriceLabel(u: UnitWithPrice): string {
    u.libelle
  }

  predicate PriceOf(row: Row<Price>, articleId: int, uniteId: int) {
    row.data.articleId == articleId && row.data.uniteId == uniteId
  }

  function Joined(pr: Row<Price>, ur: Row<Unit>): PriceWithUnit {
    PriceWithUnit(pr.id, pr.data.articleId, pr.data.uniteId, pr.data.prixUnitaire, ur.data.code, ur.data.libelle)
  }

  /** The inner join of one price row with the unit rows carrying its unit id. */
  function JoinOne(pr: Row<Price>, units: seq<Row<Unit>>): (r: seq<PriceWithUnit>)
    ensures forall a :: a in r <==> exists ur :: ur in units && ur.id == pr.data.uniteId && a == Joined(pr, ur)
  {
    if |units| == 0 then []
    else
      var tail := JoinOne(pr, units[1..]);
      assert forall ur :: ur in units <==> ur == units[0] || ur in units[1..];
      if units[0].id == pr.data.uniteId then [Joined(pr, units[0])] + tail else tail
  }

  /** The inner join of the price rows of `articleId` with the units, in scan
      order. */
  function JoinArticle(prices: seq<Row<Price>>, units: seq<Row<Unit>>, articleId: int): (r: seq<PriceWithUnit>)
    ensures forall a :: a in r <==>
      exists pr, ur :: pr in prices && ur in units && pr.data.articleId == articleId && ur.id == pr.data.uniteId && a == Joined(pr, ur)
  {
    if |prices| == 0 then []
    else
      var here := if prices[0].data.articleId == articleId then JoinOne(prices[0], units) else [];
      var tail := JoinArticle(prices[1..], units, articleId);
      assert forall pr :: pr in prices <==> pr == prices[0] || pr in prices[1..];
      here + tail
  }

  function PriceUnitId(p: PriceWithUnit): int {
    p.uniteId
  }

  function UnitIdOf(u: UnitWithPrice): int {
    u.uniteId
  }

  /** With unit ids unique, one price row joins with at most one unit row. */
  lemma {:induction false} JoinOneAtMostOne(pr: Row<Price>, units: seq<Row<Unit>>)
    requires IdsIncreasing(units)
    ensures |JoinOne(pr, units)| <= 1
  {
    if |units| > 0 {
      assert IdsIncreasing(units[1..]) by {
        forall i, j | 0 <= i < j < |units[1..]| ensures units[1..][i].id < units[1..][j].id {
          assert units[1..][i] == units[i + 1] && units[1..][j] == units[j + 1];
        }
      }
      JoinOneAtMostOne(pr, units[1..]);
      if units[0].id == pr.data.uniteId {
        forall ur | ur in units[1..] ensures ur.id != pr.data.uniteId {
          var k :| 0 <= k < |units[1..]| && units[1..][k] == ur;
          assert units[k + 1] == ur;
        }
        JoinOneNone(pr, units[1..]);
      }
    }
  }

  lemma JoinOneNone(pr: Row<Price>, units: seq<Row<Unit>>)
    requires forall ur :: ur in units ==> ur.id != pr.data.uniteId
    ensures JoinOne(pr, units) == []
  {
    if |units| > 0 {
      assert units[0] in units;
      JoinOneNone(pr, units[1..]);
    }
  }

  /** With unit ids and (article, unit) pairs unique, the article's join names
      each unit once. */
  lemma {:induction false} JoinArticleDistinct(prices: seq<Row<Price>>, units: seq<Row<Unit>>, articleId: int)
    requires IdsIncreasing(units) && PricePairsUnique(prices)
    ensures KeysDistinct(JoinArticle(prices, units, articleId), PriceUnitId)
  {
    if |prices| > 0 {
      var here := if prices[0].data.articleId == articleId then JoinOne(prices[0], units) else [];
      var tail := JoinArticle(prices[1..], units, articleId);
      assert PricePairsUnique(prices[1..]) by {
        forall i, j | 0 <= i < j < |prices[1..]|
          ensures prices[1..][i].data.articleId != prices[1..][j].data.articleId || prices[1..][i].data.uniteId != prices[1..][j].data.uniteId
        {
          assert prices[1..][i] == prices[i + 1] && prices[1..][j] == prices[j + 1];
        }
      }
      JoinArticleDistinct(prices[1..], units, articleId);
      if prices[0].data.articleId == articleId {
        JoinOneAtMostOne(prices[0], units);
      }
      var r := here + tail;
      assert r == JoinArticle(prices, units, articleId);
      forall i, j | 0 <= i < j < |r| ensures PriceUnitId(r[i]) != PriceUnitId(r[j]) {
        if j < |here| {
        } else if i < |here| {
          assert r[i] in here && r[j] == tail[j - |here|] && r[j] in tail;
          var pr, ur :| pr in prices[1..] && ur in units && pr.data.articleId == articleId && ur.id == pr.data.uniteId && r[j] == Joined(pr, ur);
          var k :| 0 <= k < |prices[1..]| && prices[1..][k] == pr;
          assert prices[k + 1] == pr;
        } else {
          assert r[i] == tail[i - |here|] && r[j] == tail[j - |here|];
        }
      }
    }
  }

  /** `get_prix_by_article`: the article's prices with their unit's code and
      label, ordered by label. A price whose unit row is gone drops out of the
      join. In a valid store each unit shows up at most once. */
  function GetPrixByArticle(s: Store, articleId: int): (r: seq<PriceWithUnit>)
    ensures SortedBy(r, PriceUnitLabel, false)
    ensures multiset(r) == multiset(JoinArticle(s.prix.rows, s.unites.rows, articleId))
    ensures forall a :: a in r <==>
      exists pr, ur :: pr in s.prix.rows && ur in s.unites.rows && pr.data.articleId == articleId && ur.id == pr.data.uniteId && a == Joined(pr, ur)
    ensures Valid(s) ==> KeysDistinct(r, PriceUnitId)
  {
    var joined := JoinArticle(s.prix.rows, s.unites.rows, articleId);
    var r := SortBy(joined, PriceUnitLabel, false);
    assert forall a :: a in r <==> a in joined by {
      forall a ensures a in r <==> a in joined {
        assert a in r <==> a in multiset(r);
      }
    }
    assert Valid(s) ==> KeysDistinct(r, PriceUnitId) by {
      if Valid(s) {
        JoinArticleDistinct(s.prix.rows, s.unites.rows, articleId);
        KeysDistinctPermutation(joined, r, PriceUnitId);
      }
    }
    r
  }

  function AsUnitWithPrice(p: PriceWithUnit): UnitWithPrice {
    UnitWithPrice(p.uniteId, p.code, p.libelle, p.prixUnitaire)
  }

  /** The unit-side view of a list of joined prices, entry by entry. */
  function AsUnits(ps: seq<PriceWithUnit>): (r: seq<UnitWithPrice>)
    ensures |r| == |ps|
    ensures forall k :: 0 <= k < |r| ==> r[k] == AsUnitWithPrice(ps[k])
  {
    seq(|ps|, k requires 0 <= k < |ps| => AsUnitWithPrice(ps[k]))
  }

  lemma AsUnitsMembers(ps: seq<PriceWithUnit>, u: UnitWithPrice)
    ensures u in AsUnits(ps) <==> exists a :: a in ps && u == AsUnitWithPrice(a)
  {
    var r := AsUnits(ps);
    if u in r {
      var k :| 0 <= k < |r| && r[k] == u;
      assert ps[k] in ps;
    }
    if exists a :: a in ps && u == AsUnitWithPrice(a) {
      var a :| a in ps && u == AsUnitWithPrice(a);
      var k :| 0 <= k < |ps| && ps[k] == a;
      assert r[k] == u;
    }
  }

  /** A unit-side entry of the article comes from one of its price rows and
      the unit row that price names. */
  lemma UnitEntryMembers(s: Store, articleId: int, u: UnitWithPrice)
    ensures u in AsUnits(GetPrixByArticle(s, articleId)) <==>
      exists pr, ur :: pr in s.prix.rows && ur in s.unites.rows && pr.data.articleId == articleId && ur.id == pr.data.uniteId
        && u == UnitWithPrice(pr.data.uniteId, ur.data.code, ur.data.libelle, pr.data.prixUnitaire)
  {
    var ps := GetPrixByArticle(s, articleId);
    AsUnitsMembers(ps, u);
    if u in AsUnits(ps) {
      var a :| a in ps && u == AsUnitWithPrice(a);
      var pr, ur :| pr in s.prix.rows && ur in s.unites.rows && pr.data.articleId == articleId && ur.id == pr.data.uniteId && a == Joined(pr, ur);
    }
    if exists pr, ur :: pr in s.prix.rows && ur in s.unites.rows && pr.data.articleId == articleId && ur.id == pr.data.uniteId
        && u == UnitWithPrice(pr.data.uniteId, ur.data.code, ur.data.libelle, pr.data.prixUnitaire)
    {
      var pr, ur :| pr in s.prix.rows && ur in s.unites.rows && pr.data.articleId == articleId && ur.id == pr.data.uniteId
        && u == UnitWithPrice(pr.data.uniteId, ur.data.code, ur.data.libelle, pr.data.prixUnitaire);
      assert Joined(pr, ur) in ps && u == AsUnitWithPrice(Joined(pr, ur));
    }
  }

  /** `get_unites_by_article`: the same join seen from the unit side: the units
      the article has a price in, with that price, ordered by label; in a valid
      store one entry per priced unit. */
  function GetUnitesByArticle(s: Store, articleId: int): (r: seq<UnitWithPrice>)
    ensures |r| == |GetPrixByArticle(s, articleId)|
    ensures SortedBy(r, UnitPriceLabel, false)
    ensures forall k :: 0 <= k < |r| ==> r[k] == AsUnitWithPrice(GetPrixByArticle(s, articleId)[k])
    ensures forall u :: u in r <==>
      exists pr, ur :: pr in s.prix.rows && ur in s.unites.rows && pr.data.articleId == articleId && ur.id == pr.data.uniteId
        && u == UnitWithPrice(pr.data.uniteId, ur.data.code, ur.data.libelle, pr.data.prixUnitaire)
    ensures Valid(s) ==> KeysDistinct(r, UnitIdOf)
  {
    var ps := GetPrixByArticle(s, articleId);
    var r := AsUnits(ps);
    assert SortedBy(r, UnitPriceLabel, false) by {
      forall i, j | 0 <= i < j < |r| ensures InOrder(UnitPriceLabel(r[i]), UnitPriceLabel(r[j]), false) {
        assert InOrder(PriceUnitLabel(ps[i]), PriceUnitLabel(ps[j]), false);
      }
    }
    forall u {
      UnitEntryMembers(s, articleId, u);
    }
    assert Valid(s) ==> KeysDistinct(r, UnitIdOf) by {
      if Valid(s) {
        forall i, j | 0 <= i < j < |r| ensures UnitIdOf(r[i]) != UnitIdOf(r[j]) {
          assert PriceUnitId(ps[i]) != PriceUnitId(ps[j]);
        }
      }
    }
    r
  }

  /** The first price row of the pair, as `fetchone()` returns it. */
  function FirstPrice(rows: seq<Row<Price>>, articleId: int, uniteId: int): (r: Option<real>)
    ensures r.Some? <==> PairPriced(rows, articleId, uniteId)
    ensures r.Some? ==> exists k :: 0 <= k < |rows| && PriceOf(rows[k], articleId, uniteId) && rows[k].data.prixUnitaire == r.value
  {
    if |rows| == 0 then None
    else if PriceOf(rows[0], articleId, uniteId) then Some(rows[0].data.prixUnitaire)
    else
      var r := FirstPrice(rows[1..], articleId, uniteId);
      assert PairPriced(rows, articleId, uniteId) ==> PairPriced(rows[1..], articleId, uniteId) by {
        if PairPriced(rows, articleId, uniteId) {
          var k :| 0 <= k < |rows| && PriceOf(rows[k], articleId, uniteId);
          assert rows[1..][k - 1] == rows[k];
        }
      }
      assert r.Some? ==> exists k :: 0 <= k < |rows| && PriceOf(rows[k], articleId, uniteId) && rows[k].data.prixUnitaire == r.value by {
        if r.Some? {
          var k :| 0 <= k < |rows[1..]| && PriceOf(rows[1..][k], articleId, uniteId) && rows[1..][k].data.prixUnitaire == r.value;
          assert rows[k + 1] == rows[1..][k];
        }
      }
      r
  }

  /** `get_prix_unitaire` (and the identical `get_prix_article_unite`): the
      stored price of the pair, or `None` (never 0) when the pair has no row.
      With the pair unique, the price is that of the one row there is. */
  function GetPrixUnitaire(s: Store, articleId: int, uniteId: int): (r: Option<real>)
    ensures r.None? <==> !PairPriced(s.prix.rows, articleId, uniteId)
    ensures Valid(s) ==> forall k :: 0 <= k < |s.prix.rows| && PriceOf(s.prix.rows[k], articleId, uniteId) ==>
      r == Some(s.prix.rows[k].data.prixUnitaire)
  {
    var r := FirstPrice(s.prix.rows, articleId, uniteId);
    assert Valid(s) ==> forall k :: 0 <= k < |s.prix.rows| && PriceOf(s.prix.rows[k], articleId, uniteId) ==>
      r == Some(s.prix.rows[k].data.prixUnitaire) by {
      if Valid(s) {
        forall k | 0 <= k < |s.prix.rows| && PriceOf(s.prix.rows[k], articleId, uniteId)
          ensures r == Some(s.prix.rows[k].data.prixUnitaire)
        {
          var j :| 0 <= j < |s.prix.rows| && PriceOf(s.prix.rows[j], articleId, uniteId) && s.prix.rows[j].data.prixUnitaire == r.value;
          assert j == k;
        }
      }
    }
    r
  }

  /** `create_prix`: `False` and no change when the pair already has a price
      (the old price stays); otherwise one new row. */
  function CreatePrix(s: Store, articleId: int, uniteId: int, prix: real): (r: Outcome<bool>)
    ensures !r.result <==> PairPriced(s.prix.rows, articleId, uniteId)
    ensures !r.result ==> r.store == s
    ensures r.result ==> r.store == s.(prix := r.store.prix)
    ensures r.result ==> r.store.prix.rows == s.prix.rows + [Row(s.prix.last + 1, Price(articleId, uniteId, prix))]
    ensures Valid(s) ==> Valid(r.store)
  {
    if PairPriced(s.prix.rows, articleId, uniteId) then Outcome(false, s)
    else Outcome(true, s.(prix := Insert(s.prix, Price(articleId, uniteId, prix))))
  }

  /** `add_prix_article`: the same INSERT without a try block, so a taken pair
      raises, and so does an article id of `None` (the column is NOT NULL). */
  function AddPrixArticle(s: Store, articleId: Option<int>, uniteId: int, prix: real): (r: Outcome<Result<(), DbError>>)
    ensures articleId.None? ==> r.result == Err(NotNullViolation)
    ensures articleId.Some? ==> (r.result.Err? <==> PairPriced(s.prix.rows, articleId.value, uniteId))
    ensures r.result.Err? ==> r.store == s
    ensures r.result.Ok? ==> r.store == CreatePrix(s, articleId.value, uniteId, prix).store
    ensures Valid(s) ==> Valid(r.store)
  {
    match articleId
    case None => Outcome(Err(NotNullViolation), s)
    case Some(a) =>
      var c := CreatePrix(s, a, uniteId, prix);
      if c.result then Outcome(Ok(()), c.store) else Outcome(Err(IntegrityError), s)
  }

  /** `update_prix`: the pair's row, if any, gets the new price; the answer is
      `True` even when no row matched. */
  function UpdatePrix(s: Store, articleId: int, uniteId: int, prix: real): (r: Outcome<bool>)
    ensures r.result
    ensures r.store == s.(prix := r.store.prix)
    ensures r.store.prix.last == s.prix.last && |r.store.prix.rows| == |s.prix.rows|
    ensures forall k :: 0 <= k < |s.prix.rows| ==>
      r.store.prix.rows[k] == if PriceOf(s.prix.rows[k], articleId, uniteId) then Row(s.prix.rows[k].id, Price(articleId, uniteId, prix)) else s.prix.rows[k]
    ensures Valid(s) ==> Valid(r.store)
  {
    var sel := (row: Row<Price>) => PriceOf(row, articleId, uniteId);
    var f := (p: Price) => p.(prixUnitaire := prix);
    var s' := s.(prix := Table(UpdateWhere(s.prix.rows, sel, f), s.prix.last));
    assert Valid(s) ==> Valid(s') by {
      if Valid(s) { UpdateKeepsWellFormed(s.prix, sel, f); }
    }
    Outcome(true, s')
  }

  /** `delete_prix`: the pair's row goes; the answer is always `True`. */
  function DeletePrix(s: Store, articleId: int, uniteId: int): (r: Outcome<bool>)
    ensures r.result
    ensures r.store == s.(prix := r.store.prix)
    ensures r.store.prix.last == s.prix.last
    ensures forall row :: row in r.store.prix.rows <==> row in s.prix.rows && !PriceOf(row, articleId, uniteId)
    ensures Valid(s) ==> Valid(r.store)
  {
    var keep := (row: Row<Price>) => !PriceOf(row, articleId, uniteId);
    var s' := s.(prix := Table(Where(s.prix.rows, keep), s.prix.last));
    assert Valid(s) ==> WellFormed(s'.prix) && PricePairsUnique(s'.prix.rows) by {
      if Valid(s) {
        WhereKeepsWellFormed(s.prix, keep);
        WhereKeepsPricePairsUnique(s.prix.rows, keep);
      }
    }
    Outcome(true, s')
  }

  /** Deleting price rows never makes two rows share a pair. */
  lemma WhereKeepsPricePairsUnique(rows: seq<Row<Price>>, keep: Row<Price> -> bool)
    requires IdsIncreasing(rows) && PricePairsUnique(rows)
    ensures PricePairsUnique(Where(rows, keep))
  {
    var r := Where(rows, keep);
    forall i, j | 0 <= i < j < |r|
      ensures r[i].data.articleId != r[j].data.articleId || r[i].data.uniteId != r[j].data.uniteId
    {
      WherePairs(rows, keep, i, j);
    }
  }

  /** `DELETE FROM prix_article WHERE article_id = ?`, which the article page
      runs on its own connection before rewriting an article's prices. */
  function DeleteArticlePrices(s: Store, articleId: int): (r: Store)
    ensures r == s.(prix := r.prix)
    ensures r.prix.last == s.prix.last
    ensures forall row :: row in r.prix.rows <==> row in s.prix.rows && row.data.articleId != articleId
    ensures forall u :: !PairPriced(r.prix.rows, articleId, u)
    ensures Valid(s) ==> Valid(r)
  {
    var r := s.(prix := Table(Where(s.prix.rows, (row: Row<Price>) => row.data.articleId != articleId), s.prix.last));
    assert forall k :: 0 <= k < |r.prix.rows| ==> r.prix.rows[k].data.articleId != articleId by {
      forall k | 0 <= k < |r.prix.rows| ensures r.prix.rows[k].data.articleId != articleId {
        assert r.prix.rows[k] in r.prix.rows;
      }
    }
    r
  }

  /** After a successful `create_prix` the pair reads back the new price, and
      every other pair reads what it read before. */
  lemma CreateThenGet(s: Store, articleId: int, uniteId: int, prix: real, a: int, u: int)
    requires Valid(s)
    requires CreatePrix(s, articleId, uniteId, prix).result
    ensures GetPrixUnitaire(CreatePrix(s, articleId, uniteId, prix).store, a, u) ==
      if a == articleId && u == uniteId then Some(prix) else GetPrixUnitaire(s, a, u)
  {
    var s' := CreatePrix(s, articleId, uniteId, prix).store;
    var n := |s.prix.rows|;
    if a == articleId && u == uniteId {
      assert PriceOf(s'.prix.rows[n], a, u);
    } else {
      assert !PriceOf(s'.prix.rows[n], a, u);
      assert PairPriced(s'.prix.rows, a, u) ==> PairPriced(s.prix.rows, a, u) by {
        if PairPriced(s'.prix.rows, a, u) {
          var k :| 0 <= k < |s'.prix.rows| && PriceOf(s'.prix.rows[k], a, u);
          assert k < n;
          assert PriceOf(s.prix.rows[k], a, u);
        }
      }
      assert PairPriced(s.prix.rows, a, u) ==> PairPriced(s'.prix.rows, a, u) by {
        if PairPriced(s.prix.rows, a, u) {
          var k :| 0 <= k < n && PriceOf(s.prix.rows[k], a, u);
          assert PriceOf(s'.prix.rows[k], a, u);
        }
      }
      if PairPriced(s.prix.rows, a, u) {
        var k :| 0 <= k < n && PriceOf(s.prix.rows[k], a, u);
        assert s'.prix.rows[k] == s.prix.rows[k];
      }
    }
  }

  /** `update_prix` rewrites the price of a priced pair and cannot create one
      for an unpriced pair. */
  lemma UpdateThenGet(s: Store, articleId: int, uniteId: int, prix: real)
    requires Valid(s)
    ensures GetPrixUnitaire(UpdatePrix(s, articleId, uniteId, prix).store, articleId, uniteId) ==
      if PairPriced(s.prix.rows, articleId, uniteId) then Some(prix) else None
  {
    var s' := UpdatePrix(s, articleId, uniteId, prix).store;
    if PairPriced(s.prix.rows, articleId, uniteId) {
      var k :| 0 <= k < |s.prix.rows| && PriceOf(s.prix.rows[k], articleId, uniteId);
      assert PriceOf(s'.prix.rows[k], articleId, uniteId);
    } else {
      forall k | 0 <= k < |s'.prix.rows| ensures !PriceOf(s'.prix.rows[k], articleId, uniteId) {
        assert s'.prix.rows[k] == s.prix.rows[k];
      }
    }
  }

  /** After `delete_prix` the pair has no price. */
  lemma DeleteThenGet(s: Store, articleId: int, uniteId: int)
    ensures GetPrixUnitaire(DeletePrix(s, articleId, uniteId).store, articleId, uniteId).None?
  {
    var s' := DeletePrix(s, articleId, uniteId).store;
    forall k | 0 <= k < |s'.prix.rows| ensures !PriceOf(s'.prix.rows[k], articleId, uniteId) {
      assert s'.prix.rows[k] in s'.prix.rows;
    }
  }
}

=== FILE: sales_report.dfy ===
/** The sales report: the filters of `appliquer_filtres` (a period and a
    text search) and the listing `load_ventes` shows. Today's date is a
    parameter. */
module SalesReport {

  import opened Wrappers
  import opened Tables
  import opened Text
  import opened Decimal
  import opened Sorting
  import opened Store
  import Invoices

  /** The three values the report screen passes. */
  datatype Filters = Filters(typeRecherche: string, termeRecherche: string, periode: string)

  /** A calendar day. */
  datatype Day = Day(year: nat, month: nat, day: nat)

  /** `s` left-padded with zeros to `width` characters, as `%Y`, `%m` and
      `%d` pad their numbers. */
  function ZeroPad(s: string, width: nat): (r: string)
    ensures |r| == if |s| >= width then |s| else width
    ensures r[|r| - |s|..] == s
    ensures forall i :: 0 <= i < |r| - |s| ==> r[i] == '0'
  {
    if |s| >= width then s
    else
      var zeros := seq(width - |s|, _ => '0');
      assert (zeros + s)[width - |s|..] == s;
      zeros + s
  }

  /** `strftime("%Y-%m-%d")`. */
  function IsoDate(d: Day): (r: string)
    ensures |r| >= 10
  {
    var y := ZeroPad(NatText(d.year), 4);
    var m := ZeroPad(NatText(d.month), 2);
    var j := ZeroPad(NatText(d.day), 2);
    assert |y| >= 4 && |m| >= 2 && |j| >= 2;
    y + "-" + m + "-" + j
  }

  /** The period choice as bounds on the invoice date. The "Cette semaine"
      branch calls `timedelta` on the `datetime` class and raises. */
  datatype Period = NoBounds | Bounds(debut: string, fin: string) | Raises

  const Today := "Aujourd'hui"
  const ThisWeek := "Cette semaine"
  const ThisMonth := "Ce mois"
  const SearchClient := "Nom Client"
  const SearchAmount := "Montant"

  function PeriodBounds(periode: string, today: Day): (r: Period)
    ensures periode == Today ==> r == Bounds(IsoDate(today), IsoDate(today))
    ensures periode == ThisMonth ==> r == Bounds(IsoDate(today.(day := 1)), IsoDate(today))
    ensures periode == ThisWeek <==> r == Raises
    ensures periode != Today && periode != ThisWeek && periode != ThisMonth ==> r == NoBounds
    ensures r.Bounds? ==> r.debut != [] && r.fin != []
  {
    if periode == Today then Bounds(IsoDate(today), IsoDate(today))
    else if periode == ThisWeek then Raises
    else if periode == ThisMonth then Bounds(IsoDate(today.(day := 1)), IsoDate(today))
    else NoBounds
  }

  /** The search term as the page reads it: lower-cased, then stripped. */
  function SearchTerm(filters: Filters): string {
    Strip(Lower(filters.termeRecherche))
  }

  /** The date filter: with both bounds set, `debut <= date <= fin` in string
      order. */
  predicate InPeriod(date: string, period: Period) {
    period.Bounds? && period.debut != [] && period.fin != [] ==> LexLe(period.debut, date) && LexLe(date, period.fin)
  }

  /** The text filter. A client search keeps names holding the term; an
      amount search keeps equal amounts, and a term that is not a float
      raises `ValueError`, which skips the invoice; an empty term keeps
      everything, and any other search type filters nothing. */
  predicate MatchesSearch(f: Row<Invoice>, typeRecherche: string, term: string) {
    if typeRecherche == SearchClient then term == [] || Contains(Lower(f.data.nomClient), term)
    else if typeRecherche == SearchAmount then
      term == [] || (ParseFloat(term).Some? && ParseFloat(term).value == f.data.montantTotal)
    else true
  }

  predicate Passes(f: Row<Invoice>, period: Period, typeRecherche: string, term: string) {
    InPeriod(f.data.dateFacture, period) && MatchesSearch(f, typeRecherche, term)
  }

  /** The loop's test as a function of the invoice. */
  function Keep(period: Period, typeRecherche: string, term: string): Row<Invoice> -> bool {
    f => Passes(f, period, typeRecherche, term)
  }

  /** The tests the loop of `appliquer_filtres` runs on one invoice, in
      their order; each `continue` is a `false` here. */
  method TestInvoice(f: Row<Invoice>, period: Period, typeRecherche: string, term: string) returns (pass: bool)
    ensures pass <==> Passes(f, period, typeRecherche, term)
  {
    if period.Bounds? && period.debut != [] && period.fin != [] {
      if !(LexLe(period.debut, f.data.dateFacture) && LexLe(f.data.dateFacture, period.fin)) {
        return false;
      }
    }
    if typeRecherche == SearchClient {
      if term != [] && !Contains(Lower(f.data.nomClient), term) {
        return false;
      }
    } else if typeRecherche == SearchAmount {
      if term != [] {
        match ParseFloat(term)
        case None =>
          return false;
        case Some(v) =>
          if v != f.data.montantTotal {
            return false;
          }
      }
    }
    return true;
  }

  /** The loop of `appliquer_filtres` over the invoices. */
  method FilterLoop(factures: seq<Row<Invoice>>, period: Period, typeRecherche: string, term: string)
    returns (kept: seq<Row<Invoice>>)
    ensures kept == Where(factures, Keep(period, typeRecherche, term))
  {
    var keep := Keep(period, typeRecherche, term);
    kept := [];
    var i := 0;
    while i < |factures|
      invariant 0 <= i <= |factures|
      invariant kept == Where(factures[..i], keep)
    {
      var f := factures[i];
      var pass := TestInvoice(f, period, typeRecherche, term);
      FilterStep(factures, i, keep, pass);
      if pass {
        kept := kept + [f];
      }
      i := i + 1;
    }
    assert factures[..|factures|] == factures;
  }

  /** One turn of the loop: the invoice goes to the end of the kept list
      exactly when it passes. */
  lemma FilterStep(factures: seq<Row<Invoice>>, i: int, keep: Row<Invoice> -> bool, pass: bool)
    requires 0 <= i < |factures| && keep(factures[i]) == pass
    ensures Where(factures[..i + 1], keep) == Where(factures[..i], keep) + (if pass then [factures[i]] else [])
  {
    var f := factures[i];
    WhereSingle(f, keep);
    WhereAppend(factures[..i], [f], keep);
    assert factures[..i + 1] == factures[..i] + [f];
  }

  /** `appliquer_filtres`: `None` when the period raises; otherwise the
      invoices passing both filters, in their original order. */
  method AppliquerFiltres(factures: seq<Row<Invoice>>, filters: Filters, today: Day) returns (r: Option<seq<Row<Invoice>>>)
    ensures r.None? <==> filters.periode == ThisWeek
    ensures r.Some? ==> forall f :: f in r.value <==>
      f in factures && Passes(f, PeriodBounds(filters.periode, today), filters.typeRecherche, SearchTerm(filters))
    ensures r.Some? ==> r.value == Where(factures, Keep(PeriodBounds(filters.periode, today), filters.typeRecherche, SearchTerm(filters)))
    ensures r.Some? ==> Embedding(r.value, factures,
      KeptPositions(factures, Keep(PeriodBounds(filters.periode, today), filters.typeRecherche, SearchTerm(filters))))
  {
    var term := SearchTerm(filters);
    var period := PeriodBounds(filters.periode, today);
    if period.Raises? {
      return None;
    }
    var kept := FilterLoop(factures, period, filters.typeRecherche, term);
    WhereEmbeds(factures, Keep(period, filters.typeRecherche, term));
    return Some(kept);
  }

  /** With "Aujourd'hui" the period bounds are both today's ISO date, so an
      invoice is in the period exactly when it is dated today. */
  lemma TodayMeansDatedToday(date: string, today: Day)
    ensures InPeriod(date, PeriodBounds(Today, today)) <==> date == IsoDate(today)
  {
    var d := IsoDate(today);
    if InPeriod(date, PeriodBounds(Today, today)) {
      LexLeAntisymmetric(d, date);
    } else {
      LexLeReflexive(d);
    }
  }

  /** An amount search whose term is not a number empties the list. */
  lemma NonNumericAmountDropsAll(f: Row<Invoice>, period: Period, term: string)
    requires term != [] && ParseFloat(term).None?
    ensures !Passes(f, period, SearchAmount, term)
  {
  }

  /** With no period bounds and a search type other than a client or amount
      search, nothing is filtered out. */
  lemma NoFilterKeepsAll(factures: seq<Row<Invoice>>, typeRecherche: string, term: string)
    requires typeRecherche != SearchClient && typeRecherche != SearchAmount
    ensures Where(factures, Keep(NoBounds, typeRecherche, term)) == factures
  {
    WhereAll(factures, Keep(NoBounds, typeRecherche, term));
  }

  /** An empty term filters nothing whatever the search type. */
  lemma EmptyTermKeepsAll(factures: seq<Row<Invoice>>, typeRecherche: string)
    ensures Where(factures, Keep(NoBounds, typeRecherche, [])) == factures
  {
    WhereAll(factures, Keep(NoBounds, typeRecherche, []));
  }

  /** `load_ventes`: the table is cleared, then filled with every invoice,
      filtered when filters are given, latest date first. When the filters
      raise, the table stays empty. */
  method LoadVentes(s: Store, filtres: Option<Filters>, today: Day) returns (shown: seq<Row<Invoice>>)
    ensures SortedBy(shown, Invoices.InvoiceDate, true)
    ensures filtres.None? ==> multiset(shown) == multiset(s.factures.rows)
    ensures filtres.Some? && filtres.value.periode == ThisWeek ==> shown == []
    ensures filtres.Some? && filtres.value.periode != ThisWeek ==>
      forall f :: f in shown <==>
        (f in s.factures.rows && Passes(f, PeriodBounds(filtres.value.periode, today), filtres.value.typeRecherche, SearchTerm(filtres.value)))
    ensures filtres.Some? && filtres.value.periode != ThisWeek ==>
      multiset(shown) == multiset(Where(s.factures.rows,
        Keep(PeriodBounds(filtres.value.periode, today), filtres.value.typeRecherche, SearchTerm(filtres.value))))
  {
    var factures := Invoices.GetAllFactures(s);
    assert forall f :: f in factures <==> f in s.factures.rows by {
      assert forall f :: f in factures <==> f in multiset(factures);
    }
    if filtres.Some? {
      var filtered := AppliquerFiltres(factures, filtres.value, today);
      if filtered.None? {
        return [];
      }
      WhereSameMultiset(factures, s.factures.rows,
        Keep(PeriodBounds(filtres.value.periode, today), filtres.value.typeRecherche, SearchTerm(filtres.value)));
      factures := filtered.value;
    }
    shown := SortBy(factures, Invoices.InvoiceDate, true);
    assert forall f :: f in shown <==> f in multiset(shown);
    assert forall f :: f in factures <==> f in multiset(factures);
  }
}

=== FILE: schema.dfy ===
/** `init_database`: the tables are created only when missing, and the seed
    rows go in with INSERT OR IGNORE, so a seed row that would break a UNIQUE
    or PRIMARY KEY constraint is skipped. A skipped seed with an implicit
    rowid still raises its table's AUTOINCREMENT counter, because SQLite draws
    the rowid before the UNIQUE check. */
module Schema {

  import opened Wrappers
  import opened Tables
  import opened Store
  import Units
  import Articles
  import Prices

  const WarehouseSeed := Warehouse("Entrep\U{F4}t Principal", Some("Antananarivo"))

  /** `INSERT OR IGNORE INTO entrepot (id, ...) VALUES (1, ...)`: skipped when
      row 1 exists; otherwise row 1 goes first in rowid order, and the
      AUTOINCREMENT counter is raised to 1 if it was below. */
  function InsertOrIgnoreFirstRow<R>(t: Table<R>, data: R): (r: Table<R>)
    ensures 1 in Ids(t.rows) ==> r == t
    ensures 1 !in Ids(t.rows) ==> r.rows == [Row(1, data)] + t.rows && r.last == if t.last < 1 then 1 else t.last
    ensures 1 in Ids(r.rows)
    ensures WellFormed(t) ==> WellFormed(r)
  {
    if 1 in Ids(t.rows) then t
    else
      var r := Table([Row(1, data)] + t.rows, if t.last < 1 then 1 else t.last);
      assert r.rows[0].id == 1;
      assert WellFormed(t) ==> forall k :: 0 <= k < |t.rows| ==> t.rows[k].id >= 2 by {
        if WellFormed(t) {
          forall k | 0 <= k < |t.rows| ensures t.rows[k].id >= 2 {
            assert t.rows[k].id in Ids(t.rows);
          }
        }
      }
      r
  }
  /** `t` is `s` with rows appended to units, articles and prices, and the
      warehouses untouched. */
  predicate Extends(s: Store, t: Store) {
    && s.unites.rows <= t.unites.rows
    && s.articles.rows <= t.articles.rows
    && s.prix.rows <= t.prix.rows
    && t.entrepots == s.entrepots
  }

  /** Appending rows keeps every key that was already taken. */
  lemma CodeSurvives(a: seq<Row<Unit>>, b: seq<Row<Unit>>, code: string)
    requires a <= b && CodeHeldByOther(a, code, None)
    ensures CodeHeldByOther(b, code, None)
  {
    var i :| 0 <= i < |a| && a[i].data.code == code;
    assert b[i] == a[i];
  }

  lemma ReferenceSurvives(a: seq<Row<Article>>, b: seq<Row<Article>>, reference: string)
    requires a <= b && ReferenceHeldByOther(a, reference, None)
    ensures ReferenceHeldByOther(b, reference, None)
  {
    var i :| 0 <= i < |a| && a[i].data.reference == reference;
    assert b[i] == a[i];
  }

  lemma PairSurvives(a: seq<Row<Price>>, b: seq<Row<Price>>, articleId: int, uniteId: int)
    requires a <= b && PairPriced(a, articleId, uniteId)
    ensures PairPriced(b, articleId, uniteId)
  {
    var i :| 0 <= i < |a| && a[i].data.articleId == articleId && a[i].data.uniteId == uniteId;
    assert b[i] == a[i];
  }

  lemma SeedsSurvive(s: Store, t: Store)
    requires Extends(s, t)
    ensures UnitSeedsHeld(s) ==> UnitSeedsHeld(t)
    ensures ArticleSeedsHeld(s) ==> ArticleSeedsHeld(t)
    ensures PriceSeedsHeld(s) ==> PriceSeedsHeld(t)
  {
    if UnitSeedsHeld(s) {
      CodeSurvives(s.unites.rows, t.unites.rows, "KG");
      CodeSurvives(s.unites.rows, t.unites.rows, "SAC");
      CodeSurvives(s.unites.rows, t.unites.rows, "PCS");
      CodeSurvives(s.unites.rows, t.unites.rows, "L");
    }
    if ArticleSeedsHeld(s) {
      ReferenceSurvives(s.articles.rows, t.articles.rows, "RIZ001");
      ReferenceSurvives(s.articles.rows, t.articles.rows, "SUC001");
    }
    if PriceSeedsHeld(s) {
      PairSurvives(s.prix.rows, t.prix.rows, 1, 1);
      PairSurvives(s.prix.rows, t.prix.rows, 1, 2);
      PairSurvives(s.prix.rows, t.prix.rows, 2, 1);
    }
  }

  /** A skipped `INSERT OR IGNORE` with an implicit rowid. SQLite draws the
      new rowid from the AUTOINCREMENT counter, and records it, before the
      UNIQUE check fails; so the rows stay as they were and the counter still
      goes up by one. */
  function SkippedInsert<R>(t: Table<R>): (r: Table<R>)
    ensures r.rows == t.rows && r.last == t.last + 1
    ensures WellFormed(t) ==> WellFormed(r)
  {
    t.(last := t.last + 1)
  }

  /** One unit seed: inserted as `create_unite` inserts it, or skipped when
      the code is taken. Either way the code is held afterwards and the
      counter has gone up by one. */
  function SeedUnite(s: Store, code: string, libelle: string): (r: Store)
    ensures CodeHeldByOther(r.unites.rows, code, None)
    ensures Extends(s, r) && r == s.(unites := r.unites)
    ensures r.unites.last == s.unites.last + 1
    ensures CodeHeldByOther(s.unites.rows, code, None) <==> r.unites.rows == s.unites.rows
    ensures !CodeHeldByOther(s.unites.rows, code, None) ==> r.unites.rows == s.unites.rows + [Row(s.unites.last + 1, Unit(code, libelle))]
    ensures Valid(s) ==> Valid(r)
  {
    if CodeHeldByOther(s.unites.rows, code, None) then s.(unites := SkippedInsert(s.unites))
    else
      var r := Units.CreateUnite(s, code, libelle).store;
      assert r.unites.rows[|s.unites.rows|].data.code == code;
      r
  }

  /** One article seed, in the same way. */
  function SeedArticle(s: Store, nom: string, reference: string, entrepotId: Option<int>): (r: Store)
    ensures ReferenceHeldByOther(r.articles.rows, reference, None)
    ensures Extends(s, r) && r == s.(articles := r.articles)
    ensures r.articles.last == s.articles.last + 1
    ensures ReferenceHeldByOther(s.articles.rows, reference, None) <==> r.articles.rows == s.articles.rows
    ensures !ReferenceHeldByOther(s.articles.rows, reference, None) ==>
      r.articles.rows == s.articles.rows + [Row(s.articles.last + 1, Article(nom, reference, None, 1, entrepotId))]
    ensures Valid(s) ==> Valid(r)
  {
    if ReferenceHeldByOther(s.articles.rows, reference, None) then s.(articles := SkippedInsert(s.articles))
    else
      var r := Articles.CreateArticle(s, nom, reference, entrepotId).store;
      assert r.articles.rows[|s.articles.rows|].data.reference == reference;
      r
  }

  /** One price seed, in the same way. */
  function SeedPrice(s: Store, a: int, u: int, prix: real): (r: Store)
    ensures PairPriced(r.prix.rows, a, u)
    ensures Extends(s, r) && r == s.(prix := r.prix)
    ensures r.prix.last == s.prix.last + 1
    ensures PairPriced(s.prix.rows, a, u) <==> r.prix.rows == s.prix.rows
    ensures !PairPriced(s.prix.rows, a, u) ==> r.prix.rows == s.prix.rows + [Row(s.prix.last + 1, Price(a, u, prix))]
    ensures Valid(s) ==> Valid(r)
  {
    if PairPriced(s.prix.rows, a, u) then s.(prix := SkippedInsert(s.prix))
    else
      var r := Prices.CreatePrix(s, a, u, prix).store;
      assert r.prix.rows[|s.prix.rows|].data.articleId == a;
      r
  }

  predicate UnitSeedsHeld(s: Store) {
    && CodeHeldByOther(s.unites.rows, "KG", None)
    && CodeHeldByOther(s.unites.rows, "SAC", None)
    && CodeHeldByOther(s.unites.rows, "PCS", None)
    && CodeHeldByOther(s.unites.rows, "L", None)
  }

  predicate ArticleSeedsHeld(s: Store) {
    && ReferenceHeldByOther(s.articles.rows, "RIZ001", None)
    && ReferenceHeldByOther(s.articles.rows, "SUC001", None)
  }

  predicate PriceSeedsHeld(s: Store) {
    && PairPriced(s.prix.rows, 1, 1)
    && PairPriced(s.prix.rows, 1, 2)
    && PairPriced(s.prix.rows, 2, 1)
  }

  /** Every seed row is present or was skipped because its key is taken. */
  predicate Seeded(s: Store) {
    UnitSeedsHeld(s) && 1 in Ids(s.entrepots.rows) && ArticleSeedsHeld(s) && PriceSeedsHeld(s)
  }

  /** The four unit seeds, in script order. */
  function SeedUnites(s: Store): Store {
    var u1 := SeedUnite(s, "KG", "Kilogramme");
    var u2 := SeedUnite(u1, "SAC", "Sac");
    var u3 := SeedUnite(u2, "PCS", "Pi\U{E8}ce");
    SeedUnite(u3, "L", "Litre")
  }

  /** The two article seeds, both stored in warehouse 1. */
  function SeedArticles(s: Store): Store {
    var a1 := SeedArticle(s, "Riz", "RIZ001", Some(1));
    SeedArticle(a1, "Sucre", "SUC001", Some(1))
  }

  /** The three price seeds, by literal article and unit ids. */
  function SeedPrices(s: Store): Store {
    var p1 := SeedPrice(s, 1, 1, 4000.0);
    var p2 := SeedPrice(p1, 1, 2, 150000.0);
    SeedPrice(p2, 2, 1, 3500.0)
  }

  /** `init_database` run on a database file in state `s`: the seeds of each
      table in the order the script issues them. */
  function InitDatabase(s: Store): Store {
    var s1 := SeedUnites(s);
    SeedPrices(SeedArticles(s1.(entrepots := InsertOrIgnoreFirstRow(s1.entrepots, WarehouseSeed))))
  }

  /** `s` as a run of `init_database` leaves it when every seed is skipped:
      the same rows in every table, and the unit, article and price counters
      raised by 4, 2 and 3. */
  function Restarted(s: Store): Store {
    s.(unites := s.unites.(last := s.unites.last + 4),
       articles := s.articles.(last := s.articles.last + 2),
       prix := s.prix.(last := s.prix.last + 3))
  }

  /** The unit seeds leave each seed code taken and raise the counter by
      four; when all the codes were taken already, the rows are unchanged. */
  lemma SeedUnitesFacts(s: Store)
    ensures var r := SeedUnites(s);
      Extends(s, r) && r == s.(unites := r.unites) && UnitSeedsHeld(r)
      && r.unites.last == s.unites.last + 4
      && (UnitSeedsHeld(s) ==> r.unites.rows == s.unites.rows) && (Valid(s) ==> Valid(r))
  {
    var u1 := SeedUnite(s, "KG", "Kilogramme");
    var u2 := SeedUnite(u1, "SAC", "Sac");
    var u3 := SeedUnite(u2, "PCS", "Pi\U{E8}ce");
    var u4 := SeedUnite(u3, "L", "Litre");
    CodeSurvives(u1.unites.rows, u4.unites.rows, "KG");
    CodeSurvives(u2.unites.rows, u4.unites.rows, "SAC");
    CodeSurvives(u3.unites.rows, u4.unites.rows, "PCS");
    if UnitSeedsHeld(s) {
      CodeSurvives(s.unites.rows, u1.unites.rows, "SAC");
      CodeSurvives(s.unites.rows, u2.unites.rows, "PCS");
      CodeSurvives(s.unites.rows, u3.unites.rows, "L");
    }
  }

  lemma SeedArticlesFacts(s: Store)
    ensures var r := SeedArticles(s);
      Extends(s, r) && r == s.(articles := r.articles) && ArticleSeedsHeld(r)
      && r.articles.last == s.articles.last + 2
      && (ArticleSeedsHeld(s) ==> r.articles.rows == s.articles.rows) && (Valid(s) ==> Valid(r))
  {
    var a1 := SeedArticle(s, "Riz", "RIZ001", Some(1));
    var a2 := SeedArticle(a1, "Sucre", "SUC001", Some(1));
    ReferenceSurvives(a1.articles.rows, a2.articles.rows, "RIZ001");
    if ArticleSeedsHeld(s) {
      ReferenceSurvives(s.articles.rows, a1.articles.rows, "SUC001");
    }
  }

  lemma SeedPricesFacts(s: Store)
    ensures var r := SeedPrices(s);
      Extends(s, r) && r == s.(prix := r.prix) && PriceSeedsHeld(r)
      && r.prix.last == s.prix.last + 3
      && (PriceSeedsHeld(s) ==> r.prix.rows == s.prix.rows) && (Valid(s) ==> Valid(r))
  {
    var p1 := SeedPrice(s, 1, 1, 4000.0);
    var p2 := SeedPrice(p1, 1, 2, 150000.0);
    var p3 := SeedPrice(p2, 2, 1, 3500.0);
    PairSurvives(p1.prix.rows, p3.prix.rows, 1, 1);
    PairSurvives(p2.prix.rows, p3.prix.rows, 1, 2);
    if PriceSeedsHeld(s) {
      PairSurvives(s.prix.rows, p1.prix.rows, 1, 2);
      PairSurvives(s.prix.rows, p2.prix.rows, 2, 1);
    }
  }

  /** After `init_database` every seed key is taken, the schema constraints
      still hold, and the unit, article and price counters have gone up by 4,
      2 and 3 whatever was skipped; on a database already seeded the rows of
      every table are left as they were. */
  lemma InitDatabaseFacts(s: Store)
    ensures Seeded(InitDatabase(s))
    ensures Valid(s) ==> Valid(InitDatabase(s))
    ensures InitDatabase(s).unites.last == s.unites.last + 4
    ensures InitDatabase(s).articles.last == s.articles.last + 2
    ensures InitDatabase(s).prix.last == s.prix.last + 3
    ensures InitDatabase(s).factures == s.factures && InitDatabase(s).details == s.details
    ensures Seeded(s) ==> InitDatabase(s) == Restarted(s)
  {
    var s1 := SeedUnites(s);
    var s2 := s1.(entrepots := InsertOrIgnoreFirstRow(s1.entrepots, WarehouseSeed));
    var s3 := SeedArticles(s2);
    var s4 := SeedPrices(s3);
    SeedUnitesFacts(s);
    SeedArticlesFacts(s2);
    SeedPricesFacts(s3);
    SeedsSurvive(s2, s3);
    SeedsSurvive(s3, s4);
  }

  /** Running `init_database` a second time, as every start of the program
      does, keeps the rows of every table of the first run; only the unit,
      article and price counters move, by 4, 2 and 3. */
  lemma InitIdempotent(s: Store)
    ensures var once := InitDatabase(s); var twice := InitDatabase(once);
      && twice.unites.rows == once.unites.rows
      && twice.articles.rows == once.articles.rows
      && twice.prix.rows == once.prix.rows
      && twice.entrepots == once.entrepots
      && twice.factures == once.factures && twice.details == once.details
      && twice.unites.last == once.unites.last + 4
      && twice.articles.last == once.articles.last + 2
      && twice.prix.last == once.prix.last + 3
  {
    InitDatabaseFacts(s);
    InitDatabaseFacts(InitDatabase(s));
  }

  /** The state `init_database` creates from a new, empty file. */
  const SeededStore := Store(
    Table([Row(1, Unit("KG", "Kilogramme")), Row(2, Unit("SAC", "Sac")), Row(3, Unit("PCS", "Pi\U{E8}ce")), Row(4, Unit("L", "Litre"))], 4),
    Table([Row(1, WarehouseSeed)], 1),
    Table([Row(1, Article("Riz", "RIZ001", None, 1, Some(1))), Row(2, Article("Sucre", "SUC001", None, 1, Some(1)))], 2),
    Table([Row(1, Price(1, 1, 4000.0)), Row(2, Price(1, 2, 150000.0)), Row(3, Price(2, 1, 3500.0))], 3),
    Table([], 0),
    Table([], 0))

  /** The first `n` seed units, as rows 1 to `n`. */
  function UnitRows(n: nat): seq<Row<Unit>>
    requires n <= 4
  {
    var kg := Row(1, Unit("KG", "Kilogramme"));
    var sac := Row(2, Unit("SAC", "Sac"));
    var pcs := Row(3, Unit("PCS", "Pi\U{E8}ce"));
    var l := Row(4, Unit("L", "Litre"));
    if n == 0 then [] else if n == 1 then [kg] else if n == 2 then [kg, sac] else if n == 3 then [kg, sac, pcs] else [kg, sac, pcs, l]
  }

  function AfterUnits(n: nat): Store
    requires n <= 4
  {
    EmptyStore.(unites := Table(UnitRows(n), n))
  }

  lemma FirstUnitSeed()
    ensures SeedUnite(AfterUnits(0), "KG", "Kilogramme") == AfterUnits(1)
  {
    assert AfterUnits(0).unites.rows == [];
  }

  lemma SecondUnitSeed()
    ensures SeedUnite(AfterUnits(1), "SAC", "Sac") == AfterUnits(2)
  {
    assert !CodeHeldByOther(AfterUnits(1).unites.rows, "SAC", None);
  }

  lemma ThirdUnitSeed()
    ensures SeedUnite(AfterUnits(2), "PCS", "Pi\U{E8}ce") == AfterUnits(3)
  {
    assert !CodeHeldByOther(AfterUnits(2).unites.rows, "PCS", None);
  }

  lemma FourthUnitSeed()
    ensures SeedUnite(AfterUnits(3), "L", "Litre") == AfterUnits(4)
  {
    assert !CodeHeldByOther(AfterUnits(3).unites.rows, "L", None);
  }

  lemma UnitsFromEmpty()
    ensures SeedUnites(EmptyStore) == AfterUnits(4)
  {
    assert AfterUnits(0) == EmptyStore;
    FirstUnitSeed();
    SecondUnitSeed();
    ThirdUnitSeed();
    FourthUnitSeed();
  }

  const AfterWarehouse := AfterUnits(4).(entrepots := Table([Row(1, WarehouseSeed)], 1))

  function AfterArticles(n: nat): Store
    requires n <= 2
  {
    var riz := Row(1, Article("Riz", "RIZ001", None, 1, Some(1)));
    var sucre := Row(2, Article("Sucre", "SUC001", None, 1, Some(1)));
    AfterWarehouse.(articles := Table(if n == 0 then [] else if n == 1 then [riz] else [riz, sucre], n))
  }

  lemma FirstArticleSeed()
    ensures SeedArticle(AfterArticles(0), "Riz", "RIZ001", Some(1)) == AfterArticles(1)
  {
    var s0 := AfterArticles(0);
    assert s0.articles == Table([], 0);
    assert !ReferenceHeldByOther(s0.articles.rows, "RIZ001", None);
    assert SeedArticle(s0, "Riz", "RIZ001", Some(1)).articles
      == Table([Row(1, Article("Riz", "RIZ001", None, 1, Some(1)))], 1);
  }

  lemma SecondArticleSeed()
    ensures SeedArticle(AfterArticles(1), "Sucre", "SUC001", Some(1)) == AfterArticles(2)
  {
    assert "RIZ001" != "SUC001";
    assert !ReferenceHeldByOther(AfterArticles(1).articles.rows, "SUC001", None);
  }

  lemma ArticlesFromWarehouse()
    ensures SeedArticles(AfterWarehouse) == AfterArticles(2)
  {
    assert AfterArticles(0) == AfterWarehouse;
    FirstArticleSeed();
    SecondArticleSeed();
  }

  function AfterPrices(n: nat): Store
    requires n <= 3
  {
    var p1 := Row(1, Price(1, 1, 4000.0));
    var p2 := Row(2, Price(1, 2, 150000.0));
    var p3 := Row(3, Price(2, 1, 3500.0));
    AfterArticles(2).(prix := Table(if n == 0 then [] else if n == 1 then [p1] else if n == 2 then [p1, p2] else [p1, p2, p3], n))
  }

  lemma FirstPriceSeed()
    ensures SeedPrice(AfterPrices(0), 1, 1, 4000.0) == AfterPrices(1)
  {
    var s0 := AfterPrices(0);
    assert s0.prix == Table([], 0);
    SeedPriceFresh(s0, 1, 1, 4000.0);
    assert Insert(s0.prix, Price(1, 1, 4000.0)) == Table([Row(1, Price(1, 1, 4000.0))], 1);
  }

  /** A price seed whose pair is free is a plain insert. */
  lemma SeedPriceFresh(s: Store, a: int, u: int, prix: real)
    requires !PairPriced(s.prix.rows, a, u)
    ensures SeedPrice(s, a, u, prix) == s.(prix := Insert(s.prix, Price(a, u, prix)))
  {
  }

  lemma SecondPriceSeed()
    ensures SeedPrice(AfterPrices(1), 1, 2, 150000.0) == AfterPrices(2)
  {
    assert !PairPriced(AfterPrices(1).prix.rows, 1, 2);
  }

  lemma ThirdPriceSeed()
    ensures SeedPrice(AfterPrices(2), 2, 1, 3500.0) == AfterPrices(3)
  {
    assert !PairPriced(AfterPrices(2).prix.rows, 2, 1);
  }

  lemma PricesFromArticles()
    ensures SeedPrices(AfterArticles(2)) == AfterPrices(3)
  {
    assert AfterPrices(0) == AfterArticles(2);
    FirstPriceSeed();
    SecondPriceSeed();
    ThirdPriceSeed();
  }

  /** From an empty file, seeding gives four units, warehouse 1, Riz and Sucre
      stored there and active, and the three prices. */
  lemma InitFromEmpty()
    ensures InitDatabase(EmptyStore) == SeededStore
  {
    var s1 := SeedUnites(EmptyStore);
    var s2 := s1.(entrepots := InsertOrIgnoreFirstRow(s1.entrepots, WarehouseSeed));
    UnitsFromEmpty();
    assert s2 == AfterWarehouse by {
      assert s1.entrepots == Table([], 0);
    }
    ArticlesFromWarehouse();
    PricesFromArticles();
    SeededStoreIsLastStage();
  }

  lemma SeededStoreIsLastStage()
    ensures AfterPrices(3) == SeededStore
  {
  }

  /** The seeded state meets every schema constraint. */
  lemma SeededStoreValid()
    ensures Valid(SeededStore) && Seeded(SeededStore)
  {
    assert Valid(EmptyStore);
    InitDatabaseFacts(EmptyStore);
    var r := InitDatabase(EmptyStore);
    assert Valid(r) && Seeded(r);
    InitFromEmpty();
  }
  /** Starting the program again on a freshly seeded file keeps every row but
      raises the unit counter from 4 to 8, so the next unit `create_unite`
      adds gets id 9. */
  lemma RestartAfterSeeding()
    ensures InitDatabase(SeededStore) == Restarted(SeededStore)
    ensures InitDatabase(SeededStore).unites.last == 8
    ensures Units.CreateUnite(InitDatabase(SeededStore), "CRT", "Carton").store.unites.rows
      == SeededStore.unites.rows + [Row(9, Unit("CRT", "Carton"))]
  {
    SeededStoreValid();
    InitDatabaseFacts(SeededStore);
    var t := InitDatabase(SeededStore);
    assert t.unites == Table(SeededStore.unites.rows, 8);
    CartonAfterRestart(t);
  }

  lemma CartonAfterRestart(t: Store)
    requires t.unites == Table(SeededStore.unites.rows, 8)
    ensures Units.CreateUnite(t, "CRT", "Carton").store.unites.rows == SeededStore.unites.rows + [Row(9, Unit("CRT", "Carton"))]
  {
    assert !CodeHeldByOther(SeededStore.unites.rows, "CRT", None);
  }

  /** With SAC deleted from the seeded units, a restart skips KG, puts SAC
      back with id 6 (neither its old id 2 nor 5), and skips PCS and L. */
  lemma SacReseededAfterDeletion()
    ensures var kept := [Row(1, Unit("KG", "Kilogramme")), Row(3, Unit("PCS", "Pi\U{E8}ce")), Row(4, Unit("L", "Litre"))];
      InitDatabase(SeededStore.(unites := Table(kept, 4))).unites == Table(kept + [Row(6, Unit("SAC", "Sac"))], 8)
  {
    var kept := [Row(1, Unit("KG", "Kilogramme")), Row(3, Unit("PCS", "Pi\U{E8}ce")), Row(4, Unit("L", "Litre"))];
    var s := SeededStore.(unites := Table(kept, 4));
    var u1 := SeedUnite(s, "KG", "Kilogramme");
    assert kept[0].data.code == "KG";
    assert u1.unites == Table(kept, 5);
    var u2 := SeedUnite(u1, "SAC", "Sac");
    assert !CodeHeldByOther(kept, "SAC", None);
    var withSac := kept + [Row(6, Unit("SAC", "Sac"))];
    assert u2.unites == Table(withSac, 6);
    var u3 := SeedUnite(u2, "PCS", "Pi\U{E8}ce");
    assert withSac[1].data.code == "PCS";
    assert u3.unites == Table(withSac, 7);
    var u4 := SeedUnite(u3, "L", "Litre");
    assert withSac[2].data.code == "L";
    assert u4.unites == Table(withSac, 8);
    var s2 := u4.(entrepots := InsertOrIgnoreFirstRow(u4.entrepots, WarehouseSeed));
    SeedArticlesFacts(s2);
    SeedPricesFacts(SeedArticles(s2));
  }
}

=== FILE: sorting.dfy ===
/** Ordering result lists by a text column, as `ORDER BY col [DESC]` and
    Python's `sorted(..., key=..., reverse=...)` do. */
module Sorting {

  import opened Text

  predicate InOrder(a: string, b: string, descending: bool) {
    if descending then LexLe(b, a) else LexLe(a, b)
  }

  predicate SortedBy<T>(xs: seq<T>, key: T -> string, descending: bool) {
    forall i, j :: 0 <= i < j < |xs| ==> InOrder(key(xs[i]), key(xs[j]), descending)
  }

  lemma InOrderTotal(a: string, b: string, descending: bool)
    ensures InOrder(a, b, descending) || InOrder(b, a, descending)
  {
    LexLeTotal(a, b);
  }

  lemma InOrderTransitive(a: string, b: string, c: string, descending: bool)
    requires InOrder(a, b, descending) && InOrder(b, c, descending)
    ensures InOrder(a, c, descending)
  {
    if descending { LexLeTransitive(c, b, a); } else { LexLeTransitive(a, b, c); }
  }

  /** Puts `x` into a list before the first element it may precede. */
  function InsertSorted<T>(x: T, ys: seq<T>, key: T -> string, descending: bool): (r: seq<T>)
    ensures multiset(r) == multiset(ys) + multiset{x}
  {
    if |ys| == 0 then [x]
    else if InOrder(key(x), key(ys[0]), descending) then
      assert ys == [ys[0]] + ys[1..];
      [x] + ys
    else
      assert ys == [ys[0]] + ys[1..];
      [ys[0]] + InsertSorted(x, ys[1..], key, descending)
  }

  /** Inserting into a sorted list keeps it sorted. */
  lemma {:induction false} InsertSortedSorted<T>(x: T, ys: seq<T>, key: T -> string, descending: bool)
    requires SortedBy(ys, key, descending)
    ensures SortedBy(InsertSorted(x, ys, key, descending), key, descending)
  {
    if |ys| == 0 {
    } else if InOrder(key(x), key(ys[0]), descending) {
      forall j | 0 <= j < |ys| ensures InOrder(key(x), key(ys[j]), descending) {
        if j > 0 { InOrderTransitive(key(x), key(ys[0]), key(ys[j]), descending); }
      }
    } else {
      InOrderTotal(key(x), key(ys[0]), descending);
      var rest := InsertSorted(x, ys[1..], key, descending);
      InsertSortedSorted(x, ys[1..], key, descending);
      forall k | 0 <= k < |rest| ensures InOrder(key(ys[0]), key(rest[k]), descending) {
        assert rest[k] in multiset(rest);
        if rest[k] != x {
          assert rest[k] in ys[1..];
        }
      }
    }
  }

  /** Two sequences with the same multiset hold the same elements. */
  lemma SameMembers<T>(a: seq<T>, b: seq<T>)
    requires multiset(a) == multiset(b)
    ensures forall x :: x in a <==> x in b
  {
    forall x ensures x in a <==> x in b {
      assert x in a <==> x in multiset(a);
      assert x in b <==> x in multiset(b);
    }
  }

  /** A sorted permutation of `xs`. */
  function SortBy<T>(xs: seq<T>, key: T -> string, descending: bool): (r: seq<T>)
    ensures SortedBy(r, key, descending)
    ensures multiset(r) == multiset(xs)
    ensures |r| == |xs|
  {
    if |xs| == 0 then []
    else
      assert xs == [xs[0]] + xs[1..];
      var sortedTail := SortBy(xs[1..], key, descending);
      InsertSortedSorted(xs[0], sortedTail, key, descending);
      var r := InsertSorted(xs[0], sortedTail, key, descending);
      assert |r| == |multiset(r)|;
      r
  }
  /** No two positions of `xs` carry the same key. */
  predicate KeysDistinct<T, K(==)>(xs: seq<T>, key: T -> K) {
    forall i, j :: 0 <= i < j < |xs| ==> key(xs[i]) != key(xs[j])
  }

  /** With distinct keys, no element occurs twice. */
  lemma {:induction false} DistinctKeysCountOne<T, K>(xs: seq<T>, key: T -> K, x: T)
    requires KeysDistinct(xs, key)
    ensures multiset(xs)[x] <= 1
  {
    if |xs| > 0 {
      assert xs == [xs[0]] + xs[1..];
      assert KeysDistinct(xs[1..], key) by {
        forall i, j | 0 <= i < j < |xs[1..]| ensures key(xs[1..][i]) != key(xs[1..][j]) {
          assert xs[1..][i] == xs[i + 1] && xs[1..][j] == xs[j + 1];
        }
      }
      DistinctKeysCountOne(xs[1..], key, x);
      forall k | 0 <= k < |xs[1..]| ensures xs[1..][k] != xs[0] {
        assert key(xs[0]) != key(xs[k + 1]);
      }
      assert xs[0] !in xs[1..];
    }
  }

  /** An element at two positions occurs at least twice. */
  lemma TwiceCountsTwo<T>(xs: seq<T>, i: int, j: int)
    requires 0 <= i < j < |xs| && xs[i] == xs[j]
    ensures multiset(xs)[xs[i]] >= 2
  {
    assert xs == xs[..j] + [xs[j]] + xs[j + 1..];
    assert xs[..j][i] == xs[i];
    assert xs[i] in multiset(xs[..j]);
  }

  /** Reordering keeps keys distinct: a sorted listing of rows with distinct
      keys shows each key once. */
  lemma KeysDistinctPermutation<T, K>(a: seq<T>, b: seq<T>, key: T -> K)
    requires multiset(a) == multiset(b) && KeysDistinct(a, key)
    ensures KeysDistinct(b, key)
  {
    forall i, j | 0 <= i < j < |b| ensures key(b[i]) != key(b[j]) {
      assert b[i] != b[j] by {
        DistinctKeysCountOne(a, key, b[i]);
        if b[i] == b[j] {
          TwiceCountsTwo(b, i, j);
        }
      }
      assert b[i] in multiset(a) && b[j] in multiset(a);
      var p :| 0 <= p < |a| && a[p] == b[i];
      var q :| 0 <= q < |a| && a[q] == b[j];
      if p < q {
        assert key(a[p]) != key(a[q]);
      } else {
        assert key(a[q]) != key(a[p]);
      }
    }
  }
}

=== FILE: store.dfy ===
/** The sales database (`database/vente.db`): six tables and the constraints
    the schema declares on them. Money and quantities, SQLite REAL / Python
    float in the application, are exact `real`s here. */
module Store {

  import opened Wrappers
  import opened Tables
  import opened Decimal

  /** `unite`: a unit of measure. */
  datatype Unit = Unit(code: string, libelle: string)

  /** `entrepot`: a warehouse; `localisation` may be NULL. */
  datatype Warehouse = Warehouse(nom: string, localisation: Option<string>)

  /** `article`: `actif` is 1 for a listed article and 0 for one in the trash;
      `uniteId` is never written by the application and stays NULL. */
  datatype Article = Article(nom: string, reference: string, uniteId: Option<int>, actif: int, entrepotId: Option<int>)

  /** `prix_article`: the price of one article sold in one unit. */
  datatype Price = Price(articleId: int, uniteId: int, prixUnitaire: real)

  /** `facture`: a recorded sale; `montantTotal` is written once, by the caller. */
  datatype Invoice = Invoice(nomClient: string, dateFacture: string, montantTotal: real)

  /** `facture_detail`: one line of a sale, with the price snapshot of the
      moment. The article and unit columns hold whatever the sale screen
      passed, after SQLite's INTEGER affinity. */
  datatype InvoiceLine = InvoiceLine(factureId: int, articleId: Key, uniteId: Key, quantite: real, prixUnitaire: real, prixTotal: real)

  datatype Store = Store(
    unites: Table<Unit>,
    entrepots: Table<Warehouse>,
    articles: Table<Article>,
    prix: Table<Price>,
    factures: Table<Invoice>,
    details: Table<InvoiceLine>)

  /** What a `DatabaseManager` method returns, and the database after it. */
  datatype Outcome<T> = Outcome(result: T, store: Store)

  /** An exception escaping a `DatabaseManager` method that has no try block:
      a UNIQUE constraint, or NULL bound to a NOT NULL column. */
  datatype DbError = IntegrityError | NotNullViolation

  /** A database file with the six tables created and no row yet. */
  const EmptyStore := Store(Table([], 0), Table([], 0), Table([], 0), Table([], 0), Table([], 0), Table([], 0))

  /** `code TEXT NOT NULL UNIQUE` on `unite`. */
  predicate UnitCodesUnique(rows: seq<Row<Unit>>) {
    forall i, j :: 0 <= i < j < |rows| ==> rows[i].data.code != rows[j].data.code
  }

  /** `reference TEXT NOT NULL UNIQUE` on `article`. */
  predicate ReferencesUnique(rows: seq<Row<Article>>) {
    forall i, j :: 0 <= i < j < |rows| ==> rows[i].data.reference != rows[j].data.reference
  }

  /** `UNIQUE(article_id, unite_id)` on `prix_article`. */
  predicate PricePairsUnique(rows: seq<Row<Price>>) {
    forall i, j :: 0 <= i < j < |rows| ==>
      rows[i].data.articleId != rows[j].data.articleId || rows[i].data.uniteId != rows[j].data.uniteId
  }

  /** Every write path stores `actif` as 0 or 1 (the column default is 1). */
  predicate ActiveFlagsBinary(rows: seq<Row<Article>>) {
    forall i :: 0 <= i < |rows| ==> rows[i].data.actif == 0 || rows[i].data.actif == 1
  }

  /** The state every operation starts from and leaves behind. */
  predicate Valid(s: Store) {
    && WellFormed(s.unites) && WellFormed(s.entrepots) && WellFormed(s.articles)
    && WellFormed(s.prix) && WellFormed(s.factures) && WellFormed(s.details)
    && UnitCodesUnique(s.unites.rows)
    && ReferencesUnique(s.articles.rows)
    && PricePairsUnique(s.prix.rows)
    && ActiveFlagsBinary(s.articles.rows)
  }

  /** Some unit other than `except` already holds `code`. */
  predicate CodeHeldByOther(rows: seq<Row<Unit>>, code: string, except: Option<int>) {
    exists i :: 0 <= i < |rows| && rows[i].data.code == code && Some(rows[i].id) != except
  }

  /** Some article other than `except` already holds `reference`. */
  predicate ReferenceHeldByOther(rows: seq<Row<Article>>, reference: string, except: Option<int>) {
    exists i :: 0 <= i < |rows| && rows[i].data.reference == reference && Some(rows[i].id) != except
  }

  /** A price row for the pair (article, unit) exists. */
  predicate PairPriced(rows: seq<Row<Price>>, articleId: int, uniteId: int) {
    exists i :: 0 <= i < |rows| && rows[i].data.articleId == articleId && rows[i].data.uniteId == uniteId
  }
}

=== FILE: tables.dfy ===
/** One SQLite table declared `id INTEGER PRIMARY KEY AUTOINCREMENT`: its rows
    in rowid order (the order a scan without ORDER BY returns them in) and the
    AUTOINCREMENT counter, the largest id ever handed out, which deletes never
    lower. */
module Tables {

  import opened Wrappers

  datatype Row<R> = Row(id: int, data: R)

  datatype Table<R> = Table(rows: seq<Row<R>>, last: int)

  predicate IdsIncreasing<R>(rows: seq<Row<R>>) {
    forall i, j :: 0 <= i < j < |rows| ==> rows[i].id < rows[j].id
  }

  /** Ids are positive, distinct, in rowid order, and never above the counter. */
  predicate WellFormed<R>(t: Table<R>) {
    && 0 <= t.last
    && IdsIncreasing(t.rows)
    && forall i :: 0 <= i < |t.rows| ==> 1 <= t.rows[i].id <= t.last
  }

  function Ids<R>(rows: seq<Row<R>>): set<int> {
    set i | 0 <= i < |rows| :: rows[i].id
  }

  /** `SELECT ... WHERE id = ?` followed by `fetchone()`. */
  function Find<R>(rows: seq<Row<R>>, id: int): (r: Option<R>)
    ensures r.Some? <==> id in Ids(rows)
    ensures r.Some? ==> Row(id, r.value) in rows
    ensures IdsIncreasing(rows) ==> forall k :: 0 <= k < |rows| && rows[k].id == id ==> r == Some(rows[k].data)
  {
    if |rows| == 0 then None
    else if rows[0].id == id then Some(rows[0].data)
    else
      var r := Find(rows[1..], id);
      assert Ids(rows) == {rows[0].id} + Ids(rows[1..]) by {
        forall x ensures x in Ids(rows) <==> x == rows[0].id || x in Ids(rows[1..]) {
          if x in Ids(rows) && x != rows[0].id {
            var i :| 0 <= i < |rows| && rows[i].id == x;
            assert rows[1..][i - 1].id == x;
          }
        }
      }
      r
  }

  /** An AUTOINCREMENT insert: the new row gets the id after the counter and
      goes last in rowid order. */
  function Insert<R>(t: Table<R>, data: R): (r: Table<R>)
    ensures r.rows == t.rows + [Row(t.last + 1, data)] && r.last == t.last + 1
    ensures WellFormed(t) ==> WellFormed(r) && t.last + 1 !in Ids(t.rows)
  {
    Table(t.rows + [Row(t.last + 1, data)], t.last + 1)
  }

  /** The rows a `WHERE` clause keeps, in scan order. */
  function Where<R(!new)>(rows: seq<Row<R>>, keep: Row<R> -> bool): (r: seq<Row<R>>)
    ensures forall x :: x in r <==> x in rows && keep(x)
    ensures |r| <= |rows|
    ensures IdsIncreasing(rows) ==> IdsIncreasing(r)
  {
    if |rows| == 0 then []
    else
      var tail := Where(rows[1..], keep);
      assert forall x :: x in rows <==> x == rows[0] || x in rows[1..];
      if keep(rows[0]) then
        assert IdsIncreasing(rows) ==> forall k :: 0 <= k < |tail| ==> rows[0].id < tail[k].id by {
          if IdsIncreasing(rows) {
            forall k | 0 <= k < |tail| ensures rows[0].id < tail[k].id {
              assert tail[k] in rows[1..];
            }
          }
        }
        [rows[0]] + tail
      else
        tail
  }

  /** Two rows of a filtered table sit in the same order in the table itself,
      so any constraint on pairs of rows survives a `DELETE`. */
  lemma WherePairs<R(!new)>(rows: seq<Row<R>>, keep: Row<R> -> bool, i: int, j: int)
    requires IdsIncreasing(rows) && 0 <= i < j < |Where(rows, keep)|
    ensures exists i', j' :: 0 <= i' < j' < |rows| && Where(rows, keep)[i] == rows[i'] && Where(rows, keep)[j] == rows[j']
  {
    var r := Where(rows, keep);
    assert r[i] in rows && r[j] in rows;
    var i' :| 0 <= i' < |rows| && rows[i'] == r[i];
    var j' :| 0 <= j' < |rows| && rows[j'] == r[j];
    assert r[i].id < r[j].id;
    assert i' < j';
  }

  /** A `DELETE` keeps a well-formed table well-formed. */
  lemma WhereKeepsWellFormed<R(!new)>(t: Table<R>, keep: Row<R> -> bool)
    requires WellFormed(t)
    ensures WellFormed(Table(Where(t.rows, keep), t.last))
  {
    var r := Where(t.rows, keep);
    forall i | 0 <= i < |r| ensures 1 <= r[i].id <= t.last {
      assert r[i] in t.rows;
    }
  }

  lemma WhereSingle<R(!new)>(x: Row<R>, keep: Row<R> -> bool)
    ensures Where([x], keep) == if keep(x) then [x] else []
  {
    assert [x][1..] == [];
  }

  /** Filtering keeps every copy of a row that passes and none of one that
      does not. */
  lemma {:induction false} WhereCount<R(!new)>(rows: seq<Row<R>>, keep: Row<R> -> bool, x: Row<R>)
    ensures multiset(Where(rows, keep))[x] == if keep(x) then multiset(rows)[x] else 0
  {
    if |rows| > 0 {
      assert rows == [rows[0]] + rows[1..];
      WhereCount(rows[1..], keep, x);
    }
  }

  /** Filtering two orderings of the same rows keeps the same rows. */
  lemma WhereSameMultiset<R(!new)>(a: seq<Row<R>>, b: seq<Row<R>>, keep: Row<R> -> bool)
    requires multiset(a) == multiset(b)
    ensures multiset(Where(a, keep)) == multiset(Where(b, keep))
  {
    forall x ensures multiset(Where(a, keep))[x] == multiset(Where(b, keep))[x] {
      WhereCount(a, keep, x);
      WhereCount(b, keep, x);
    }
  }

  /** Filtering distributes over concatenation. */
  lemma {:induction false} WhereAppend<R(!new)>(a: seq<Row<R>>, b: seq<Row<R>>, keep: Row<R> -> bool)
    ensures Where(a + b, keep) == Where(a, keep) + Where(b, keep)
  {
    if |a| > 0 {
      assert (a + b)[1..] == a[1..] + b;
      WhereAppend(a[1..], b, keep);
    } else {
      assert a + b == b;
    }
  }

  /** Two conditions that exactly one of holds for each row split the rows
      between them. */
  lemma {:induction false} WherePartition<R(!new)>(rows: seq<Row<R>>, p: Row<R> -> bool, q: Row<R> -> bool)
    requires forall k :: 0 <= k < |rows| ==> p(rows[k]) != q(rows[k])
    ensures multiset(Where(rows, p)) + multiset(Where(rows, q)) == multiset(rows)
  {
    if |rows| > 0 {
      var x := rows[0];
      WherePartition(rows[1..], p, q);
      assert rows == [x] + rows[1..];
      assert multiset(Where(rows, p)) == (if p(x) then multiset{x} else multiset{}) + multiset(Where(rows[1..], p));
      assert multiset(Where(rows, q)) == (if q(x) then multiset{x} else multiset{}) + multiset(Where(rows[1..], q));
    }
  }

  /** A stricter condition never keeps more rows: this is why a count over a
      subset of the rows is bounded by the count over all of them. */
  lemma {:induction false} WhereCountMonotone<R(!new)>(rows: seq<Row<R>>, stricter: Row<R> -> bool, looser: Row<R> -> bool)
    requires forall x :: stricter(x) ==> looser(x)
    ensures |Where(rows, stricter)| <= |Where(rows, looser)|
  {
    if |rows| > 0 { WhereCountMonotone(rows[1..], stricter, looser); }
  }

  /** ... and it keeps strictly fewer as soon as one row passes the looser
      condition but not the stricter one. */
  lemma {:induction false} WhereCountStrict<R(!new)>(rows: seq<Row<R>>, stricter: Row<R> -> bool, looser: Row<R> -> bool, k: int)
    requires forall x :: stricter(x) ==> looser(x)
    requires 0 <= k < |rows| && looser(rows[k]) && !stricter(rows[k])
    ensures |Where(rows, stricter)| < |Where(rows, looser)|
  {
    if k == 0 {
      WhereCountMonotone(rows[1..], stricter, looser);
    } else {
      WhereCountStrict(rows[1..], stricter, looser, k - 1);
    }
  }

  /** Conditions that agree on every row keep the same rows. */
  lemma {:induction false} WhereCountEqual<R(!new)>(rows: seq<Row<R>>, p: Row<R> -> bool, q: Row<R> -> bool)
    requires forall k :: 0 <= k < |rows| ==> p(rows[k]) == q(rows[k])
    ensures Where(rows, p) == Where(rows, q)
  {
    if |rows| > 0 { WhereCountEqual(rows[1..], p, q); }
  }

  /** A condition no row meets keeps nothing. */
  lemma {:induction false} WhereEmpty<R(!new)>(rows: seq<Row<R>>, keep: Row<R> -> bool)
    requires forall k :: 0 <= k < |rows| ==> !keep(rows[k])
    ensures Where(rows, keep) == []
  {
    if |rows| > 0 { WhereEmpty(rows[1..], keep); }
  }

  /** Rows every one of which passes are all kept, in order. */
  lemma {:induction false} WhereAll<R(!new)>(rows: seq<Row<R>>, keep: Row<R> -> bool)
    requires forall k :: 0 <= k < |rows| ==> keep(rows[k])
    ensures Where(rows, keep) == rows
  {
    if |rows| > 0 {
      WhereAll(rows[1..], keep);
      assert rows == [rows[0]] + rows[1..];
    }
  }

  /** `idx` picks the elements of `a` out of `b` at strictly increasing
      positions: `a` is `b` with some elements left out, order kept. */
  predicate Embedding<T(==)>(a: seq<T>, b: seq<T>, idx: seq<int>) {
    && |idx| == |a|
    && (forall i :: 0 <= i < |idx| ==> 0 <= idx[i] < |b| && a[i] == b[idx[i]])
    && (forall i, j :: 0 <= i < j < |idx| ==> idx[i] < idx[j])
  }

  function Shift(idx: seq<int>): (r: seq<int>)
    ensures |r| == |idx| && forall i :: 0 <= i < |idx| ==> r[i] == idx[i] + 1
  {
    seq(|idx|, i requires 0 <= i < |idx| => idx[i] + 1)
  }

  /** The positions of the kept rows. */
  function KeptPositions<R>(rows: seq<Row<R>>, keep: Row<R> -> bool): (idx: seq<int>)
    decreases |rows|
  {
    if |rows| == 0 then []
    else if keep(rows[0]) then [0] + Shift(KeptPositions(rows[1..], keep))
    else Shift(KeptPositions(rows[1..], keep))
  }

  /** An embedding into the tail of `b`, shifted by one, with `b[0]` put in
      front, is an embedding into `b`. */
  lemma ConsEmbedding<T>(w: seq<T>, b: seq<T>, t: seq<int>)
    requires |b| > 0 && Embedding(w, b[1..], t)
    ensures Embedding(w, b, Shift(t))
    ensures Embedding([b[0]] + w, b, [0] + Shift(t))
  {
    var st := Shift(t);
    forall i | 0 <= i < |st| ensures 0 <= st[i] < |b| && w[i] == b[st[i]] {
      assert b[1..][t[i]] == b[t[i] + 1];
    }
    var idx := [0] + st;
    var r := [b[0]] + w;
    forall i | 0 <= i < |idx| ensures 0 <= idx[i] < |b| && r[i] == b[idx[i]] {
      if i > 0 { assert idx[i] == st[i - 1] && r[i] == w[i - 1]; }
    }
    forall i, j | 0 <= i < j < |idx| ensures idx[i] < idx[j] {
      assert idx[j] == st[j - 1];
      if i > 0 { assert idx[i] == st[i - 1]; }
    }
  }

  /** Filtering keeps the order of the rows it keeps. */
  lemma {:induction false} WhereEmbeds<R(!new)>(rows: seq<Row<R>>, keep: Row<R> -> bool)
    ensures Embedding(Where(rows, keep), rows, KeptPositions(rows, keep))
  {
    if |rows| > 0 {
      WhereEmbeds(rows[1..], keep);
      ConsEmbedding(Where(rows[1..], keep), rows, KeptPositions(rows[1..], keep));
    }
  }

  /** Two distinct positions meeting the condition make at least two kept rows. */
  lemma {:induction false} WhereTwoKept<R(!new)>(rows: seq<Row<R>>, keep: Row<R> -> bool, i: int, j: int)
    requires 0 <= i < j < |rows| && keep(rows[i]) && keep(rows[j])
    ensures |Where(rows, keep)| >= 2
  {
    if i == 0 {
      assert rows[j] == rows[1..][j - 1];
      assert rows[j] in Where(rows[1..], keep);
    } else {
      WhereTwoKept(rows[1..], keep, i - 1, j - 1);
    }
  }

  /** An `UPDATE ... WHERE`: every selected row's data is rewritten by `f`,
      ids and order are kept. */
  function UpdateWhere<R>(rows: seq<Row<R>>, selected: Row<R> -> bool, f: R -> R): (r: seq<Row<R>>)
    ensures |r| == |rows|
    ensures forall k :: 0 <= k < |r| ==> r[k].id == rows[k].id
    ensures forall k :: 0 <= k < |r| && !selected(rows[k]) ==> r[k] == rows[k]
    ensures forall k :: 0 <= k < |r| && selected(rows[k]) ==> r[k].data == f(rows[k].data)
  {
    seq(|rows|, k requires 0 <= k < |rows| => if selected(rows[k]) then Row(rows[k].id, f(rows[k].data)) else rows[k])
  }

  /** Rewriting data keeps ids, so a well-formed table stays well-formed. */
  lemma UpdateKeepsWellFormed<R>(t: Table<R>, selected: Row<R> -> bool, f: R -> R)
    requires WellFormed(t)
    ensures WellFormed(Table(UpdateWhere(t.rows, selected, f), t.last))
  {
  }
}

=== FILE: text.dfy ===
/** The Python string operations the pages apply to form fields: `strip()`,
    `upper()`, `lower()`, `in` (substring), `split(sep)` and `<=` (code-point
    order, which is also SQLite's BINARY collation for the ORDER BY clauses). */
module Text {

  import opened Wrappers

  /** The characters for which Python's `str.isspace()` holds. */
  predicate IsSpace(c: char) {
    || c == ' '
    || ('\U{9}' <= c <= '\U{D}')
    || ('\U{1C}' <= c <= '\U{1F}')
    || c == '\U{85}' || c == '\U{A0}' || c == '\U{1680}'
    || ('\U{2000}' <= c <= '\U{200A}')
    || c == '\U{2028}' || c == '\U{2029}' || c == '\U{202F}' || c == '\U{205F}' || c == '\U{3000}'
  }

  predicate AllSpace(s: string) {
    forall i :: 0 <= i < |s| ==> IsSpace(s[i])
  }

  lemma AllSpaceAppend(a: string, b: string)
    requires AllSpace(a) && AllSpace(b)
    ensures AllSpace(a + b)
  {
  }

  /** True when `s` neither starts nor ends with white space. */
  predicate Trimmed(s: string) {
    |s| > 0 ==> !IsSpace(s[0]) && !IsSpace(s[|s| - 1])
  }

  /** Number of leading white-space characters. */
  function LeadingSpaces(s: string): (n: nat)
    ensures n <= |s|
    ensures AllSpace(s[..n])
    ensures n < |s| ==> !IsSpace(s[n])
  {
    if |s| == 0 || !IsSpace(s[0]) then 0
    else
      var k := LeadingSpaces(s[1..]);
      assert s[1..][..k] == s[1..k + 1];
      k + 1
  }

  /** Number of trailing white-space characters. */
  function TrailingSpaces(s: string): (n: nat)
    ensures n <= |s|
    ensures AllSpace(s[|s| - n..])
    ensures n < |s| ==> !IsSpace(s[|s| - n - 1])
  {
    if |s| == 0 || !IsSpace(s[|s| - 1]) then 0
    else
      var k := TrailingSpaces(s[..|s| - 1]);
      assert s[..|s| - 1][|s| - 1 - k..] == s[|s| - 1 - k..|s| - 1];
      k + 1
  }

  /** Python's `s.strip()`: `s` is the result framed by white space only, and
      the result has no white space at either end. */
  function Strip(s: string): (r: string)
    ensures Trimmed(r)
    ensures exists pre: string, post: string :: s == pre + r + post && AllSpace(pre) && AllSpace(post)
    ensures r == [] <==> AllSpace(s)
  {
    var a := LeadingSpaces(s);
    var rest := s[a..];
    var b := TrailingSpaces(rest);
    var r := rest[..|rest| - b];
    var pre, post := s[..a], rest[|rest| - b..];
    assert s == pre + r + post;
    assert AllSpace(pre) && AllSpace(post);
    assert Trimmed(r) by {
      if |r| > 0 {
        assert r[0] == s[a];
        assert r[|r| - 1] == rest[|rest| - b - 1];
      }
    }
    assert r == [] ==> AllSpace(s) by {
      if r == [] { AllSpaceAppend(pre, post); }
    }
    assert AllSpace(s) ==> a == |s|;
    r
  }

  /** Stripping twice is stripping once. */
  lemma StripIdempotent(s: string)
    ensures Strip(Strip(s)) == Strip(s)
  {
    var r := Strip(s);
    assert LeadingSpaces(r) == 0;
    assert r[0..] == r;
    assert TrailingSpaces(r) == 0;
  }

  /** A string without white space at its ends is its own strip. */
  lemma StripIdempotentOnTrimmed(t: string)
    requires Trimmed(t)
    ensures Strip(t) == t
  {
    assert LeadingSpaces(t) == 0;
    assert t[0..] == t;
    assert TrailingSpaces(t) == 0;
  }

  /** Python's `c.upper()` restricted to ASCII letters. */
  function UpperChar(c: char): char {
    if 'a' <= c <= 'z' then (c as int - 32) as char else c
  }

  /** Python's `c.lower()` restricted to ASCII letters. */
  function LowerChar(c: char): char {
    if 'A' <= c <= 'Z' then (c as int + 32) as char else c
  }

  /** `s.upper()`: same length, no lower-case ASCII letter left, every other
      character kept. */
  function Upper(s: string): (r: string)
    ensures |r| == |s|
    ensures forall i :: 0 <= i < |r| ==> !('a' <= r[i] <= 'z')
    ensures forall i :: 0 <= i < |r| && !('a' <= s[i] <= 'z') ==> r[i] == s[i]
  {
    seq(|s|, i requires 0 <= i < |s| => UpperChar(s[i]))
  }

  /** `s.lower()`: same length, no upper-case ASCII letter left, every other
      character kept. */
  function Lower(s: string): (r: string)
    ensures |r| == |s|
    ensures forall i :: 0 <= i < |r| ==> !('A' <= r[i] <= 'Z')
    ensures forall i :: 0 <= i < |r| && !('A' <= s[i] <= 'Z') ==> r[i] == s[i]
  {
    seq(|s|, i requires 0 <= i < |s| => LowerChar(s[i]))
  }

  /** Upper-casing a string that has no lower-case letter changes nothing, so
      `Upper` is idempotent. */
  lemma UpperIdempotent(s: string)
    ensures Upper(Upper(s)) == Upper(s)
  {
  }

  /** `w` occurs in `s` starting at index `i`. */
  predicate OccursAt(s: string, w: string, i: int) {
    0 <= i && i + |w| <= |s| && s[i..i + |w|] == w
  }

  lemma OccursShift(s: string, w: string, i: int)
    requires |s| > 0 && i >= 1
    ensures OccursAt(s, w, i) <==> OccursAt(s[1..], w, i - 1)
  {
    if i + |w| <= |s| { assert s[i..i + |w|] == s[1..][i - 1..i - 1 + |w|]; }
  }

  /** Python's `needle in hay`: `needle` occurs somewhere in `hay`. */
  function Contains(hay: string, needle: string): (r: bool)
    ensures r <==> exists i :: OccursAt(hay, needle, i)
    decreases |hay|
  {
    if |needle| <= |hay| && hay[..|needle|] == needle then
      assert OccursAt(hay, needle, 0);
      true
    else if |hay| <= |needle| then
      assert forall i :: !OccursAt(hay, needle, i) by {
        forall i ensures !OccursAt(hay, needle, i) {
          if i == 0 && |needle| <= |hay| { assert hay[..|needle|] == hay[0..|needle|]; }
        }
      }
      false
    else
      var t := Contains(hay[1..], needle);
      if t then
        var i :| OccursAt(hay[1..], needle, i);
        OccursShift(hay, needle, i + 1);
        true
      else
        assert forall i :: !OccursAt(hay, needle, i) by {
          forall i ensures !OccursAt(hay, needle, i) {
            if i == 0 { assert hay[..|needle|] == hay[0..|needle|]; }
            else if i > 0 { OccursShift(hay, needle, i); }
          }
        }
        false
  }

  /** Python's `a <= b` on strings: lexicographic order on code points. */
  predicate LexLe(a: string, b: string) {
    |a| == 0 || (|b| > 0 && (a[0] < b[0] || (a[0] == b[0] && LexLe(a[1..], b[1..]))))
  }

  lemma {:induction false} LexLeReflexive(a: string)
    ensures LexLe(a, a)
  {
    if |a| > 0 { LexLeReflexive(a[1..]); }
  }

  lemma {:induction false} LexLeTotal(a: string, b: string)
    ensures LexLe(a, b) || LexLe(b, a)
  {
    if |a| > 0 && |b| > 0 && a[0] == b[0] { LexLeTotal(a[1..], b[1..]); }
  }

  lemma {:induction false} LexLeTransitive(a: string, b: string, c: string)
    requires LexLe(a, b) && LexLe(b, c)
    ensures LexLe(a, c)
  {
    if |a| > 0 && a[0] == b[0] && b[0] == c[0] { LexLeTransitive(a[1..], b[1..], c[1..]); }
  }

  lemma {:induction false} LexLeAntisymmetric(a: string, b: string)
    requires LexLe(a, b) && LexLe(b, a)
    ensures a == b
  {
    if |a| > 0 && |b| > 0 { LexLeAntisymmetric(a[1..], b[1..]); }
  }

  /** Index of the first occurrence of `sep` in `s`, if any. */
  function FindFirst(s: string, sep: string): (r: Option<nat>)
    requires |sep| > 0
    ensures r.Some? ==> OccursAt(s, sep, r.value)
    ensures r.Some? ==> forall j :: 0 <= j < r.value ==> !OccursAt(s, sep, j)
    ensures r.None? ==> forall j :: !OccursAt(s, sep, j)
    decreases |s|
  {
    if |s| < |sep| then None
    else if s[..|sep|] == sep then
      assert s[0..|sep|] == s[..|sep|];
      Some(0)
    else
      assert !OccursAt(s, sep, 0) by { assert s[0..|sep|] == s[..|sep|]; }
      match FindFirst(s[1..], sep)
      case None =>
        assert forall j :: !OccursAt(s, sep, j) by {
          forall j ensures !OccursAt(s, sep, j) {
            if j >= 1 { OccursShift(s, sep, j); }
          }
        }
        None
      case Some(k) =>
        OccursShift(s, sep, k + 1);
        assert forall j :: 1 <= j < k + 1 ==> !OccursAt(s, sep, j) by {
          forall j | 1 <= j < k + 1 ensures !OccursAt(s, sep, j) { OccursShift(s, sep, j); }
        }
        Some(k + 1)
  }

  /** Python's `s.split(sep)` for a non-empty separator: the pieces between the
      successive leftmost occurrences of `sep`. */
  function Split(s: string, sep: string): (r: seq<string>)
    requires |sep| > 0
    ensures |r| >= 1
    ensures FindFirst(s, sep).None? ==> r == [s]
    ensures FindFirst(s, sep).Some? ==> r[0] == s[..FindFirst(s, sep).value] && |r| >= 2
    decreases |s|
  {
    match FindFirst(s, sep)
    case None => [s]
    case Some(k) => [s[..k]] + Split(s[k + |sep|..], sep)
  }

  /** A split yields a second piece exactly when the separator occurs. */
  lemma SplitHasSecondPiece(s: string, sep: string)
    requires |sep| > 0
    ensures |Split(s, sep)| >= 2 <==> Contains(s, sep)
  {
    match FindFirst(s, sep)
    case None =>
    case Some(k) => assert OccursAt(s, sep, k);
  }

  /** Python's `sep.join(parts)`. */
  function Join(parts: seq<string>, sep: string): string {
    if |parts| == 0 then ""
    else if |parts| == 1 then parts[0]
    else parts[0] + sep + Join(parts[1..], sep)
  }

  /** Joining the pieces of a split with the same separator gives back the
      original text. */
  lemma {:induction false} JoinSplit(s: string, sep: string)
    requires |sep| > 0
    ensures Join(Split(s, sep), sep) == s
    decreases |s|
  {
    match FindFirst(s, sep)
    case None =>
    case Some(k) =>
      var tail := s[k + |sep|..];
      JoinSplit(tail, sep);
      var parts := Split(s, sep);
      assert parts == [s[..k]] + Split(tail, sep);
      assert parts[1..] == Split(tail, sep);
      assert s == s[..k] + sep + tail;
  }
}

=== FILE: unit_form.dfy ===
/** The unit screen's handlers `ajouter_unite`, `modifier_unite` and
    `supprimer_unite`: field normalisation, the warnings, and what the screen
    reports after calling `DatabaseManager`. */
module UnitForm {

  import opened Wrappers
  import opened Tables
  import opened Text
  import opened Store
  import Units

  /** The code as the screen saves it: stripped, then upper-cased. */
  function NormalizeCode(text: string): string {
    Upper(Strip(text))
  }

  /** Upper-casing keeps a string's ends free of white space. */
  lemma UpperKeepsTrimmed(t: string)
    requires Trimmed(t)
    ensures Trimmed(Upper(t))
  {
    if |t| > 0 {
      assert !('a' <= t[0] <= 'z') ==> Upper(t)[0] == t[0];
      assert !('a' <= t[|t| - 1] <= 'z') ==> Upper(t)[|t| - 1] == t[|t| - 1];
    }
  }

  /** A saved code has no white space at its ends and no lower-case ASCII
      letter, so typing it back in saves the same code. */
  lemma NormalizeCodeIdempotent(text: string)
    ensures Trimmed(NormalizeCode(text))
    ensures forall i :: 0 <= i < |NormalizeCode(text)| ==> !('a' <= NormalizeCode(text)[i] <= 'z')
    ensures NormalizeCode(NormalizeCode(text)) == NormalizeCode(text)
    ensures NormalizeCode(text) == [] <==> AllSpace(text)
  {
    var c := NormalizeCode(text);
    UpperKeepsTrimmed(Strip(text));
    StripIdempotentOnTrimmed(c);
    UpperIdempotent(Strip(text));
  }

  datatype UnitRejection = NoUnitSelected | MissingCode | MissingLibelle

  /** What the screen shows: a warning, a success message naming the code,
      the "code exists" error, or nothing (a deletion not confirmed). */
  datatype UnitResult = Rejected(reason: UnitRejection) | Succeeded(code: string) | CodeExists(code: string) | Cancelled

  datatype UnitOutcome = UnitOutcome(result: UnitResult, store: Store)

  /** The two field checks shared by adding and modifying. */
  function CheckFields(codeText: string, libelleText: string): (r: Result<(string, string), UnitRejection>)
    ensures r.Err? <==> AllSpace(codeText) || AllSpace(libelleText)
    ensures AllSpace(codeText) ==> r == Err(MissingCode)
    ensures !AllSpace(codeText) && AllSpace(libelleText) ==> r == Err(MissingLibelle)
    ensures r.Ok? ==> r.value == (NormalizeCode(codeText), Strip(libelleText)) && r.value.0 != [] && r.value.1 != []
  {
    NormalizeCodeIdempotent(codeText);
    var code := NormalizeCode(codeText);
    var libelle := Strip(libelleText);
    if code == [] then Err(MissingCode)
    else if libelle == [] then Err(MissingLibelle)
    else Ok((code, libelle))
  }

  /** `ajouter_unite` as written: `add_unite` answers `False` on a taken code
      instead of raising, so the screen reports success either way. */
  function AjouterUniteAsWritten(s: Store, codeText: string, libelleText: string): (r: UnitOutcome)
    ensures r.result.Rejected? <==> CheckFields(codeText, libelleText).Err?
    ensures r.result.Rejected? ==> r.store == s
    ensures !r.result.CodeExists?
    ensures r.result.Succeeded? ==>
      (r.result.code == NormalizeCode(codeText)
       && r.store == Units.CreateUnite(s, NormalizeCode(codeText), Strip(libelleText)).store)
    ensures Valid(s) ==> Valid(r.store)
  {
    match CheckFields(codeText, libelleText)
    case Err(why) => UnitOutcome(Rejected(why), s)
    case Ok(fields) => UnitOutcome(Succeeded(fields.0), Units.CreateUnite(s, fields.0, fields.1).store)
  }

  /** A taken code: nothing is written, yet the screen reports success. */
  lemma DuplicateAddReportedAsSuccess(s: Store, codeText: string, libelleText: string)
    requires CheckFields(codeText, libelleText).Ok?
    requires CodeHeldByOther(s.unites.rows, NormalizeCode(codeText), None)
    ensures AjouterUniteAsWritten(s, codeText, libelleText) == UnitOutcome(Succeeded(NormalizeCode(codeText)), s)
  {
  }

  /** `ajouter_unite` as evidently intended: the "code exists" error when the
      code is taken. */
  function AjouterUnite(s: Store, codeText: string, libelleText: string): (r: UnitOutcome)
    ensures r.result.Rejected? <==> CheckFields(codeText, libelleText).Err?
    ensures r.result.Rejected? || r.result.CodeExists? ==> r.store == s
    ensures CheckFields(codeText, libelleText).Ok? ==>
      (r.result.CodeExists? <==> CodeHeldByOther(s.unites.rows, NormalizeCode(codeText), None))
    ensures r.result.Succeeded? ==>
      r.store.unites.rows == s.unites.rows + [Row(s.unites.last + 1, Unit(NormalizeCode(codeText), Strip(libelleText)))]
    ensures Valid(s) ==> Valid(r.store)
  {
    match CheckFields(codeText, libelleText)
    case Err(why) => UnitOutcome(Rejected(why), s)
    case Ok(fields) =>
      var c := Units.CreateUnite(s, fields.0, fields.1);
      if c.result then UnitOutcome(Succeeded(fields.0), c.store) else UnitOutcome(CodeExists(fields.0), s)
  }

  /** The two versions differ only in what they report for a taken code. */
  lemma AddVersionsAgreeOnStore(s: Store, codeText: string, libelleText: string)
    ensures AjouterUnite(s, codeText, libelleText).store == AjouterUniteAsWritten(s, codeText, libelleText).store
    ensures AjouterUnite(s, codeText, libelleText).result.Succeeded? ==>
      AjouterUnite(s, codeText, libelleText) == AjouterUniteAsWritten(s, codeText, libelleText)
  {
  }

  /** `not self.selected_unite_id`: no unit chosen, or the falsy id 0. */
  predicate HasSelection(selected: Option<int>) {
    selected.Some? && selected.value != 0
  }

  /** `modifier_unite` as written: success is reported whatever
      `update_unite` answers. */
  function ModifierUniteAsWritten(s: Store, selected: Option<int>, codeText: string, libelleText: string): (r: UnitOutcome)
    ensures !HasSelection(selected) ==> r == UnitOutcome(Rejected(NoUnitSelected), s)
    ensures HasSelection(selected) ==> (r.result.Rejected? <==> CheckFields(codeText, libelleText).Err?)
    ensures r.result.Rejected? ==> r.store == s
    ensures !r.result.CodeExists?
    ensures r.result.Succeeded? ==>
      (HasSelection(selected) && r.result.code == NormalizeCode(codeText)
       && r.store == Units.UpdateUnite(s, selected.value, NormalizeCode(codeText), Strip(libelleText)).store)
    ensures Valid(s) ==> Valid(r.store)
  {
    if !HasSelection(selected) then UnitOutcome(Rejected(NoUnitSelected), s)
    else match CheckFields(codeText, libelleText)
      case Err(why) => UnitOutcome(Rejected(why), s)
      case Ok(fields) => UnitOutcome(Succeeded(fields.0), Units.UpdateUnite(s, selected.value, fields.0, fields.1).store)
  }

  /** Taking another unit's code: nothing changes, yet success is reported. */
  lemma DuplicateUpdateReportedAsSuccess(s: Store, id: int, codeText: string, libelleText: string)
    requires id != 0 && id in Ids(s.unites.rows)
    requires CheckFields(codeText, libelleText).Ok?
    requires CodeHeldByOther(s.unites.rows, NormalizeCode(codeText), Some(id))
    ensures ModifierUniteAsWritten(s, Some(id), codeText, libelleText) == UnitOutcome(Succeeded(NormalizeCode(codeText)), s)
  {
  }

  /** `modifier_unite` as evidently intended: the "code exists" error when
      `update_unite` refuses. */
  function ModifierUnite(s: Store, selected: Option<int>, codeText: string, libelleText: string): (r: UnitOutcome)
    ensures !HasSelection(selected) ==> r == UnitOutcome(Rejected(NoUnitSelected), s)
    ensures r.result.Rejected? || r.result.CodeExists? ==> r.store == s
    ensures HasSelection(selected) && CheckFields(codeText, libelleText).Ok? ==>
      (r.result.CodeExists? <==> selected.value in Ids(s.unites.rows)
                                 && CodeHeldByOther(s.unites.rows, NormalizeCode(codeText), selected))
    ensures r.result.Succeeded? ==>
      (HasSelection(selected) && CheckFields(codeText, libelleText).Ok?
       && r.store == Units.UpdateUnite(s, selected.value, NormalizeCode(codeText), Strip(libelleText)).store
       && Units.UpdateUnite(s, selected.value, NormalizeCode(codeText), Strip(libelleText)).result)
    ensures Valid(s) ==> Valid(r.store)
  {
    if !HasSelection(selected) then UnitOutcome(Rejected(NoUnitSelected), s)
    else match CheckFields(codeText, libelleText)
      case Err(why) => UnitOutcome(Rejected(why), s)
      case Ok(fields) =>
        var u := Units.UpdateUnite(s, selected.value, fields.0, fields.1);
        if u.result then UnitOutcome(Succeeded(fields.0), u.store) else UnitOutcome(CodeExists(fields.0), s)
  }

  /** An accepted edit rewrites exactly the selected unit's row. */
  lemma ModifierUniteRewritesRow(s: Store, selected: Option<int>, codeText: string, libelleText: string, k: int)
    requires ModifierUnite(s, selected, codeText, libelleText).result.Succeeded?
    requires 0 <= k < |s.unites.rows|
    ensures var r := ModifierUnite(s, selected, codeText, libelleText);
      |r.store.unites.rows| == |s.unites.rows|
      && r.store.unites.rows[k] == if s.unites.rows[k].id == selected.value
        then Row(selected.value, Unit(NormalizeCode(codeText), Strip(libelleText)))
        else s.unites.rows[k]
  {
  }

  /** `supprimer_unite`: a warning with no row selected, nothing unless the
      deletion is confirmed, and then success whatever `delete_unite`
      answers. The "still used by articles" error needs a FOREIGN KEY
      failure, which cannot happen: the keys are not enforced and
      `delete_unite` swallows every error. */
  function SupprimerUnite(s: Store, selected: Option<int>, confirmed: bool): (r: UnitOutcome)
    ensures selected.None? ==> r == UnitOutcome(Rejected(NoUnitSelected), s)
    ensures selected.Some? && !confirmed ==> r == UnitOutcome(Cancelled, s)
    ensures selected.Some? && confirmed ==>
      && r.result.Succeeded?
      && r.store.prix == s.prix && r.store.articles == s.articles && r.store.details == s.details
      && forall row :: row in r.store.unites.rows <==> row in s.unites.rows && row.id != selected.value
    ensures Valid(s) ==> Valid(r.store)
  {
    match selected
    case None => UnitOutcome(Rejected(NoUnitSelected), s)
    case Some(id) =>
      if !confirmed then UnitOutcome(Cancelled, s)
      else
        var code := match Find(s.unites.rows, id) case Some(u) => u.code case None => "";
        UnitOutcome(Succeeded(code), Units.DeleteUnite(s, id).store)
  }

  /** Deleting a unit that prices still name is reported as a success, and
      those prices are left pointing at a unit that is gone. */
  lemma DeleteUsedUnitLeavesDanglingPrices(s: Store, id: int, k: int)
    requires Valid(s)
    requires 0 <= k < |s.prix.rows| && s.prix.rows[k].data.uniteId == id
    ensures var r := SupprimerUnite(s, Some(id), true);
      r.result.Succeeded? && s.prix.rows[k] in r.store.prix.rows && id !in Ids(r.store.unites.rows)
  {
    var r := SupprimerUnite(s, Some(id), true);
    assert forall row :: row in r.store.unites.rows ==> row.id != id;
  }
}

=== FILE: units.dfy ===
/** `DatabaseManager`'s unit operations (`unite` table). Foreign keys are never
    switched on for the connection, so nothing stops a unit from being deleted
    while prices or invoice lines still name it. */
module Units {

  import opened Wrappers
  import opened Tables
  import opened Sorting
  import opened Store

  function UnitLabel(row: Row<Unit>): string {
    row.data.libelle
  }

  /** `get_all_unites`: every unit, ordered by label. */
  function GetAllUnites(s: Store): (r: seq<Row<Unit>>)
    ensures multiset(r) == multiset(s.unites.rows)
    ensures SortedBy(r, UnitLabel, false)
  {
    SortBy(s.unites.rows, UnitLabel, false)
  }

  /** `create_unite` (and the identical `add_unite`): an INSERT that the UNIQUE
      constraint on `code` turns into `False`. */
  function CreateUnite(s: Store, code: string, libelle: string): (r: Outcome<bool>)
    ensures !r.result <==> CodeHeldByOther(s.unites.rows, code, None)
    ensures !r.result ==> r.store == s
    ensures r.result ==> r.store == s.(unites := r.store.unites)
    ensures r.result ==> r.store.unites.rows == s.unites.rows + [Row(s.unites.last + 1, Unit(code, libelle))]
    ensures Valid(s) ==> Valid(r.store)
  {
    if CodeHeldByOther(s.unites.rows, code, None) then Outcome(false, s)
    else Outcome(true, s.(unites := Insert(s.unites, Unit(code, libelle))))
  }

  /** `update_unite`: the UPDATE touches the row with that id, if any; taking a
      code another unit holds fails the UNIQUE constraint and changes nothing.
      An id with no row matches nothing and still answers `True`. */
  function UpdateUnite(s: Store, id: int, code: string, libelle: string): (r: Outcome<bool>)
    ensures !r.result <==> id in Ids(s.unites.rows) && CodeHeldByOther(s.unites.rows, code, Some(id))
    ensures !r.result || id !in Ids(s.unites.rows) ==> r.store == s
    ensures r.store == s.(unites := r.store.unites)
    ensures r.store.unites.last == s.unites.last && |r.store.unites.rows| == |s.unites.rows|
    ensures forall k :: 0 <= k < |s.unites.rows| ==>
      r.store.unites.rows[k] == if r.result && s.unites.rows[k].id == id then Row(id, Unit(code, libelle)) else s.unites.rows[k]
    ensures Valid(s) ==> Valid(r.store)
  {
    if id !in Ids(s.unites.rows) then Outcome(true, s)
    else if CodeHeldByOther(s.unites.rows, code, Some(id)) then Outcome(false, s)
    else
      var rows := UpdateWhere(s.unites.rows, (row: Row<Unit>) => row.id == id, (u: Unit) => Unit(code, libelle));
      var s' := s.(unites := Table(rows, s.unites.last));
      assert Valid(s) ==> Valid(s') by {
        if Valid(s) {
          UpdateKeepsWellFormed(s.unites, (row: Row<Unit>) => row.id == id, (u: Unit) => Unit(code, libelle));
        }
      }
      Outcome(true, s')
  }

  /** `delete_unite`: the row goes; prices and invoice lines that name the unit
      stay, and the answer is always `True`. */
  function DeleteUnite(s: Store, id: int): (r: Outcome<bool>)
    ensures r.result
    ensures r.store == s.(unites := r.store.unites)
    ensures r.store.unites.last == s.unites.last
    ensures forall row :: row in r.store.unites.rows <==> row in s.unites.rows && row.id != id
    ensures Valid(s) ==> Valid(r.store)
  {
    Outcome(true, s.(unites := Table(Where(s.unites.rows, (row: Row<Unit>) => row.id != id), s.unites.last)))
  }
}

=== FILE: warehouses.dfy ===
/** `DatabaseManager`'s warehouse operations (`entrepot` table) and the
    article counts of `get_entrepot_stats`. The warehouse name carries no
    UNIQUE constraint, so no warehouse write can fail on a duplicate. */
module Warehouses {

  import opened Wrappers
  import opened Tables
  import opened Sorting
  import opened Store

  function WarehouseNom(row: Row<Warehouse>): string {
    row.data.nom
  }

  /** `get_all_entrepots`: every warehouse, ordered by name. */
  function GetAllEntrepots(s: Store): (r: seq<Row<Warehouse>>)
    ensures multiset(r) == multiset(s.entrepots.rows)
    ensures SortedBy(r, WarehouseNom, false)
  {
    SortBy(s.entrepots.rows, WarehouseNom, false)
  }

  /** `create_entrepot`: always a new row and its id, whatever names the other
      warehouses have. */
  function CreateEntrepot(s: Store, nom: string, localisation: Option<string>): (r: Outcome<Option<int>>)
    ensures r.result == Some(s.entrepots.last + 1)
    ensures r.store == s.(entrepots := r.store.entrepots)
    ensures r.store.entrepots.rows == s.entrepots.rows + [Row(s.entrepots.last + 1, Warehouse(nom, localisation))]
    ensures Valid(s) ==> Valid(r.store)
  {
    Outcome(Some(s.entrepots.last + 1), s.(entrepots := Insert(s.entrepots, Warehouse(nom, localisation))))
  }

  /** Two warehouses may share a name: creating a second one with the name of
      an existing one succeeds and both rows are kept. */
  lemma DuplicateWarehouseNamesAllowed(s: Store, nom: string, localisation: Option<string>)
    requires Valid(s)
    requires exists k :: 0 <= k < |s.entrepots.rows| && s.entrepots.rows[k].data.nom == nom
    ensures var r := CreateEntrepot(s, nom, localisation);
      r.result.Some? && |Where(r.store.entrepots.rows, (row: Row<Warehouse>) => row.data.nom == nom)| >= 2
  {
    var r := CreateEntrepot(s, nom, localisation);
    var rows := r.store.entrepots.rows;
    var k :| 0 <= k < |s.entrepots.rows| && s.entrepots.rows[k].data.nom == nom;
    assert rows[k] == s.entrepots.rows[k];
    WhereTwoKept(rows, (row: Row<Warehouse>) => row.data.nom == nom, k, |s.entrepots.rows|);
  }

  /** `update_entrepot`: the row with that id, if any, gets the new name and
      location; the answer is always `True`. */
  function UpdateEntrepot(s: Store, id: int, nom: string, localisation: Option<string>): (r: Outcome<bool>)
    ensures r.result
    ensures r.store == s.(entrepots := r.store.entrepots)
    ensures r.store.entrepots.last == s.entrepots.last && |r.store.entrepots.rows| == |s.entrepots.rows|
    ensures forall k :: 0 <= k < |s.entrepots.rows| ==>
      r.store.entrepots.rows[k] == if s.entrepots.rows[k].id == id then Row(id, Warehouse(nom, localisation)) else s.entrepots.rows[k]
    ensures Valid(s) ==> Valid(r.store)
  {
    var sel := (row: Row<Warehouse>) => row.id == id;
    var f := (w: Warehouse) => Warehouse(nom, localisation);
    var s' := s.(entrepots := Table(UpdateWhere(s.entrepots.rows, sel, f), s.entrepots.last));
    assert Valid(s) ==> Valid(s') by {
      if Valid(s) { UpdateKeepsWellFormed(s.entrepots, sel, f); }
    }
    Outcome(true, s')
  }

  /** `delete_entrepot`: the row goes and the answer is `True`; the articles
      that named the warehouse keep their `entrepot_id`. */
  function DeleteEntrepot(s: Store, id: int): (r: Outcome<bool>)
    ensures r.result
    ensures r.store == s.(entrepots := r.store.entrepots)
    ensures r.store.entrepots.last == s.entrepots.last
    ensures forall row :: row in r.store.entrepots.rows <==> row in s.entrepots.rows && row.id != id
    ensures Valid(s) ==> Valid(r.store)
  {
    var keep := (row: Row<Warehouse>) => row.id != id;
    var s' := s.(entrepots := Table(Where(s.entrepots.rows, keep), s.entrepots.last));
    assert Valid(s) ==> Valid(s') by {
      if Valid(s) { WhereKeepsWellFormed(s.entrepots, keep); }
    }
    Outcome(true, s')
  }

  /** `get_entrepot_by_id`: the warehouse with that id, or `None`. */
  function GetEntrepotById(s: Store, id: int): (r: Option<Warehouse>)
    ensures r.Some? <==> id in Ids(s.entrepots.rows)
    ensures Valid(s) ==> forall k :: 0 <= k < |s.entrepots.rows| && s.entrepots.rows[k].id == id ==> r == Some(s.entrepots.rows[k].data)
  {
    Find(s.entrepots.rows, id)
  }

  predicate ActiveIn(row: Row<Article>, entrepotId: int) {
    row.data.entrepotId == Some(entrepotId) && row.data.actif == 1
  }

  /** The `WHERE entrepot_id = ? AND actif = 1` condition for one warehouse. */
  function ActiveInWarehouse(entrepotId: int): Row<Article> -> bool {
    (row: Row<Article>) => ActiveIn(row, entrepotId)
  }

  predicate Active(row: Row<Article>) {
    row.data.actif == 1
  }

  /** `part / whole * 100`, or 0 for an empty whole. */
  function Percent(part: nat, whole: nat): (p: real)
    requires part <= whole
    ensures 0.0 <= p <= 100.0
    ensures whole == 0 ==> p == 0.0
    ensures whole > 0 ==> p * (whole as real) == 100.0 * (part as real)
    ensures p == 100.0 <==> whole > 0 && part == whole
  {
    if whole > 0 then
      var f := (part as real) / (whole as real);
      assert f * (whole as real) == part as real;
      FractionAtMostOne(part as real, whole as real, f);
      f * 100.0
    else 0.0
  }

  lemma FractionAtMostOne(q: real, w: real, f: real)
    requires 0.0 <= q <= w && 0.0 < w && f * w == q
    ensures 0.0 <= f <= 1.0
    ensures f == 1.0 <==> q == w
  {
    assert (1.0 - f) * w == w - q;
  }

  /** The two article counts of `get_entrepot_stats` and the share they give. */
  datatype ArticleShare = ArticleShare(totalArticles: nat, totalArticlesActifs: nat, pourcentage: real)

  /** `get_entrepot_stats`, first two queries: the active articles stored in
      the warehouse, all active articles, and the first as a percentage of
      the second (0 when there is no active article at all). */
  function EntrepotShare(s: Store, entrepotId: int): (r: ArticleShare)
    ensures r.totalArticles == |Where(s.articles.rows, ActiveInWarehouse(entrepotId))|
    ensures r.totalArticlesActifs == |Where(s.articles.rows, Active)|
    ensures r.totalArticles <= r.totalArticlesActifs
    ensures 0.0 <= r.pourcentage <= 100.0
    ensures r.totalArticlesActifs == 0 ==> r.pourcentage == 0.0
    ensures r.pourcentage == 100.0 <==> r.totalArticlesActifs > 0 && r.totalArticles == r.totalArticlesActifs
  {
    var rows := s.articles.rows;
    var inWarehouse := |Where(rows, ActiveInWarehouse(entrepotId))|;
    var active := |Where(rows, Active)|;
    WhereCountMonotone(rows, ActiveInWarehouse(entrepotId), Active);
    var p := Percent(inWarehouse, active);
    ArticleShare(inWarehouse, active, p)
  }

  /** The share is 100 exactly when there are active articles and every one
      of them is stored in this warehouse. */
  lemma FullShareIffAllActiveHere(s: Store, entrepotId: int)
    ensures EntrepotShare(s, entrepotId).pourcentage == 100.0 <==>
      (exists k :: 0 <= k < |s.articles.rows| && Active(s.articles.rows[k]))
      && forall k :: 0 <= k < |s.articles.rows| && Active(s.articles.rows[k]) ==> ActiveIn(s.articles.rows[k], entrepotId)
  {
    var rows := s.articles.rows;
    var here := ActiveInWarehouse(entrepotId);
    var r := EntrepotShare(s, entrepotId);
    if exists k :: 0 <= k < |rows| && Active(rows[k]) && !ActiveIn(rows[k], entrepotId) {
      var k :| 0 <= k < |rows| && Active(rows[k]) && !ActiveIn(rows[k], entrepotId);
      WhereCountStrict(rows, here, Active, k);
    } else if exists k :: 0 <= k < |rows| && Active(rows[k]) {
      var k :| 0 <= k < |rows| && Active(rows[k]);
      assert rows[k] in Where(rows, Active);
      WhereCountEqual(rows, here, Active);
    } else {
      WhereEmpty(rows, Active);
    }
  }
}

=== FILE: wrappers.dfy ===
/** Failure-carrying values shared by every module of the model: `Option` stands
    for Python's `None`-or-value returns, `Result` for an exception that escapes. */
module Wrappers {

  datatype Option<+T> = None | Some(value: T) {

    /** The value, or `default` when there is none. */
    function GetOr(default: T): T {
      match this
      case Some(v) => v
      case None => default
    }
  }

  datatype Result<+T, +E> = Ok(value: T) | Err(error: E)
}
